=== FILE: README.md ===
# JanaBhasha dictionary core in Dafny

JanaBhasha is a Streamlit app for collecting words, phrases, folk songs and
stories in Indian languages. Each contribution becomes one row of a
dictionary table, and the app fills in English translations for the row.

This project models the app's logic as pure Dafny functions over an
in-memory table (`seq<Entry>`) and proves what that logic promises. The parts
modelled are:

- **The entry store.** This covers:
  - the five seed rows;
  - `add_entry`, which assigns the next id, stamps the row, fills
    translations and appends it;
  - the translation fill, `_auto_translate_entry`, with its `setdefault`
    fallback;
  - the language-code table;
  - `search_entries` and `get_languages`;
  - the fixed entry types;
  - `save_audio_file`, whose `os.path.join` is modelled as on POSIX;
  - `get_basic_stats` and `get_analytics_data`;
  - how pandas reads the table back: a field that is empty or spells one of
    pandas' default missing-value markers ("NA", "None", "nan" and 16 more)
    becomes NaN. This matters for the search mask, the contributor counts,
    the audio count and the contribution page's read-back.
- **The stub AI services.** These are `translate_text`, `enhance_meaning`,
  `generate_example_sentences`, `transcribe_audio`,
  `analyze_cultural_significance` and `suggest_related_words`, each with its
  fallback value.
- **The contribution page.** This covers:
  - the required-field gate;
  - the optional enhancement of the meaning;
  - the audio file name and the transcript with its fallback;
  - the record handed to the store;
  - reading the saved row back.
- **The translation page.** This covers:
  - its own language-code table;
  - the guards in front of the buttons;
  - batch translation of an uploaded sheet;
  - the record built when a translation is added to the dictionary;
  - how the add form is reached across Streamlit reruns: as written it never is.
- **The dictionary browser.** This covers the filter options, the
  empty-result return, the card pagination, when a card shows a translation,
  and where a card looks for audio.
- **The analytics page.** This covers the integer counts, the per-language
  table sorted by total, and the audio section.

Some things come from outside the app: the clock, the uuid, the outcome of
file writes, whether a translation call raises, and whether a stub's page
notification raises. These are parameters of the functions that need them.

The modules:

| module | concern |
|---|---|
| `Text` | prefix, suffix and substring tests; ASCII `lower`; `strip()`-blankness with Python's whitespace set; POSIX `os.path.join`; the extension after the last dot; string order |
| `Optional` | `Option` |
| `Collections` | `Tally`; the `value_counts` model (count, then a stable descending sort); sorting distinct strings |
| `Entries` | `Candidate`, `Entry`, the seed rows, the entry types, the store's language-code table |
| `Queries` | row criteria and order-preserving selection (a boolean mask); the column extractors |
| `Store` | the translation fill, ids, `add_entry`, sequences of adds |
| `Csv` | the missing-value markers `read_csv` turns into NaN; a field as read back |
| `Search` | `search_entries`, `get_languages` |
| `Stats` | `get_basic_stats`, `get_analytics_data`, the contributor column as read back |
| `Puter` | the stub services |
| `Contribute`, `TranslatePage`, `DictionaryPage`, `AnalyticsPage` | the four pages |

## Model

| member | source | states |
|---|---|---|
| Entries.Seed | Cursor/modules/Database.py:28-46 | The seed holds five rows with ids exactly 1..5. All are verified, in Hindi, contributed by "System", without audio, and stamped with the given instant. |
| Entries.GetEntryTypes | Cursor/modules/Database.py:158-160 | Exactly four distinct names, in the order "Word", "Phrase", "Folk Song", "Story", none of them empty. |
| Entries.SeedKindsAreEntryTypes | Cursor/modules/Database.py:28-46 | Every seed row's type is one of the four entry types. |
| Entries.LanguageCode | Cursor/modules/Database.py:123-131 | A listed name (13 languages plus "auto") resolves to its table code. Any other name resolves to its lower-cased self. The code is always in lower case. |
| Store.FillFields | Cursor/modules/Database.py:90-112 | The fill loop changes only translations and drops no key. A translation that changed belongs to a field that needed one, and it holds that field's call result. If no call raised, every field that needed a translation has its call result. If the loop stopped early, some needed call raised. |
| Store.SetDefaults | Cursor/modules/Database.py:114-121 | Afterwards every key is present. Keys that were set keep their value, and a missing key gets the field's source text. Nothing else changes. |
| Store.AutoTranslate | Cursor/modules/Database.py:88-121 | Only translations change, and a non-empty translation the caller supplied is never overwritten. If no needed call raises, exactly the fields with source text and no translation get the translator's answer; the rest keep their keys and values. If a needed call raises, every key ends up present, and a key the caller left out holds either its source text or a translation made before the raise. |
| Store.FillRaisesIffFails | Cursor/modules/Database.py:96-112 | The fill loop stops early exactly when some needed translation call raises. |
| Store.AutoTranslateIdempotent | Cursor/modules/Database.py:97-110 | With a translator that does not raise on the record, filling twice gives the same record as filling once. |
| Store.AutoTranslateNotIdempotentWhenRaising | Cursor/modules/Database.py:97-121 | A concrete record and translator for which filling twice differs from filling once. The translator raises on the word, so the first pass stops before the empty meaning translation, and the second pass fills it. |
| Store.NextId | Cursor/modules/Database.py:67 | The new id is 1 on an empty store. Otherwise it is one more than an existing id, and it is larger than every existing id. |
| Store.NextIdConsecutive | Cursor/modules/Database.py:67 | On a store whose ids are 1..n, the next id is n + 1. |
| Store.SeedNextId | Cursor/modules/Database.py:67 | The first entry added to the seeded store gets id 6. |
| Store.Stamp | Cursor/modules/Database.py:70-72 | The row gets the new id and the current instant, and verified is false whatever the caller passed. Text fields are copied, and an absent translation is stored as "". |
| Store.NewEntry | Cursor/modules/Database.py:64-75 | The appended row's id exceeds every existing id. It is stamped with the current instant, is not verified, and carries the record's text fields. |
| Store.AddEntryAsWritten | Cursor/modules/Database.py:56-86 | `add_entry` as written reports success only when both the CSV write and the refresh-marker write succeed. Whenever the CSV write succeeded, exactly the new row is appended and the earlier rows are unchanged. |
| Store.MarkerFailureMisreported | Cursor/modules/Database.py:56-86 | When the marker write fails, `add_entry` reports failure although the new row is stored. |
| Store.AddEntry | Cursor/modules/Database.py:61-86 | The call succeeds exactly when the CSV write succeeds, and then exactly one row is appended with the earlier rows unchanged and in order. On failure the store is left as it was. Strictly increasing ids stay strictly increasing. |
| Store.LastWithWord | Cursor/pages/Contribute.py:148-149 | Returns the last row of the store holding the word: no later row holds it. Returns nothing exactly when no row holds it. |
| Store.LastWithWordAppend | Cursor/pages/Contribute.py:148-149 | After appending a row, the last row with a word is the new row if it holds the word, and otherwise the last such row before. |
| Store.AddEntrySameStore | Cursor/modules/Database.py:56-86 | `add_entry` as written and the corrected add leave the same store for every write outcome, and success as written implies success of the corrected add. |
| Store.ReadBackByWord | Cursor/pages/Contribute.py:148-149 | The read-back by word on the table as pandas reads it. A word that reads back as NaN equals no cell, so it finds no row. Any other word finds exactly the last row holding it, as `Store.LastWithWord` does. |
| Store.AddedEntryIsLastWithWord | Cursor/pages/Contribute.py:144-149 | Once the CSV write succeeded, with `add_entry` as written or corrected, the last row holding the submitted word is the new row. |
| Store.ReplayAppendOnly | Cursor/modules/Database.py:61-86 | Any sequence of adds keeps the old rows as a prefix and adds one row per successful CSV write. Ids stay strictly increasing, hence unique. |
| Store.ReplayKeepsIdsConsecutive | Cursor/modules/Database.py:67 | Starting from ids 1..n, the ids stay 1..m after any sequence of adds. No id is skipped or reused. |
| Store.ReplayFromEmpty | Cursor/modules/Database.py:67-79 | N successful adds to an empty store give exactly the ids 1..N. |
| Queries.MatchesTextColumns | Cursor/modules/Database.py:137-142 | The text query matches a row exactly when it matches the word, the meaning or the example cell as read back, and a cell read back as NaN never matches. |
| Queries.Select | Cursor/modules/Database.py:137-149 | A mask keeps exactly the rows meeting the criterion, in store order (a subsequence). |
| Queries.CountComplement | pages/Analytics.py:139-143 | For any criterion, the rows meeting it plus the rows failing it are all the rows. |
| Queries.CountAll | pages/Analytics.py:139-143 | A criterion counts every row exactly when every row meets it. |
| Queries.SelectBoth | Cursor/modules/Database.py:137-149 | Applying one mask after another equals applying a single mask for both conditions. |
| Queries.SelectIdempotent | Cursor/modules/Database.py:137-149 | Applying the same mask twice is applying it once. |
| Queries.CountLanguage | pages/Analytics.py:78-79 | The rows selected for a language are as many as that language's occurrences in the language column, the number `value_counts` reports. |
| Search.SearchEntries | Cursor/modules/Database.py:133-151 | The result is a subsequence of the store. A row is in it exactly when it matches the query and every non-empty language and type filter. The query matches case-insensitively in the word, meaning or example cell as read back, and a cell read back as NaN ("", "NA", "None", …) never matches. All-empty arguments return the store unchanged. |
| Search.SearchIsOneSelection | Cursor/modules/Database.py:133-151 | The three masks in sequence are one selection by the combined condition. |
| Search.SearchIdempotent | Cursor/modules/Database.py:133-151 | Searching a search result again with the same arguments returns it unchanged. |
| Search.MarkersNeverMatch | Cursor/modules/Database.py:137-142 | A row whose word, meaning and example all read back as NaN is never found by a non-empty query. |
| Search.MarkerMeaningNotFound | Cursor/modules/Database.py:137-142 | A row with the meaning "NA" is not found by the query "na", although the text "NA" contains it case-insensitively. |
| Search.GetLanguages | Cursor/modules/Database.py:153-156 | The result is strictly ascending, so it has no duplicates. It holds exactly the languages occurring in the store, one per distinct language. |
| Csv.ReadCell | Cursor/modules/Database.py:48-52 | `read_csv` gives back a field as NaN exactly when it is one of pandas' 19 default missing-value markers, the empty field among them. Any other field comes back as its own non-empty text. |
| Csv.SameCell | Cursor/modules/Database.py:48-52 | Two fields come back as the same cell exactly when both are markers, or they are the same text that is not a marker. Distinct markers collapse into the one NaN. |
| Csv.LongFieldIsText | Cursor/modules/Database.py:48-52 | A field longer than eight characters is never a marker, so it comes back as its text. |
| Csv.UnderscoreFieldIsText | Cursor/modules/Database.py:48-52 | A field holding "_" is never a marker, so it comes back as its text. |
| Csv.MarkersReadAsNaN | Cursor/modules/Database.py:48-52 | "", "NA", "None" and "nan" all come back as NaN. |
| Stats.AudioFilesAsRead | Cursor/modules/Database.py:213 | On the table read back from the CSV, `audio_file != ''` holds for every row, because an empty path comes back as NaN. The audio count therefore equals the row count. |
| Stats.AudioFiles | pages/Analytics.py:176 | The number of rows with a non-empty audio path. It equals the row count exactly when every row has audio, and it is positive exactly when some row has audio. |
| Stats.GetBasicStats | Cursor/modules/Database.py:197-216 | All zero on an empty store. Otherwise the total is the row count, and languages is the number of distinct languages. Contributors is the number of distinct contributor cells as read back, so every name that reads back as NaN counts as one. Both are between 1 and the total. The verified count is the number of verified rows. The audio count, as written, is the row count. |
| Stats.KnownContributors | Cursor/modules/Database.py:237 | The contributor column without its NaN cells: exactly the names that are not markers, each as often as in the column, in row order. With no marker name it is the whole column. |
| Stats.ContributorsAsText | Cursor/modules/Database.py:214 | When no contributor name reads back as NaN, the contributor count is the number of distinct names. |
| Stats.NaContributorsCollapse | Cursor/modules/Database.py:214 | Two rows contributed by "NA" and "None" have two distinct names but count as one contributor. |
| Stats.SeedAudioMiscount | Cursor/modules/Database.py:213 | On the seeded store, where no row has audio, the overview reports five audio files while the rows with audio are none. |
| Stats.LanguagesAfterAppend | Cursor/modules/Database.py:212 | Appending a row raises the language count by one exactly when its language is new to the store. |
| Stats.GetAnalyticsData | Cursor/modules/Database.py:218-244 | Returns nothing exactly on an empty store. Otherwise the language and type distributions are value counts of their columns: one entry per distinct value, the true counts, in descending order, summing to the row count. Recent activity is the number of rows stamped in the last thirty days. The top contributors are the five most frequent names among those that do not read back as NaN (`value_counts` drops NaN), or all such names when fewer. They are distinct, none is a marker, each carries its true count in the column, and none is less frequent than a name left out. |
| Stats.LanguageDistributionCountsRows | Cursor/modules/Database.py:226 | Each entry of the language distribution counts exactly the rows that a filter on its language selects, and at least one. |
| Stats.TopAreKnown | Cursor/modules/Database.py:237 | Every top contributor is a name that does not read back as NaN, and its count is its number of rows. |
| Stats.TopAreMostFrequent | Cursor/modules/Database.py:237 | The first min(5, number of distinct values) entries of a descending value count are distinct, carry their true counts, and are at least as frequent as every value left out. |
| Collections.ValueCounts | Cursor/modules/Database.py:226 | `value_counts` gives one entry per distinct value, each with its number of occurrences (at least one), in descending order of count. The counts sum to the number of values. |
| Collections.SortDesc | pages/Analytics.py:89 | The result is in descending order of the key and is a permutation of the input. |
| Text.Join | Cursor/modules/Database.py:187 | `os.path.join` on POSIX: an absolute second part is the result as it is. Otherwise the result starts with the first part and ends with the second, with one "/" between when the first part is non-empty and has no trailing "/". |
| Text.AfterLastDot | Cursor/pages/Contribute.py:188 | The extension contains no dot and is a suffix of the name. |
| Text.AfterLastDotCases | Cursor/pages/Contribute.py:188 | A name without a dot is its own extension. Otherwise the extension is shorter than the name, and a dot stands just before it. |
| Contribute.GateBlocksIncomplete | Cursor/pages/Contribute.py:68-74 | If word, meaning, language or type is empty, the submit only warns and the store is unchanged. |
| Contribute.AudioFilename | Cursor/pages/Contribute.py:188-189 | The file name starts with `word_type_` and has the upload's extension. It is an absolute path exactly when the word is. |
| Contribute.AudioFilenameDigits | Cursor/pages/Contribute.py:189 | With a full uuid, exactly its first eight hex digits and a dot follow the `word_type_` stem, then the extension. |
| Contribute.SavedAudioPath | Cursor/modules/Database.py:185-190 | For a word that is not an absolute path, the written path starts with the text `data/Audio_Transcripts/` followed by the stem. For an absolute word it is the file name itself. Either way it keeps the upload's extension. |
| Contribute.AbsoluteWordEscapes | Cursor/modules/Database.py:187 | The word "/tmp/x" makes the audio file land at a path starting with `/tmp/x_Word_`, not under the audio directory. |
| Contribute.ParentWordEscapes | Cursor/modules/Database.py:187 | The word "../x" makes the written path start with `data/Audio_Transcripts/../x_Word_`, a file outside the audio directory. |
| Contribute.SafeAudioPath | Cursor/modules/Database.py:185-190 | The corrected path is the audio directory, "/", and a file name holding no "/": always one file directly inside the directory. |
| Contribute.SafeAudioPathAgrees | Cursor/modules/Database.py:185-190 | For a generated name holding no "/", the corrected path is the path written today. |
| Contribute.ProcessAudio | Cursor/pages/Contribute.py:183-209 | If writing the file raises, both path and transcript are empty. Otherwise the path is the written path, which for a word that is not an absolute path starts with the text `data/Audio_Transcripts/` and the stem, and keeps the upload's extension. If the stub transcription raises, the Whisper fallback text is used. Otherwise the transcript is empty exactly when the stub fails, and names the language when it does not. |
| Contribute.StoredMeaning | Cursor/pages/Contribute.py:84-128 | The stored meaning contains the submitted one. It equals the submitted meaning unless enhancement was asked for and succeeded; in that case it differs and quotes the word. |
| Contribute.Assemble | Cursor/pages/Contribute.py:130-140 | The record has the form's word, language, type and example; the contributor's name or "Anonymous"; and no translation keys. Without audio, the path and transcript are empty; with audio, they are the processed path and transcript. |
| Contribute.Submit | Cursor/pages/Contribute.py:68-181 | With `add_entry` as written: the gate fails exactly when a required field is empty. The store changes exactly when the gate passes and the CSV write succeeds, and then by appending the assembled record's row. When either write fails, the page reports a failure to save, although after a marker failure the row is stored. When both succeed, the page shows the saved row exactly when the word does not read back as NaN. For a word such as "NA", the read-back raises and the page shows the generic error for a stored row. A saved row shown is the new row, unverified, with a non-empty contributor. |
| Contribute.PlainSubmission | Cursor/pages/Contribute.py:82-149 | With both writes succeeding and without audio or enhancement, one row is appended holding the form's word, language, type, meaning and example exactly, with empty audio path and transcript. The page shows it exactly when the word does not read back as NaN. |
| Contribute.MarkerWordReadBackFails | Cursor/pages/Contribute.py:144-181 | Submitting the word "NA" stores its row, but the read-back finds nothing and the page reports an error. |
| Contribute.ResubmitAfterMarkerFailure | Cursor/pages/Contribute.py:144-177 | After a marker failure, which the page reports as a failure to save with a request to try again, submitting the same form again stores the word a second time. This time the page shows it unless the word reads back as NaN. |
| Contribute.StoredAudioPathIsText | Cursor/pages/Contribute.py:183-209 | The audio path handed to the store is empty or holds "_", so it never reads back as NaN unless it is empty. |
| TranslatePage.PageLanguageCode | Cursor/pages/Translate.py:208-226 | A listed name (13 languages plus "Auto-detect") resolves to its code. Any other name resolves to its lower-cased self. |
| TranslatePage.CodesAgreeExceptAutoDetect | Cursor/pages/Translate.py:210-226 | The page's table and the store's table agree on every name except "Auto-detect". |
| TranslatePage.TranslateRequest | Cursor/pages/Translate.py:34-61 | No call is made exactly when the text is blank after `strip()`, with Python's whitespace set (including the Unicode spaces). Otherwise the result ends with the text, and stripping the note gives the text back. |
| TranslatePage.UnicodeSpacesAreBlank | Cursor/pages/Translate.py:35 | A text of ideographic and no-break spaces makes no call; a text with a letter after such a space does. |
| TranslatePage.EnhanceRequest | Cursor/pages/Translate.py:79-106 | No call is made exactly when word or meaning is empty. Otherwise there are two calls, each with its own failure. The enhanced meaning always contains the meaning. When the enhancement succeeds it quotes the word and has three related words; when it fails it is the meaning itself with no related words. When the example call succeeds there are three examples, each quoting the word; when it fails there are none. |
| TranslatePage.EnhanceIndependent | Cursor/pages/Translate.py:83-98 | The enhancement depends only on its own call's failure and the examples only on theirs. A failed enhancement can still come with three examples. |
| TranslatePage.BatchResultNote | Cursor/pages/Translate.py:131-141 | A batch result ends with the row's word. It starts with "[English Translation]: " because the stub gets the name "English", not a code. It is the word itself when the stub fails. |
| TranslatePage.TranslateRows | Cursor/pages/Translate.py:128-145 | One result per row whose language cell is filled. |
| TranslatePage.TranslateRowsComplete | Cursor/pages/Translate.py:128-143 | Every row with a language cell has its result among the results. |
| TranslatePage.TranslateRowsSound | Cursor/pages/Translate.py:128-143 | Every result is the result of some row with a language cell. |
| TranslatePage.TranslateRowsAppend | Cursor/pages/Translate.py:128-143 | The results keep row order: a further row adds its result, if any, at the end. |
| TranslatePage.TranslateRowsAllFilled | Cursor/pages/Translate.py:128-143 | With every language cell filled, the results match the rows one for one. |
| TranslatePage.BatchTranslate | Cursor/pages/Translate.py:121-162 | An error exactly when the sheet lacks a `word` or a `language` column. Otherwise the row results, at most one per row. |
| TranslatePage.DictionaryCandidate | Cursor/pages/Translate.py:186-195 | The added record is always a "Word" in the source language, with no audio and no transcript. The contributor is the name given or "Anonymous", and the record has no translation keys. |
| TranslatePage.AddToDictionary | Cursor/pages/Translate.py:182-203 | With `add_entry` as written: the pending translation is dropped exactly when both writes succeed, and is kept otherwise. If the CSV write fails the store is unchanged. Whenever it succeeds, one unverified "Word" row with the pending word and source language and no audio is appended, even when the page reports failure. |
| TranslatePage.AddAgainAfterMarkerFailure | Cursor/pages/Translate.py:182-203 | After a marker failure the translation stays pending, and adding it again stores the word a second time. |
| TranslatePage.AutoDetectStoredCode | Cursor/pages/Translate.py:186-197 | A translation added from "Auto-detect" is stored under a language the store resolves to "auto-detect", while the page itself used "auto". |
| TranslatePage.RunAsWritten | Cursor/pages/Translate.py:34-56 | One rerun of the translate section as written. The translation is shown exactly when the translate button was clicked and the text is not blank. The pending translation never changes, because the add button only returns True on a rerun where the translate button returns False. |
| TranslatePage.AddFormUnreachable | Cursor/pages/Translate.py:34-56 | Starting with nothing pending, no sequence of clicks sets the pending translation, so the add form at line 168 is never shown as written. |
| TranslatePage.RunCorrected | Cursor/pages/Translate.py:34-56 | The corrected section keeps the last translation shown between reruns, with the add button outside the translate branch. A translate click records the text, its translation and both languages. An add click makes the recorded translation pending. Any other click changes nothing. |
| TranslatePage.TranslateThenAddOpensForm | Cursor/pages/Translate.py:34-56 | In the corrected section, a translate click followed by an add click leaves the translation just shown pending, so the add form opens on it. |
| Puter.TranslateText | Cursor/modules/PuterTranslate.py:75-105 | The result is the text behind a note naming the target: the mapped name for the ten listed codes, otherwise the code itself. On failure it is the text unchanged. |
| Puter.TranslateRoundTrip | Cursor/modules/PuterTranslate.py:101 | Removing the note from a stub translation gives the original text back. |
| Puter.StubFill | Cursor/modules/Database.py:94-110 | With the stub as translator, every field that needs it gets "[en Translation]: " followed by its text. Every other translation key is kept as it was. |
| Puter.StubTranslatedWord | Cursor/modules/Database.py:97-98 | With the stub, a new row's English word is "[en Translation]: " followed by the word, unless the caller supplied one. |
| Puter.EnhanceMeaning | Cursor/modules/PuterTranslate.py:107-133 | The enhanced meaning always contains the meaning. On success it is longer and quotes the word, with three distinct related words `word_related…` and a context naming the language. On failure the result is the meaning, no words and no context. |
| Puter.GenerateExampleSentences | Cursor/modules/PuterTranslate.py:135-155 | On success, three distinct sentences, each quoting the word and naming the language. On failure, none. |
| Puter.TranscribeAudio | Cursor/modules/PuterTranslate.py:157-173 | The result is empty exactly on failure. Otherwise it names the language. |
| Puter.AnalyzeCulturalSignificance | Cursor/modules/PuterTranslate.py:175-197 | On success, two distinct variations `word_regional…`, a significance naming the language and quoting the word, and a history naming the language. On failure, empty strings and no variations. |
| Puter.SuggestRelatedWords | Cursor/modules/PuterTranslate.py:199-221 | On success, five distinct words, each the word followed by "_" and a tag. On failure, none. |
| DictionaryPage.LanguageOptions | Cursor/pages/Dictionary.py:18-19 | "" first, then exactly the store's languages. |
| DictionaryPage.TypeOptions | Cursor/pages/Dictionary.py:22-23 | "" first, then the four entry types, with no repeats. |
| DictionaryPage.OptionsSelect | Cursor/pages/Dictionary.py:18-29 | The first options filter nothing, and every other language option selects at least one row. |
| DictionaryPage.BrowseEntries | Cursor/pages/Dictionary.py:29-33 | The page stops exactly when the search is empty. Otherwise it goes on with at least one row. |
| DictionaryPage.TotalPages | Cursor/pages/Dictionary.py:79-80 | The page count is the ceiling of n / 20: the last page is partly or fully used. |
| DictionaryPage.PageChoices | Cursor/pages/Dictionary.py:84 | The selectable pages are exactly 1..total pages. |
| DictionaryPage.PageWindow | Cursor/pages/Dictionary.py:87-88 | Each page holds 1 to 20 rows within bounds, and every page but the last holds exactly 20. |
| DictionaryPage.PagesPartition | Cursor/pages/Dictionary.py:87-93 | Every row index lies on page `i / 20 + 1` and on no other page. |
| DictionaryPage.PageRows | Cursor/pages/Dictionary.py:86-93 | A page shows 1 to 20 cards, all from the result. |
| DictionaryPage.PagesConcatenate | Cursor/pages/Dictionary.py:84-93 | Pages 1..k, one after the other, are the first rows of the result in order. |
| DictionaryPage.AllPages | Cursor/pages/Dictionary.py:84-93 | All pages, one after the other, give back the result exactly. |
| DictionaryPage.CardTranslation | Cursor/pages/Dictionary.py:161-167 | A card has a translation block exactly when the row's translated word is present and non-empty. The block starts with the translated word and ends with the translated meaning. |
| DictionaryPage.TranslatedCards | Cursor/pages/Dictionary.py:162 | A row's card has a translation block exactly when the row is among the rows the analytics count as translated. |
| DictionaryPage.CardAudioPathAsWritten | Cursor/pages/Dictionary.py:173-176 | The card joins the audio directory and the stored path: the result ends with the stored path, starts with `data/Audio_Transcripts/` when the stored path is relative, and is the stored path when it is absolute. |
| DictionaryPage.CardAudioPathDoubled | Cursor/pages/Dictionary.py:173-175 | For a row saved with audio from a word that is not an absolute path, the card's path differs from the written file and repeats the audio directory. |
| DictionaryPage.StoredPathDoubled | Cursor/pages/Dictionary.py:173-175 | Any stored path starting with the audio directory is looked up under the directory twice. |
| DictionaryPage.CardAudioPathIsWrittenFile | Cursor/pages/Dictionary.py:173-175 | Using the stored path as it is, the card looks at exactly the file the contribution page wrote, which lies under the audio directory when the word is not an absolute path. |
| AnalyticsPage.StatusCounts | pages/Analytics.py:139-143 | The page computes pending = total − verified and untranslated = total − translated. These equal the numbers of unverified and untranslated rows, so neither is negative, and each pair sums to the total. |
| AnalyticsPage.LanguageRows | pages/Analytics.py:77-88 | One line per entry of the distribution, in its order. A descending distribution gives lines descending by total. |
| AnalyticsPage.LanguageRowsFaithful | pages/Analytics.py:78-81 | Each line's total is that language's row count (at least one). Its translated count is the number of that language's translated rows, never above the total. |
| AnalyticsPage.LanguageTable | pages/Analytics.py:89 | The table is sorted by total, descending, and is a permutation of the lines. |
| AnalyticsPage.SortRowsAlike | pages/Analytics.py:89 | Sorting the lines by total gives the lines of the distribution sorted by count. |
| AnalyticsPage.LanguageTableFaithful | pages/Analytics.py:58-91 | The table has one line per distinct language of the store, each right for its language. The totals sum to the row count, and the lines descend by total. |
| AnalyticsPage.AudioCount | pages/Analytics.py:173-176 | On a non-empty store the overview's audio count is the row count, so it is positive. The rows with audio are at most that many, and exactly that many only when every row has audio. |
| AnalyticsPage.AudioSectionFaithful | pages/Analytics.py:176-198 | The section holds exactly the rows with an audio path, in store order. Their number is the corrected audio count, at most the overview's count and equal to it only when every row has audio. Both charts count each of them once, and the language chart names exactly their languages. |
| AnalyticsPage.Audio | pages/Analytics.py:173-198 | As written, the section appears exactly when the overview's audio count is positive, which on a non-empty store is always. It keeps the promises above, and with no row with audio it is empty. |
| AnalyticsPage.AudioCorrected | pages/Analytics.py:173-198 | Gated on the corrected count, the section appears exactly when some row has audio, and then it is non-empty and keeps the promises above. |
| AnalyticsPage.EmptyAudioSectionShown | pages/Analytics.py:173-198 | On the seeded store the page shows an audio section with no rows, while the corrected gate shows none. |
| AnalyticsPage.Show | pages/Analytics.py:16-198 | An empty store shows only the warning. Otherwise the page shows the basic stats, status counts that mean what they say, analytics meeting their promise, the language table, and the audio section exactly when the overview's audio count is positive. |

## Left out

- Streamlit and plotly rendering: widgets, HTML cards, charts, page switching and spinners. These hold no logic beyond display.
- File input and output: reading and writing the CSV, the refresh-marker file, creating directories, and writing audio bytes. The table is an in-memory sequence. The outcome of a write is a parameter (`WriteOutcome`, `Outside.saveRaises`).
- Store.AddEntry, Store.AddEntryAsWritten, Contribute.Submit and TranslatePage.AddToDictionary: `CsvFailed` models a `to_csv` that raises before the file is opened, for example on a permission error or a missing directory, which leaves the file as it was. `to_csv` opens the file with mode "w", which empties it first. A write that fails part-way (a full disk, an I/O error) therefore leaves a partial or empty CSV, and an empty one makes every later `read_csv` in `load_data` raise. That case is not modelled, so "the store is unchanged on a failed CSV write" holds only for a failure before the file is opened.
- The Whisper model, `Database.transcribe_audio` and `enhance_with_openai`. Whisper is a foreign library; its transcript is a parameter (`Outside.whisperText`). `enhance_with_openai` is never called by the modelled pages.
- The `requests` session, `_init_puter` and `_call_puter_api`. These are network code, and `_call_puter_api` is never called. Only the stubs' return values are modelled.
- Clock and uuid: `datetime.now()` is an integer instant and `uuid4().hex` a string parameter. Timestamps are abstract seconds, and the thirty-day window is an integer comparison; parsing ISO timestamps is not modelled.
- Exceptions in the stubs: the only statements that can raise in a stub body are page notifications. Whether they raise is the boolean parameter `failed`.
- Concurrency: `add_entry` reads, takes the maximum and writes without a lock. Only sequential adds are modelled; id uniqueness is proved for them only.
- Percentages and progress fractions are floats. Only the integer counts behind them are modelled.
- The analytics growth-trend chart, the recent-entries table and the insights list. These are display over the same counts.
- The dictionary's table view, its detail view and the detail view's enhancement buttons. These are display and are out of scope. One crash in them is recorded here and not modelled. The detail view tests cells by truthiness (Cursor/pages/Dictionary.py:207, 210, 232), and NaN is truthy. A row without audio therefore reaches `os.path.join("data", "Audio_Transcripts", nan)` at line 233, which raises TypeError. The default "Table" view opens the first row's details as soon as it loads (lines 65-73). On the seeded store, where no row has audio, the dictionary page therefore raises.
- The add form of the translation page (Cursor/pages/Translate.py:168-206) is not reachable as written, and a Findings row records this. Its only way in is the "Add to JanaBhasha Dictionary" button at line 49. That button is created inside the translate button's branch, and under Streamlit's rerun model it never fires (`TranslatePage.AddFormUnreachable`). TranslatePage.AddToDictionary, TranslatePage.AddAgainAfterMarkerFailure and TranslatePage.AutoDetectStoredCode model the form from the pending state onward, as it would behave once reached. That is, in the corrected section (`TranslatePage.RunCorrected`), or with the state set by other means.
- Queries.Holds: `str.contains` treats the query as a regular expression; the model matches it as a plain substring. Case folding is ASCII-only (`Text.Lower`), not Unicode.
- NaN read-back: `Csv.ReadCell` models pandas' default missing-value markers. It is applied where a marker changes an answer: the search mask, the contributor count, the top contributors, the `!= ''` audio count and the contribution page's read-back by word. Elsewhere cells are compared as text, and that stays faithful for the following reasons:
  - Language and type cells always come from fixed option lists (Cursor/pages/Contribute.py:39-46, Cursor/pages/Translate.py:21-25), the translation page's rows are always a "Word", and the seed rows use "Hindi". None of these is a marker.
  - Audio paths are empty or hold "_" (`Contribute.StoredAudioPathIsText`), so `HasAudio`'s `!= ""` agrees with the analytics page's `notna() & != ''`.
  - `IsTranslated` tests the translated word as text. A stub translation starts with "[en Translation]: ", so it is longer than eight characters and never a marker (`Csv.LongFieldIsText`). Only a translation that fell back to a marker word, after a raising translator, would read back as NaN and differ.
- SearchEntries, GetBasicStats and GetAnalyticsData: the language and type columns are compared as text, not as read back. For a store whose every language and type cell came from the pages this is the same answer. A hand-edited CSV with a language "NA" would be counted as text by the model, where pandas counts NaN.
- Column type inference by `read_csv` is not modelled: a column whose every cell is numeric would come back as numbers. The seed rows keep every text column non-numeric.
- DictionaryPage.CardTranslation: an empty translated meaning next to a translated word would be read back as NaN and printed as "nan". The model shows the empty string.
- Contribute.Submit and TranslatePage.AddToDictionary: these are modelled on `add_entry` as written. Pages built on the corrected add are not modelled separately. `Store.AddEntrySameStore` shows that the two adds leave the same store and differ only in the reported result.
- Text.Join: only the POSIX behaviour of `os.path.join` is modelled, not the Windows one.
- Collections.ValueCounts: pandas does not promise an order between equal counts. The model keeps first-occurrence order, a stable descending sort.
- AnalyticsPage.LanguageTable: `sort_values` is not stable by default, so lines with equal totals may come in any order. The model sorts stably; the promised properties (descending totals, the same lines) do not depend on the tie order.
- Store.AutoTranslateIdempotent: stated only for a translator that does not raise on the record. `Store.AutoTranslateNotIdempotentWhenRaising` shows that filling twice can differ from filling once otherwise.
- TranslatePage.TranslateRows: a row whose language cell is empty or a missing-value marker (`Csv.IsMarker`) is read as NaN. `get_language_code` then raises on it, and the row is skipped; this is modelled. An empty word cell would be formatted as "nan"; the model takes the word as a string.
- DictionaryPage.CardAudioPath: `os.path.exists` is not modelled. The corrected card path is the stored path; whether the file still exists is outside the model.

## Findings

| source | as written | input that shows it | evidently intended | confidence | as-written member | corrected member |
|---|---|---|---|---|---|---|
| Cursor/modules/Database.py:56-86 | `save_data` writes the CSV and then the refresh marker, inside `add_entry`'s try block. Any exception makes `add_entry` return False. | The CSV write succeeds and the marker write raises (for example, the marker file is not writable). The row is stored but the page reports failure, and a retry stores it twice. This is proved in `Store.MarkerFailureMisreported`, and for both pages in `Contribute.ResubmitAfterMarkerFailure` and `TranslatePage.AddAgainAfterMarkerFailure`. | The result reports whether the row was stored. | not executed | Store.AddEntryAsWritten | Store.AddEntry |
| Cursor/pages/Dictionary.py:173-175 | The card joins "data", "Audio_Transcripts" and the stored `audio_file`. That stored value is already the full path `data/Audio_Transcripts/<name>` returned by `save_audio_file`. | Any entry saved with audio from a word that is not an absolute path. The card looks under the audio directory twice, never finds the file, and shows no player. This is proved in `DictionaryPage.CardAudioPathDoubled`. The detail view at lines 233-235 does the same. | The card uses the stored path as it is. | not executed | DictionaryPage.CardAudioPathAsWritten | DictionaryPage.CardAudioPath |
| Cursor/modules/Database.py:185-190 | `process_audio` builds the file name from the raw word (Contribute.py:189), and `save_audio_file` joins it to the audio directory unchecked. | The word "/tmp/x": `os.path.join` drops the directory and the file is written to `/tmp/x_Word_<hex>.wav`. The word "../x": the file is written to `data/x_Word_<hex>.wav`, beside the directory. These are proved in `Contribute.AbsoluteWordEscapes` and `Contribute.ParentWordEscapes`. | The upload is written directly inside the audio directory whatever the word holds. | not executed | Contribute.SavedAudioPath | Contribute.SafeAudioPath |
| Cursor/pages/Translate.py:49-56 | The "Add to JanaBhasha Dictionary" button, the only code that sets the add form's pending translation, is created inside the branch of the translate button at line 34. | Translate a text, then click the add button. Streamlit reruns the script with only the clicked button True, so the translate branch is skipped and the add button's branch never runs. No click sequence sets the pending translation, and the add form at line 168 never appears. This is proved in `TranslatePage.AddFormUnreachable`. | A translation that was shown can be added: it is kept in the page state, and the add button sits outside the translate branch. | not executed | TranslatePage.RunAsWritten | TranslatePage.RunCorrected |
| Cursor/modules/Database.py:213 | `get_basic_stats` counts audio files as `df['audio_file'] != ''` on the table read back from the CSV, where an empty path is NaN and NaN is unequal to ''. | The seeded store, where no row has audio: the overview reports 5 audio files. This is proved in `Stats.SeedAudioMiscount`. The analytics page then shows an empty audio section, proved in `AnalyticsPage.EmptyAudioSectionShown`. | The count of rows with a non-empty path, the test the analytics page itself applies at pages/Analytics.py:176. | not executed | Stats.AudioFilesAsRead | Stats.AudioFiles |

=== FILE: analytics_page.dfy ===
/**
 The analytics page: the early return on an empty store, the translation and
 verification counts, the per-language statistics table sorted by total, and
 the audio section over the rows that carry an audio file.
 */
module AnalyticsPage {
  import opened Optional
  import opened Collections
  import opened Entries
  import opened Queries
  import opened Stats

  // ---------------------------------------------------------------------
  // Status counts

  /** The translation and verification counts the page shows. */
  datatype Status = Status(total: nat, translated: nat, untranslated: nat, verified: nat, pending: nat)

  /** What the counts mean: translated rows are those with an English word,
      untranslated rows those without one, pending rows those not verified,
      and each pair adds up to the store. */
  predicate StatusOf(st: Status, s: seq<Entry>) {
    && st.total == |s|
    && st.translated == Count(s, IsTranslated)
    && st.untranslated == Count(s, Not(IsTranslated))
    && st.verified == Count(s, IsVerified)
    && st.pending == Count(s, Not(IsVerified))
    && st.translated + st.untranslated == st.total
    && st.verified + st.pending == st.total
  }

  /** The counts as the page derives them: `pending = total - verified` and
      `untranslated = total - translated`, with total and verified taken
      from `get_basic_stats`. */
  function StatusCounts(s: seq<Entry>): (st: Status)
    requires s != []
    ensures StatusOf(st, s)
  {
    var stats := GetBasicStats(s);
    var translated := Count(s, IsTranslated);
    CountComplement(s, IsTranslated);
    CountComplement(s, IsVerified);
    Status(stats.totalWords, translated, stats.totalWords - translated,
           stats.verifiedEntries, stats.totalWords - stats.verifiedEntries)
  }

  // ---------------------------------------------------------------------
  // Language statistics

  /** One line of the language statistics table. */
  datatype LanguageRow = LanguageRow(language: string, total: nat, translated: nat)

  function TotalOf(row: LanguageRow): nat {
    row.total
  }

  /** The line for one entry of the language distribution: its count, and the
      translated rows among the rows of that language. */
  function LanguageRowOf(s: seq<Entry>, t: Tally): LanguageRow {
    LanguageRow(t.value, t.count, Count(Select(s, InLanguage(t.value)), IsTranslated))
  }

  function LanguageRows(s: seq<Entry>, dist: seq<Tally>): (rows: seq<LanguageRow>)
    ensures |rows| == |dist|
    ensures forall i :: 0 <= i < |dist| ==> rows[i] == LanguageRowOf(s, dist[i])
    ensures SortedDesc(dist, CountOf) ==> SortedDesc(rows, TotalOf)
  {
    seq(|dist|, i requires 0 <= i < |dist| => LanguageRowOf(s, dist[i]))
  }

  /** The `Language` column of a table. */
  function TableLanguages(t: seq<LanguageRow>): (ls: seq<string>)
    ensures |ls| == |t|
    ensures forall i :: 0 <= i < |t| ==> ls[i] == t[i].language
  {
    seq(|t|, i requires 0 <= i < |t| => t[i].language)
  }

  /** The table `sort_values("Total", ascending=False)` gives. */
  function LanguageTable(s: seq<Entry>, dist: seq<Tally>): (t: seq<LanguageRow>)
    ensures SortedDesc(t, TotalOf)
    ensures multiset(t) == multiset(LanguageRows(s, dist))
  {
    SortDesc(LanguageRows(s, dist), TotalOf)
  }

  /** A line is right for its language: its total is the number of rows in
      that language, at least one, and its translated count is the number
      of those rows with an English word, never above the total. */
  ghost predicate LineOf(row: LanguageRow, s: seq<Entry>) {
    && row.total == Count(s, InLanguage(row.language))
    && row.total >= 1
    && row.translated == Count(s, Both(InLanguage(row.language), IsTranslated))
    && row.translated <= row.total
  }

  /** Every line of `t` is right for its language. */
  ghost predicate LinesOf(t: seq<LanguageRow>, s: seq<Entry>) {
    forall i :: 0 <= i < |t| ==> LineOf(t[i], s)
  }

  /** What the table promises: one line per language of the store, each
      right for its language, the totals adding up to the store, and
      the lines in descending order of total. */
  ghost predicate LanguageTableOf(t: seq<LanguageRow>, s: seq<Entry>) {
    && SortedDesc(t, TotalOf)
    && |t| == GetBasicStats(s).languages
    && Distinct(TableLanguages(t))
    && (forall l :: l in TableLanguages(t) <==> l in Languages(s))
    && LinesOf(t, s)
    && SumBy(t, TotalOf) == |s|
  }

  /** Each line built from the store's language distribution is right. */
  lemma LanguageRowsFaithful(s: seq<Entry>, i: nat)
    requires i < |ValueCounts(Languages(s))|
    ensures LineOf(LanguageRowOf(s, ValueCounts(Languages(s))[i]), s)
  {
    var t := ValueCounts(Languages(s))[i];
    CountLanguage(s, t.value);
    SelectBoth(s, InLanguage(t.value), IsTranslated);
  }

  /** Building the lines keeps the sum of the counts. */
  lemma {:induction false} LanguageRowsSum(s: seq<Entry>, dist: seq<Tally>)
    ensures SumBy(LanguageRows(s, dist), TotalOf) == SumBy(dist, CountOf)
  {
    if dist != [] {
      LanguageRowsSum(s, dist[1..]);
      assert LanguageRows(s, dist)[1..] == LanguageRows(s, dist[1..]);
    }
  }

  /** Inserting a tally and then building the lines is inserting its line. */
  lemma {:induction false} InsertRow(s: seq<Entry>, x: Tally, ys: seq<Tally>)
    requires SortedDesc(ys, CountOf)
    ensures LanguageRows(s, InsertDesc(x, ys, CountOf)) ==
            InsertDesc(LanguageRowOf(s, x), LanguageRows(s, ys), TotalOf)
  {
    if ys == [] || CountOf(ys[0]) <= CountOf(x) {
      InsertRowFront(s, x, ys);
    } else {
      assert SortedDesc(ys[1..], CountOf);
      InsertRow(s, x, ys[1..]);
      InsertRowPast(s, x, ys);
    }
  }

  /** The insertion stops in front of the first tally, for both sequences. */
  lemma {:induction false} InsertRowFront(s: seq<Entry>, x: Tally, ys: seq<Tally>)
    requires SortedDesc(ys, CountOf)
    requires ys == [] || CountOf(ys[0]) <= CountOf(x)
    ensures LanguageRows(s, InsertDesc(x, ys, CountOf)) ==
            InsertDesc(LanguageRowOf(s, x), LanguageRows(s, ys), TotalOf)
  {
    var rows := LanguageRows(s, ys);
    var row := LanguageRowOf(s, x);
    assert InsertDesc(x, ys, CountOf) == [x] + ys;
    if ys != [] {
      assert TotalOf(rows[0]) <= TotalOf(row);
    }
    assert InsertDesc(row, rows, TotalOf) == [row] + rows;
    LanguageRowsCons(s, x, ys);
  }

  /** The insertion passes the first tally, for both sequences. */
  lemma {:induction false} InsertRowPast(s: seq<Entry>, x: Tally, ys: seq<Tally>)
    requires SortedDesc(ys, CountOf)
    requires ys != [] && CountOf(ys[0]) > CountOf(x)
    requires SortedDesc(ys[1..], CountOf)
    requires LanguageRows(s, InsertDesc(x, ys[1..], CountOf)) ==
             InsertDesc(LanguageRowOf(s, x), LanguageRows(s, ys[1..]), TotalOf)
    ensures LanguageRows(s, InsertDesc(x, ys, CountOf)) ==
            InsertDesc(LanguageRowOf(s, x), LanguageRows(s, ys), TotalOf)
  {
    var rows := LanguageRows(s, ys);
    var row := LanguageRowOf(s, x);
    var r := InsertDesc(x, ys[1..], CountOf);
    assert InsertDesc(x, ys, CountOf) == [ys[0]] + r;
    assert rows[0] == LanguageRowOf(s, ys[0]) && rows[1..] == LanguageRows(s, ys[1..]) by {
      LanguageRowsCons(s, ys[0], ys[1..]);
      assert ys == [ys[0]] + ys[1..];
    }
    assert InsertDesc(row, rows, TotalOf) == [rows[0]] + InsertDesc(row, rows[1..], TotalOf) by {
      assert TotalOf(rows[0]) > TotalOf(row);
    }
    LanguageRowsCons(s, ys[0], r);
  }

  /** The lines of a tally followed by others. */
  lemma LanguageRowsCons(s: seq<Entry>, x: Tally, ys: seq<Tally>)
    ensures LanguageRows(s, [x] + ys) == [LanguageRowOf(s, x)] + LanguageRows(s, ys)
  {
  }

  /** Sorting the lines by total is building the lines from the tallies
      sorted by count: both sorts keep equal keys in their order. */
  lemma {:induction false} SortRowsAlike(s: seq<Entry>, dist: seq<Tally>)
    ensures LanguageTable(s, dist) == LanguageRows(s, SortDesc(dist, CountOf))
  {
    if dist != [] {
      var rows := LanguageRows(s, dist);
      var row := LanguageRowOf(s, dist[0]);
      var tail := SortDesc(dist[1..], CountOf);
      assert rows == [row] + LanguageRows(s, dist[1..]) by {
        assert dist == [dist[0]] + dist[1..];
        LanguageRowsCons(s, dist[0], dist[1..]);
      }
      assert SortDesc(rows, TotalOf) == InsertDesc(row, SortDesc(LanguageRows(s, dist[1..]), TotalOf), TotalOf) by {
        assert rows[0] == row && rows[1..] == LanguageRows(s, dist[1..]);
      }
      assert SortDesc(dist, CountOf) == InsertDesc(dist[0], tail, CountOf);
      SortRowsAlike(s, dist[1..]);
      InsertRow(s, dist[0], tail);
    }
  }

  /** Sorting keeps every line right when every line was right. */
  lemma SortedLines(s: seq<Entry>, dist: seq<Tally>)
    requires forall k :: 0 <= k < |dist| ==> LineOf(LanguageRowOf(s, dist[k]), s)
    ensures LinesOf(LanguageTable(s, dist), s)
  {
    var t := LanguageTable(s, dist);
    var rows := LanguageRows(s, dist);
    forall i | 0 <= i < |t| ensures LineOf(t[i], s) {
      assert t[i] in multiset(rows);
      var a :| 0 <= a < |rows| && rows[a] == t[i];
    }
  }

  /** Every line of the table is right for its language. */
  lemma LanguageTableLines(s: seq<Entry>)
    ensures LinesOf(LanguageTable(s, ValueCounts(Languages(s))), s)
  {
    var dist := ValueCounts(Languages(s));
    forall k | 0 <= k < |dist| ensures LineOf(LanguageRowOf(s, dist[k]), s) {
      LanguageRowsFaithful(s, k);
    }
    SortedLines(s, dist);
  }

  /** The table has one line per distinct language of the store. */
  lemma TableSize(s: seq<Entry>)
    requires s != []
    ensures |LanguageTable(s, ValueCounts(Languages(s)))| == GetBasicStats(s).languages
  {
    SortRowsAlike(s, ValueCounts(Languages(s)));
  }

  /** The table's languages are the store's languages, each once. */
  lemma TableLanguagesOf(s: seq<Entry>)
    ensures var t := LanguageTable(s, ValueCounts(Languages(s)));
            Distinct(TableLanguages(t)) && forall l :: l in TableLanguages(t) <==> l in Languages(s)
  {
    var dist := ValueCounts(Languages(s));
    var sorted := SortDesc(dist, CountOf);
    SortRowsAlike(s, dist);
    RowsLanguages(s, sorted);
    PermutedTally(sorted, dist);
  }

  /** The `Language` column of the lines is the distribution's values. */
  lemma RowsLanguages(s: seq<Entry>, dist: seq<Tally>)
    ensures TableLanguages(LanguageRows(s, dist)) == Values(dist)
  {
  }

  /** The table's totals add up to the number of rows. */
  lemma TableSum(s: seq<Entry>)
    ensures SumBy(LanguageTable(s, ValueCounts(Languages(s))), TotalOf) == |s|
  {
    var dist := ValueCounts(Languages(s));
    SortRowsAlike(s, dist);
    SortDescSum(dist, CountOf);
    LanguageRowsSum(s, SortDesc(dist, CountOf));
  }

  /** The table built from `get_analytics_data`'s language distribution. */
  lemma LanguageTableFaithful(s: seq<Entry>)
    requires s != []
    ensures LanguageTableOf(LanguageTable(s, ValueCounts(Languages(s))), s)
  {
    TableSize(s);
    TableLanguagesOf(s);
    LanguageTableLines(s);
    TableSum(s);
  }

  // ---------------------------------------------------------------------
  // Audio section

  /** The audio section: the rows with audio, counted by language and by type. */
  datatype AudioSection = AudioSection(rows: seq<Entry>, byLanguage: seq<Tally>, byType: seq<Tally>)

  /** What the section promises: it is exactly the rows with a non-empty
      audio path, in store order, and each chart counts every one of them
      once. Their number is the intended audio count, which the overview's
      count exceeds unless every row has audio. */
  ghost predicate AudioSectionOf(a: AudioSection, s: seq<Entry>) {
    && (forall e :: e in a.rows <==> e in s && e.audioFile != "")
    && IsSubsequence(a.rows, s)
    && |a.rows| == AudioFiles(s)
    && |a.rows| <= GetBasicStats(s).audioFiles
    && (|a.rows| == GetBasicStats(s).audioFiles <==> forall i :: 0 <= i < |s| ==> s[i].audioFile != "")
    && SumBy(a.byLanguage, CountOf) == |a.rows|
    && SumBy(a.byType, CountOf) == |a.rows|
    && (forall l :: l in Values(a.byLanguage) <==> exists e :: e in a.rows && e.language == l)
  }

  /** The values of a language column are the languages of its rows. */
  lemma LanguagesOfRows(rows: seq<Entry>)
    ensures forall l :: l in Languages(rows) <==> exists e :: e in rows && e.language == l
  {
    forall l | l in Languages(rows) ensures exists e :: e in rows && e.language == l {
      var i :| 0 <= i < |rows| && Languages(rows)[i] == l;
      assert rows[i] in rows;
    }
    forall l | (exists e :: e in rows && e.language == l) ensures l in Languages(rows) {
      var e :| e in rows && e.language == l;
      var i :| 0 <= i < |rows| && rows[i] == e;
      assert Languages(rows)[i] == l;
    }
  }

  /** As written, the overview's audio count is the row count, so it is
      positive on every non-empty store. The rows with audio are the
      intended count, and the two agree only when every row has audio. */
  lemma AudioCount(s: seq<Entry>)
    requires s != []
    ensures GetBasicStats(s).audioFiles == |s| > 0
    ensures |Select(s, HasAudio)| == AudioFiles(s) <= GetBasicStats(s).audioFiles
    ensures |Select(s, HasAudio)| == GetBasicStats(s).audioFiles <==>
              forall i :: 0 <= i < |s| ==> s[i].audioFile != ""
  {
  }

  /** The section built from the rows with audio keeps its promises. */
  lemma AudioSectionFaithful(s: seq<Entry>)
    requires s != []
    ensures var rows := Select(s, HasAudio);
            AudioSectionOf(AudioSection(rows, ValueCounts(Languages(rows)), ValueCounts(Kinds(rows))), s)
  {
    var rows := Select(s, HasAudio);
    HasAudioMeans();
    AudioCount(s);
    LanguagesOfRows(rows);
  }

  lemma HasAudioMeans()
    ensures forall e :: Holds(HasAudio, e) <==> e.audioFile != ""
  {
  }

  /** The section from the rows with audio, drawn whenever the overview
      counts an audio file. */
  function Audio(s: seq<Entry>): (r: Option<AudioSection>)
    requires s != []
    ensures r.Some? <==> GetBasicStats(s).audioFiles > 0
    ensures r.Some?
    ensures r.Some? ==> AudioSectionOf(r.value, s)
    ensures r.Some? && AudioFiles(s) == 0 ==> r.value.rows == [] && r.value.byLanguage == [] && r.value.byType == []
  {
    AudioCount(s);
    if GetBasicStats(s).audioFiles > 0 then
      var rows := Select(s, HasAudio);
      AudioSectionFaithful(s);
      Some(AudioSection(rows, ValueCounts(Languages(rows)), ValueCounts(Kinds(rows))))
    else
      None
  }

  /** The section as evidently intended: drawn exactly when some row has
      audio. */
  function AudioCorrected(s: seq<Entry>): (r: Option<AudioSection>)
    requires s != []
    ensures r.Some? <==> exists e :: e in s && e.audioFile != ""
    ensures r.Some? ==> AudioSectionOf(r.value, s) && r.value.rows != []
  {
    if AudioFiles(s) > 0 then
      var rows := Select(s, HasAudio);
      AudioSectionFaithful(s);
      Some(AudioSection(rows, ValueCounts(Languages(rows)), ValueCounts(Kinds(rows))))
    else
      None
  }

  /** On a store without audio the page draws the section with empty
      charts. */
  lemma EmptyAudioSectionShown(now: int)
    ensures var r := Audio(Seed(now)); r.Some? && r.value.rows == []
    ensures AudioCorrected(Seed(now)).None?
  {
    SeedAudioMiscount(now);
  }

  // ---------------------------------------------------------------------
  // The page

  /** What the page shows below its overview metrics. */
  datatype View = View(
    stats: BasicStats,
    status: Status,
    analytics: Analytics,
    languageTable: seq<LanguageRow>,
    audio: Option<AudioSection>)

  /** `show` at instant `now`: a warning and nothing else on an empty store;
      otherwise the stats, the status counts, the language table built from
      the analytics' language distribution, and the audio section when there
      is audio. */
  function Show(s: seq<Entry>, now: int): (r: Option<View>)
    ensures r.None? <==> s == []
    ensures r.Some? ==>
              && r.value.stats == GetBasicStats(s)
              && StatusOf(r.value.status, s)
              && AnalyticsOf(r.value.analytics, s, now)
              && LanguageTableOf(r.value.languageTable, s)
              && (r.value.audio.Some? <==> r.value.stats.audioFiles > 0)
              && (r.value.audio.Some? ==> AudioSectionOf(r.value.audio.value, s))
  {
    if s == [] then None
    else
      var analytics := GetAnalyticsData(s, now).value;
      assert analytics.languageDistribution == ValueCounts(Languages(s));
      LanguageTableFaithful(s);
      var audio := Audio(s);
      assert audio.Some? <==> GetBasicStats(s).audioFiles > 0;
      Some(View(GetBasicStats(s), StatusCounts(s), analytics,
                LanguageTable(s, analytics.languageDistribution), audio))
  }
}

=== FILE: collections.dfy ===
/**
 Generic sequence utilities behind the store's aggregates: occurrence counts,
 the value tally that pandas' `value_counts` and `unique` compute, a stable
 descending sort by an integer key, and sorting strings as Python's `sorted`.
 */
module Collections {
  import opened Text

  /** No two positions hold the same value. */
  predicate Distinct<T(==)>(xs: seq<T>) {
    forall i, j :: 0 <= i < j < |xs| ==> xs[i] != xs[j]
  }

  /** How many positions of `xs` hold `v`. */
  function Occurrences(xs: seq<string>, v: string): (n: nat)
    ensures n <= |xs|
    ensures n > 0 <==> v in xs
  {
    if xs == [] then 0
    else (if xs[0] == v then 1 else 0) + Occurrences(xs[1..], v)
  }

  lemma {:induction false} OccurrencesAppend(xs: seq<string>, x: string, v: string)
    ensures Occurrences(xs + [x], v) == Occurrences(xs, v) + (if x == v then 1 else 0)
  {
    if xs != [] {
      assert (xs + [x])[1..] == xs[1..] + [x];
      OccurrencesAppend(xs[1..], x, v);
    }
  }

  /** Sum of `key` over a sequence. */
  function SumBy<T>(xs: seq<T>, key: T -> nat): nat {
    if xs == [] then 0 else key(xs[0]) + SumBy(xs[1..], key)
  }

  /** One row of a value count: a distinct value and how often it occurs. */
  datatype Tally = Tally(value: string, count: nat)

  function CountOf(t: Tally): nat {
    t.count
  }

  /** The values of a tally, in order. */
  function Values(ts: seq<Tally>): (vs: seq<string>)
    ensures |vs| == |ts|
    ensures forall i :: 0 <= i < |ts| ==> vs[i] == ts[i].value
  {
    if ts == [] then [] else [ts[0].value] + Values(ts[1..])
  }

  /** Position of the row for `x`, or `|ts|` when there is none. */
  function Find(ts: seq<Tally>, x: string): (k: nat)
    ensures k <= |ts|
    ensures k < |ts| ==> ts[k].value == x
    ensures k == |ts| ==> x !in Values(ts)
  {
    if ts == [] then 0
    else if ts[0].value == x then 0
    else
      assert Values(ts) == [ts[0].value] + Values(ts[1..]);
      1 + Find(ts[1..], x)
  }

  /** The values of a prefix are the prefix of the values. */
  lemma {:induction false} ValuesPrefix(ts: seq<Tally>, n: nat)
    requires n <= |ts|
    ensures Values(ts[..n]) == Values(ts)[..n]
  {
    var a, b := Values(ts[..n]), Values(ts)[..n];
    assert |a| == |b|;
    forall i | 0 <= i < n ensures a[i] == b[i] {
      assert ts[..n][i] == ts[i];
    }
  }

  /** A prefix of a sequence without repeats has none either. */
  lemma DistinctPrefix<T>(xs: seq<T>, n: nat)
    requires n <= |xs| && Distinct(xs)
    ensures Distinct(xs[..n])
  {
  }

  /** Every element of a prefix is an element of the whole. */
  lemma PrefixMembers<T>(xs: seq<T>, n: nat)
    requires n <= |xs|
    ensures forall i :: 0 <= i < n ==> xs[i] in xs
  {
  }

  lemma {:induction false} SumByUpdate(ts: seq<Tally>, k: nat, t: Tally)
    requires k < |ts|
    ensures SumBy(ts[k := t], CountOf) + ts[k].count == SumBy(ts, CountOf) + t.count
  {
    if k > 0 {
      assert ts[k := t][1..] == ts[1..][k - 1 := t];
      SumByUpdate(ts[1..], k - 1, t);
    }
  }

  lemma {:induction false} SumByAppend(ts: seq<Tally>, t: Tally)
    ensures SumBy(ts + [t], CountOf) == SumBy(ts, CountOf) + t.count
  {
    if ts != [] {
      assert (ts + [t])[1..] == ts[1..] + [t];
      SumByAppend(ts[1..], t);
    }
  }

  /** Counts one more occurrence of `x`: bumps its row, or appends a new row
      with count 1 when `x` has not been seen. */
  function Bump(ts: seq<Tally>, x: string): (r: seq<Tally>)
    requires Distinct(Values(ts))
    ensures Distinct(Values(r))
    ensures forall v :: v in Values(r) <==> v in Values(ts) || v == x
    ensures x in Values(ts) ==> |r| == |ts|
    ensures x !in Values(ts) ==> |r| == |ts| + 1 && r[|ts|] == Tally(x, 1)
    ensures forall i :: 0 <= i < |ts| ==>
              r[i].value == ts[i].value &&
              r[i].count == ts[i].count + (if ts[i].value == x then 1 else 0)
    ensures SumBy(r, CountOf) == SumBy(ts, CountOf) + 1
  {
    var k := Find(ts, x);
    if k < |ts| then
      var r := ts[k := Tally(x, ts[k].count + 1)];
      SumByUpdate(ts, k, Tally(x, ts[k].count + 1));
      assert Values(r) == Values(ts);
      assert forall i :: 0 <= i < |ts| && i != k ==> ts[i].value != x by {
        assert Values(ts)[k] == x;
      }
      r
    else
      var r := ts + [Tally(x, 1)];
      SumByAppend(ts, Tally(x, 1));
      assert Values(r) == Values(ts) + [x];
      r
  }

  /** pandas' `value_counts` before its sort: one row per distinct value, in
      order of first occurrence, with the number of occurrences. */
  function CountValues(xs: seq<string>): (r: seq<Tally>)
    ensures Distinct(Values(r))
    ensures forall v :: v in Values(r) <==> v in xs
    ensures forall i :: 0 <= i < |r| ==> r[i].count == Occurrences(xs, r[i].value)
    ensures SumBy(r, CountOf) == |xs|
    ensures |r| <= |xs|
    decreases |xs|
  {
    if xs == [] then []
    else
      var front := xs[..|xs| - 1];
      var last := xs[|xs| - 1];
      assert xs == front + [last];
      var prev := CountValues(front);
      var r := Bump(prev, last);
      forall v ensures Occurrences(xs, v) == Occurrences(front, v) + (if last == v then 1 else 0) {
        OccurrencesAppend(front, last, v);
      }
      assert forall i :: 0 <= i < |r| ==> r[i].count == Occurrences(xs, r[i].value) by {
        forall i | 0 <= i < |r| ensures r[i].count == Occurrences(xs, r[i].value) {
          if i < |prev| {
            assert r[i].count == prev[i].count + (if prev[i].value == last then 1 else 0);
          } else {
            assert r[i] == Tally(last, 1);
            assert last !in front;
          }
        }
      }
      r
  }

  /** Every counted value occurs at least once. */
  lemma CountValuesPositive(xs: seq<string>, i: nat)
    requires i < |CountValues(xs)|
    ensures CountValues(xs)[i].count >= 1
  {
    var r := CountValues(xs);
    assert r[i].value in Values(r);
  }

  /** pandas' `unique`: each distinct value once. */
  function Unique(xs: seq<string>): (u: seq<string>)
    ensures Distinct(u)
    ensures forall v :: v in u <==> v in xs
    ensures |u| <= |xs|
    ensures xs != [] ==> |u| >= 1
  {
    var u := Values(CountValues(xs));
    assert xs != [] ==> xs[0] in u;
    u
  }

  // ---------------------------------------------------------------------
  // Stable descending sort by a key

  /** Pairwise non-increasing in `key`. */
  predicate SortedDesc<T>(xs: seq<T>, key: T -> nat) {
    forall i, j :: 0 <= i < j < |xs| ==> key(xs[i]) >= key(xs[j])
  }

  /** Puts `x` in front of the first element whose key is not larger. */
  function InsertDesc<T>(x: T, ys: seq<T>, key: T -> nat): (r: seq<T>)
    requires SortedDesc(ys, key)
    ensures SortedDesc(r, key)
    ensures multiset(r) == multiset(ys) + multiset{x}
    ensures |r| == |ys| + 1
  {
    if ys == [] || key(ys[0]) <= key(x) then
      ConsSorted(x, ys, key);
      [x] + ys
    else
      var rest := InsertDesc(x, ys[1..], key);
      assert ys == [ys[0]] + ys[1..];
      BoundedByHead(x, ys, rest, key);
      ConsSorted(ys[0], rest, key);
      [ys[0]] + rest
  }

  /** An element no smaller than every element of a sorted sequence can go
      in front of it. */
  lemma ConsSorted<T>(h: T, rest: seq<T>, key: T -> nat)
    requires SortedDesc(rest, key)
    requires rest == [] || key(rest[0]) <= key(h)
    ensures SortedDesc([h] + rest, key)
  {
    var r := [h] + rest;
    forall i, j | 0 <= i < j < |r| ensures key(r[i]) >= key(r[j]) {
      if i == 0 && j > 1 {
        assert key(rest[0]) >= key(rest[j - 1]);
      }
    }
  }

  /** What is inserted behind the head of a sorted sequence stays no larger
      than the head. */
  lemma BoundedByHead<T>(x: T, ys: seq<T>, rest: seq<T>, key: T -> nat)
    requires SortedDesc(ys, key) && ys != [] && key(x) < key(ys[0])
    requires multiset(rest) == multiset(ys[1..]) + multiset{x}
    ensures rest == [] || key(rest[0]) <= key(ys[0])
  {
    if rest != [] {
      assert rest[0] in multiset(rest);
      if rest[0] != x {
        assert rest[0] in multiset(ys[1..]);
        var j :| 0 <= j < |ys[1..]| && ys[1..][j] == rest[0];
        assert ys[j + 1] == rest[0];
      }
    }
  }

  /** Insertion sort, descending by `key`; equal keys keep their order. */
  function SortDesc<T>(xs: seq<T>, key: T -> nat): (r: seq<T>)
    ensures SortedDesc(r, key)
    ensures multiset(r) == multiset(xs)
    ensures |r| == |xs|
  {
    if xs == [] then []
    else
      assert xs == [xs[0]] + xs[1..];
      InsertDesc(xs[0], SortDesc(xs[1..], key), key)
  }

  lemma {:induction false} InsertDescSum<T>(x: T, ys: seq<T>, key: T -> nat)
    requires SortedDesc(ys, key)
    ensures SumBy(InsertDesc(x, ys, key), key) == key(x) + SumBy(ys, key)
  {
    if !(ys == [] || key(ys[0]) <= key(x)) {
      InsertDescSum(x, ys[1..], key);
      var r := InsertDesc(x, ys, key);
      assert r[1..] == InsertDesc(x, ys[1..], key);
    }
  }

  /** Sorting does not change a sum. */
  lemma {:induction false} SortDescSum<T>(xs: seq<T>, key: T -> nat)
    ensures SumBy(SortDesc(xs, key), key) == SumBy(xs, key)
  {
    if xs != [] {
      SortDescSum(xs[1..], key);
      InsertDescSum(xs[0], SortDesc(xs[1..], key), key);
    }
  }

  // ---------------------------------------------------------------------
  // Distinctness, cardinality and permutations

  /** A sequence without repetitions has as many elements as its set. */
  lemma {:induction false} DistinctCardinality<T>(u: seq<T>)
    requires Distinct(u)
    ensures |set x | x in u| == |u|
  {
    if u != [] {
      DistinctCardinality(u[1..]);
      assert (set x | x in u) == {u[0]} + (set x | x in u[1..]);
      assert u[0] !in u[1..];
    }
  }

  /** The number of distinct values of `xs`, as `len(xs.unique())` computes it. */
  lemma UniqueCardinality(xs: seq<string>)
    ensures |Unique(xs)| == |set x | x in xs|
  {
    var u := Unique(xs);
    DistinctCardinality(u);
    assert (set x | x in u) == (set x | x in xs);
  }

  lemma {:induction false} DistinctMultiplicity<T>(b: seq<T>, x: T)
    requires Distinct(b)
    ensures multiset(b)[x] <= 1
  {
    if b != [] {
      assert b == [b[0]] + b[1..];
      DistinctMultiplicity(b[1..], x);
      assert b[0] !in b[1..];
    }
  }

  /** A rearrangement of a sequence without repetitions has none either. */
  lemma PermutationDistinct<T>(a: seq<T>, b: seq<T>)
    requires multiset(a) == multiset(b)
    requires Distinct(b)
    ensures Distinct(a)
  {
    forall i, j | 0 <= i < j < |a| ensures a[i] != a[j] {
      if a[i] == a[j] {
        assert a == a[..j] + [a[j]] + a[j + 1..];
        assert a[i] in a[..j];
        assert multiset(a)[a[i]] >= 2;
        DistinctMultiplicity(b, a[i]);
      }
    }
  }

  /** A rearranged tally keeps its rows, so its values stay distinct. */
  lemma PermutedTally(r: seq<Tally>, ts: seq<Tally>)
    requires multiset(r) == multiset(ts)
    requires Distinct(Values(ts))
    ensures forall t :: t in r <==> t in ts
    ensures Distinct(Values(r))
    ensures forall v :: v in Values(r) <==> v in Values(ts)
  {
    PermutedMembers(r, ts);
    PermutedDistinctValues(r, ts);
    PermutedSameValues(r, ts);
  }

  lemma PermutedMembers<T>(r: seq<T>, ts: seq<T>)
    requires multiset(r) == multiset(ts)
    ensures forall t :: t in r <==> t in ts
  {
    forall t ensures t in r <==> t in ts {
      assert t in r <==> t in multiset(r);
      assert t in ts <==> t in multiset(ts);
    }
  }

  /** Rows with distinct values are distinct rows. */
  lemma DistinctRowsOfValues(ts: seq<Tally>)
    requires Distinct(Values(ts))
    ensures Distinct(ts)
  {
    forall i, j | 0 <= i < j < |ts| ensures ts[i] != ts[j] {
      assert Values(ts)[i] != Values(ts)[j];
    }
  }

  lemma PermutedDistinctValues(r: seq<Tally>, ts: seq<Tally>)
    requires multiset(r) == multiset(ts)
    requires Distinct(Values(ts))
    requires forall t :: t in r <==> t in ts
    ensures Distinct(Values(r))
  {
    DistinctRowsOfValues(ts);
    PermutationDistinct(r, ts);
    forall i, j | 0 <= i < j < |r| ensures Values(r)[i] != Values(r)[j] {
      if Values(r)[i] == Values(r)[j] {
        ValueDetermines(ts, r[i], r[j]);
      }
    }
  }

  /** In a tally with distinct values, a row is determined by its value. */
  lemma ValueDetermines(ts: seq<Tally>, a: Tally, b: Tally)
    requires Distinct(Values(ts))
    requires a in ts && b in ts && a.value == b.value
    ensures a == b
  {
    var p :| 0 <= p < |ts| && ts[p] == a;
    var q :| 0 <= q < |ts| && ts[q] == b;
    assert Values(ts)[p] == Values(ts)[q];
  }

  lemma PermutedSameValues(r: seq<Tally>, ts: seq<Tally>)
    requires forall t :: t in r <==> t in ts
    ensures forall v :: v in Values(r) <==> v in Values(ts)
  {
    forall v ensures v in Values(r) <==> v in Values(ts) {
      if v in Values(r) {
        var i :| 0 <= i < |r| && Values(r)[i] == v;
        assert r[i] in ts;
        var p :| 0 <= p < |ts| && ts[p] == r[i];
        assert Values(ts)[p] == v;
      }
      if v in Values(ts) {
        var p :| 0 <= p < |ts| && Values(ts)[p] == v;
        assert ts[p] in r;
        var i :| 0 <= i < |r| && r[i] == ts[p];
        assert Values(r)[i] == v;
      }
    }
  }

  /** What `value_counts` promises of `r` for the values `xs`: one row per
      distinct value of `xs` and no other, each with its number of
      occurrences, most frequent first. */
  ghost predicate IsValueCount(r: seq<Tally>, xs: seq<string>) {
    && SortedDesc(r, CountOf)
    && Distinct(Values(r))
    && (forall v :: v in Values(r) <==> v in xs)
    && (forall i :: 0 <= i < |r| ==> r[i].count == Occurrences(xs, r[i].value))
  }

  /** pandas' `value_counts`: one row per distinct value with its number of
      occurrences, most frequent first; equal counts keep first-occurrence
      order. */
  function ValueCounts(xs: seq<string>): (r: seq<Tally>)
    ensures IsValueCount(r, xs)
    ensures SortedDesc(r, CountOf)
    ensures Distinct(Values(r))
    ensures forall v :: v in Values(r) <==> v in xs
    ensures forall i :: 0 <= i < |r| ==> r[i].count == Occurrences(xs, r[i].value) && r[i].count >= 1
    ensures SumBy(r, CountOf) == |xs|
    ensures |r| == |Unique(xs)|
  {
    var ts := CountValues(xs);
    var r := SortDesc(ts, CountOf);
    SortDescSum(ts, CountOf);
    PermutedTally(r, ts);
    SortedCounts(xs, r);
    r
  }

  lemma SortedCounts(xs: seq<string>, r: seq<Tally>)
    requires forall t :: t in r ==> t in CountValues(xs)
    ensures forall i :: 0 <= i < |r| ==> r[i].count == Occurrences(xs, r[i].value) && r[i].count >= 1
  {
    var ts := CountValues(xs);
    forall i | 0 <= i < |r| ensures r[i].count == Occurrences(xs, r[i].value) && r[i].count >= 1 {
      assert r[i] in ts;
      var p :| 0 <= p < |ts| && ts[p] == r[i];
      CountValuesPositive(xs, p);
    }
  }

  // ---------------------------------------------------------------------
  // Python's sorted() on distinct strings

  predicate StrictlySorted(ys: seq<string>) {
    forall i, j :: 0 <= i < j < |ys| ==> Less(ys[i], ys[j])
  }

  lemma StrictlySortedDistinct(ys: seq<string>)
    requires StrictlySorted(ys)
    ensures Distinct(ys)
  {
    forall i, j | 0 <= i < j < |ys| ensures ys[i] != ys[j] {
      if ys[i] == ys[j] {
        LessIrreflexive(ys[i]);
      }
    }
  }

  /** Adds `x` to a strictly sorted list, keeping it strictly sorted. */
  function InsertSorted(x: string, ys: seq<string>): (r: seq<string>)
    requires StrictlySorted(ys)
    ensures StrictlySorted(r)
    ensures forall v :: v in r <==> v in ys || v == x
    ensures |r| <= |ys| + 1
  {
    if ys == [] then [x]
    else if x == ys[0] then ys
    else if Less(x, ys[0]) then
      assert forall j :: 0 <= j < |ys| ==> Less(x, ys[j]) by {
        forall j | 0 <= j < |ys| ensures Less(x, ys[j]) {
          if j > 0 {
            LessTransitive(x, ys[0], ys[j]);
          }
        }
      }
      [x] + ys
    else
      LessTotal(x, ys[0]);
      var rest := InsertSorted(x, ys[1..]);
      assert forall k :: 0 <= k < |rest| ==> Less(ys[0], rest[k]) by {
        forall k | 0 <= k < |rest| ensures Less(ys[0], rest[k]) {
          assert rest[k] in rest;
        }
      }
      [ys[0]] + rest
  }

  /** Python's `sorted(xs)` for a list without repetitions: the same values,
      ascending by code point. */
  function SortStrings(xs: seq<string>): (r: seq<string>)
    ensures StrictlySorted(r)
    ensures forall v :: v in r <==> v in xs
    ensures |r| <= |xs|
  {
    if xs == [] then []
    else
      assert xs == [xs[0]] + xs[1..];
      InsertSorted(xs[0], SortStrings(xs[1..]))
  }

  /** Sorting a list without repetitions keeps every element, so the length too. */
  lemma {:induction false} SortStringsLength(xs: seq<string>)
    requires Distinct(xs)
    ensures |SortStrings(xs)| == |xs|
  {
    if xs != [] {
      var rest := SortStrings(xs[1..]);
      assert Distinct(xs[1..]);
      SortStringsLength(xs[1..]);
      assert xs[0] !in xs[1..];
      InsertSortedLength(xs[0], rest);
    }
  }

  lemma {:induction false} InsertSortedLength(x: string, ys: seq<string>)
    requires StrictlySorted(ys)
    requires x !in ys
    ensures |InsertSorted(x, ys)| == |ys| + 1
  {
    if ys != [] && x != ys[0] && !Less(x, ys[0]) {
      InsertSortedLength(x, ys[1..]);
    }
  }
}

=== FILE: contribute.dfy ===
/**
 The contribution page: the required-field gate, the optional AI enhancement
 of the meaning, the audio upload (file name, stored path, transcript with
 its fallback), the record handed to the store, and the read-back of the
 saved row.
 */
module Contribute {
  import opened Optional
  import opened Text
  import opened Entries
  import opened Store
  import Csv
  import Puter

  /** An uploaded audio file; only its name matters to the model. */
  datatype AudioUpload = AudioUpload(name: string)

  /** What the form holds when it is submitted. */
  datatype Form = Form(
    word: string,
    meaning: string,
    language: string,
    kind: string,
    example: string,
    contributor: string,
    audio: Option<AudioUpload>,
    aiEnhance: bool)

  /** What comes from outside the page: the hex form of a fresh uuid, whether
      writing the audio file raises, whether the primary transcription call
      raises, what the Whisper fallback returns, whether the stub services
      fail inside, and whether the enhancement block raises. */
  datatype Outside = Outside(
    hex: string,
    saveRaises: bool,
    transcribeRaises: bool,
    whisperText: string,
    transcribeStubFails: bool,
    enhanceStubFails: bool,
    enhanceRaises: bool)

  /** The submit handler goes on only when word, meaning, language and type
      are all non-empty. */
  predicate RequiredFilled(f: Form) {
    f.word != "" && f.meaning != "" && f.language != "" && f.kind != ""
  }

  /** The directory audio files are written to:
      `os.path.join("data", "Audio_Transcripts")`. */
  const AudioDir := "data/Audio_Transcripts"

  /** The part of the stored file name before the uuid digits. */
  function Stem(word: string, kind: string): (p: string)
    ensures |p| == |word| + |kind| + 2
  {
    word + "_" + kind + "_"
  }

  /** The stored file name: word, type, the first eight hex digits of a uuid
      and the upload's extension, which is the text after its last dot (all
      of the name when it has none). The word is used as typed, so the name
      is absolute exactly when the word is. */
  function AudioFilename(word: string, kind: string, hex: string, uploadName: string): (r: string)
    ensures IsPrefix(Stem(word, kind), r)
    ensures AfterLastDot(r) == AfterLastDot(uploadName)
    ensures IsAbsolute(r) <==> IsAbsolute(word)
  {
    var r := Stem(word, kind) + Suffix(hex, AfterLastDot(uploadName));
    FilenameParts(Stem(word, kind), Take(hex, 8), AfterLastDot(uploadName));
    assert r[0] == Stem(word, kind)[0];
    r
  }

  /** The part of the stored file name after the stem. */
  function Suffix(hex: string, ext: string): (r: string)
    ensures |hex| >= 8 ==> |r| == 9 + |ext| && r[..8] == hex[..8] && r[8] == '.'
  {
    var h := Take(hex, 8);
    assert |hex| >= 8 ==> h == hex[..8];
    h + "." + ext
  }

  /** With a full uuid, the file name carries exactly its first eight hex
      digits between the stem and the extension. */
  lemma AudioFilenameDigits(word: string, kind: string, hex: string, uploadName: string)
    requires |hex| >= 8
    ensures var r := AudioFilename(word, kind, hex, uploadName);
            var n := |Stem(word, kind)|;
            |r| == n + 9 + |AfterLastDot(uploadName)| && r[n..n + 8] == hex[..8] && r[n + 8] == '.'
  {
    var stem, suffix := Stem(word, kind), Suffix(hex, AfterLastDot(uploadName));
    var r := AudioFilename(word, kind, hex, uploadName);
    assert r == stem + suffix;
    assert r[|stem|..] == suffix;
    assert r[|stem|..|stem| + 8] == suffix[..8];
  }

  lemma FilenameParts(stem: string, h: string, ext: string)
    requires '.' !in ext
    ensures var r := stem + (h + "." + ext);
            IsPrefix(stem, r) && AfterLastDot(r) == ext
  {
    var r := stem + (h + "." + ext);
    assert r == (stem + h) + "." + ext;
    AfterLastDotAppend(stem + h, ext);
  }

  /** `save_audio_file`'s path: the generated name joined onto the audio
      directory. A relative name lands under the directory; an absolute one
      (a word typed as "/tmp/x") discards it. */
  function SavedAudioPath(word: string, kind: string, hex: string, uploadName: string): (p: string)
    ensures !IsAbsolute(word) ==> IsPrefix(AudioDir + "/" + Stem(word, kind), p)
    ensures IsAbsolute(word) ==> p == AudioFilename(word, kind, hex, uploadName)
    ensures AfterLastDot(p) == AfterLastDot(uploadName)
  {
    if IsAbsolute(word) then Join(AudioDir, AudioFilename(word, kind, hex, uploadName))
    else
      RelativeAudioPath(word, kind, hex, uploadName);
      Join(AudioDir, AudioFilename(word, kind, hex, uploadName))
  }

  /** A relative file name lands under the audio directory: the directory and
      stem stand in front, and the upload's extension stays at the end. */
  lemma RelativeAudioPath(word: string, kind: string, hex: string, uploadName: string)
    requires !IsAbsolute(word)
    ensures var p := Join(AudioDir, AudioFilename(word, kind, hex, uploadName));
            IsPrefix(AudioDir + "/" + Stem(word, kind), p) && AfterLastDot(p) == AfterLastDot(uploadName)
  {
    var stem, h, ext := Stem(word, kind), Take(hex, 8), AfterLastDot(uploadName);
    var name := AudioFilename(word, kind, hex, uploadName);
    assert name == stem + (h + "." + ext);
    JoinAudioDir(name);
    DirFileParts(AudioDir, stem, h, ext);
  }

  /** In any directory, a file named stem, digits, dot and extension starts
      with the directory and stem and ends with the extension. */
  lemma DirFileParts(d: string, stem: string, h: string, ext: string)
    requires '.' !in ext
    ensures var p := d + "/" + (stem + (h + "." + ext));
            IsPrefix(d + "/" + stem, p) && AfterLastDot(p) == ext
  {
    assert d + "/" + (stem + (h + "." + ext)) == (d + "/" + stem) + (h + "." + ext);
    FilenameParts(d + "/" + stem, h, ext);
  }

  /** The audio directory does not end in "/", so a relative name is joined
      with one separator. */
  lemma JoinAudioDir(name: string)
    requires !IsAbsolute(name)
    ensures Join(AudioDir, name) == AudioDir + "/" + name
  {
  }

  /** A word typed as an absolute path writes the audio file outside the
      audio directory. */
  lemma AbsoluteWordEscapes(hex: string)
    ensures var p := SavedAudioPath("/tmp/x", "Word", hex, "a.wav");
            !IsPrefix(AudioDir, p) && IsPrefix("/tmp/x_Word_", p)
  {
    var word := "/tmp/x";
    assert IsAbsolute(word);
    assert Stem(word, "Word") == "/tmp/x_Word_";
    NotUnder(AudioDir, SavedAudioPath(word, "Word", hex, "a.wav"));
  }

  /** An absolute path is not under a relative directory. */
  lemma NotUnder(d: string, p: string)
    requires d != "" && d[0] != '/' && IsAbsolute(p)
    ensures !IsPrefix(d, p)
  {
  }

  /** A word holding "../" keeps the directory's text in front but names a
      file outside it. */
  lemma ParentWordEscapes(hex: string)
    ensures IsPrefix(AudioDir + "/../x_Word_", SavedAudioPath("../x", "Word", hex, "a.wav"))
  {
    var word := "../x";
    assert !IsAbsolute(word);
    assert AudioDir + "/" + Stem(word, "Word") == AudioDir + "/../x_Word_";
  }

  /** Python's `name.replace("/", "_")`: the name becomes one path component. */
  function SafeName(name: string): (r: string)
    ensures |r| == |name| && '/' !in r
    ensures forall i :: 0 <= i < |name| ==> r[i] == (if name[i] == '/' then '_' else name[i])
  {
    var r := seq(|name|, i requires 0 <= i < |name| => if name[i] == '/' then '_' else name[i]);
    assert forall i :: 0 <= i < |r| ==> r[i] != '/';
    r
  }

  /** The file the audio upload should be written to: the generated name,
      made one path component, directly inside the audio directory. */
  function SafeAudioPath(word: string, kind: string, hex: string, uploadName: string): (p: string)
    ensures IsPrefix(AudioDir + "/", p) && '/' !in p[|AudioDir| + 1..]
  {
    var name := SafeName(AudioFilename(word, kind, hex, uploadName));
    var p := Join(AudioDir, name);
    assert !IsAbsolute(name) by { assert name == [] || name[0] != '/'; }
    assert p[|AudioDir| + 1..] == name;
    p
  }

  /** For a word, type and upload name holding no "/", the safe path is the
      path the page writes today. */
  lemma SafeAudioPathAgrees(word: string, kind: string, hex: string, uploadName: string)
    requires '/' !in AudioFilename(word, kind, hex, uploadName)
    ensures SafeAudioPath(word, kind, hex, uploadName) == SavedAudioPath(word, kind, hex, uploadName)
  {
    var name := AudioFilename(word, kind, hex, uploadName);
    assert forall i :: 0 <= i < |name| ==> name[i] != '/';
    assert SafeName(name) == name;
    assert !IsAbsolute(name);
  }

  /** The path and transcript `process_audio` hands back. */
  datatype AudioResult = AudioResult(path: string, transcript: string)

  /** `process_audio`: write the file under its generated name, then
      transcribe it with the stub service, using Whisper's text when that
      call raises; if writing the file raises, no path and no transcript. */
  function ProcessAudio(upload: AudioUpload, word: string, kind: string, language: string, out: Outside): (r: AudioResult)
    ensures out.saveRaises ==> r == AudioResult("", "")
    ensures !out.saveRaises ==>
              r.path == SavedAudioPath(word, kind, out.hex, upload.name) &&
              (!IsAbsolute(word) ==> IsPrefix(AudioDir + "/" + Stem(word, kind), r.path)) &&
              AfterLastDot(r.path) == AfterLastDot(upload.name)
    ensures !out.saveRaises && out.transcribeRaises ==> r.transcript == out.whisperText
    ensures !out.saveRaises && !out.transcribeRaises ==>
              (r.transcript == "" <==> out.transcribeStubFails) &&
              (!out.transcribeStubFails ==> Contains(r.transcript, language))
  {
    if out.saveRaises then AudioResult("", "")
    else
      var path := SavedAudioPath(word, kind, out.hex, upload.name);
      var transcript :=
        if out.transcribeRaises then out.whisperText
        else Puter.TranscribeAudio(path, language, out.transcribeStubFails);
      AudioResult(path, transcript)
  }

  /** The audio path handed to the store is empty or holds an underscore
      (the directory's, or the one after the word), so `read_csv` gives it
      back either as NaN for "no audio" or as its own text, never as NaN for
      a row that has audio. */
  lemma StoredAudioPathIsText(f: Form, out: Outside)
    ensures var p := Assemble(f, out).audioFile;
            p == "" || Csv.ReadCell(p) == Csv.Field(p)
  {
    if f.audio.Some? && !out.saveRaises {
      var p := SavedAudioPath(f.word, f.kind, out.hex, f.audio.value.name);
      SavedAudioPathHasUnderscore(f.word, f.kind, out.hex, f.audio.value.name);
      Csv.UnderscoreFieldIsText(p);
    }
  }

  lemma SavedAudioPathHasUnderscore(word: string, kind: string, hex: string, uploadName: string)
    ensures '_' in SavedAudioPath(word, kind, hex, uploadName)
  {
    var p := SavedAudioPath(word, kind, hex, uploadName);
    if IsAbsolute(word) {
      assert p[|word|] == Stem(word, kind)[|word|] == '_';
    } else {
      assert p[10] == (AudioDir + "/" + Stem(word, kind))[10] == '_';
    }
  }

  /** The meaning that goes into the record: the enhanced one when
      enhancement was asked for and its block did not raise, else the
      submitted one. */
  function StoredMeaning(f: Form, out: Outside): (m: string)
    ensures Contains(m, f.meaning)
    ensures !f.aiEnhance || out.enhanceRaises || out.enhanceStubFails ==> m == f.meaning
    ensures f.aiEnhance && !out.enhanceRaises && !out.enhanceStubFails ==>
              Contains(m, "'" + f.word + "'") && m != f.meaning
  {
    if f.aiEnhance && !out.enhanceRaises then
      var m := Puter.EnhanceMeaning(f.word, f.meaning, f.language, out.enhanceStubFails).enhancedMeaning;
      m
    else
      Text.ContainsInfix([], f.meaning, []);
      assert [] + f.meaning + [] == f.meaning;
      f.meaning
  }

  /** The record `process_submission` hands to the store: the stored meaning,
      the example as given, the audio path and transcript, and the
      contributor's name or "Anonymous"; no translation keys. */
  function Assemble(f: Form, out: Outside): (c: Candidate)
    ensures c.word == f.word && c.language == f.language && c.kind == f.kind
    ensures c.example == f.example
    ensures c.contributor == (if f.contributor == "" then "Anonymous" else f.contributor)
    ensures c.contributor != ""
    ensures Contains(c.meaning, f.meaning)
    ensures f.audio.None? ==> c.audioFile == "" && c.transcript == ""
    ensures f.audio.Some? ==>
              c.audioFile == ProcessAudio(f.audio.value, f.word, f.kind, f.language, out).path &&
              c.transcript == ProcessAudio(f.audio.value, f.word, f.kind, f.language, out).transcript
    ensures c.audioFile == "" ==> c.transcript == "" || (f.audio.Some? && !out.saveRaises)
    ensures c.translations == map[]
  {
    var audio := if f.audio.Some? then ProcessAudio(f.audio.value, f.word, f.kind, f.language, out)
                 else AudioResult("", "");
    Candidate(f.word, StoredMeaning(f, out), f.example, f.language, f.kind,
              audio.path, audio.transcript,
              if f.contributor == "" then "Anonymous" else f.contributor, map[])
  }

  /** What the page shows after a submit. */
  datatype Outcome =
    | MissingFields          // warning, nothing saved
    | Saved(entry: Entry)    // the row read back by word
    | SaveFailed             // error; the row may still have been written
    | ReadBackFailed         // error from the read-back; the row is stored

  datatype Submission = Submission(outcome: Outcome, store: seq<Entry>)

  /** A submit: the gate, then assembly, then `add_entry` as written, then
      the read-back of the last row holding the word. When only the refresh
      marker fails, the page shows the error for a row the table now holds.
      When the word reads back as NaN the read-back finds no row, and the
      page shows the generic error although the row is stored. */
  function Submit(s: seq<Entry>, f: Form, out: Outside, now: int, tr: Translator, w: WriteOutcome): (r: Submission)
    ensures !RequiredFilled(f) <==> r.outcome == MissingFields
    ensures r.outcome.Saved? <==> RequiredFilled(f) && w == Written && !Csv.IsMarker(f.word)
    ensures r.outcome == ReadBackFailed <==> RequiredFilled(f) && w == Written && Csv.IsMarker(f.word)
    ensures r.store == s <==> !RequiredFilled(f) || w == CsvFailed
    ensures r.store != s ==> r.store == s + [NewEntry(s, Assemble(f, out), now, tr)]
    ensures RequiredFilled(f) && w != Written ==> r.outcome == SaveFailed
    ensures RequiredFilled(f) && w != CsvFailed ==> |r.store| == |s| + 1
    ensures r.outcome.Saved? ==>
              r.store == s + [r.outcome.entry] &&
              r.outcome.entry == NewEntry(s, Assemble(f, out), now, tr) &&
              r.outcome.entry.word == f.word && !r.outcome.entry.verified &&
              Contains(r.outcome.entry.meaning, f.meaning) &&
              r.outcome.entry.contributor != ""
  {
    if !RequiredFilled(f) then Submission(MissingFields, s)
    else
      var c := Assemble(f, out);
      var added := AddEntryAsWritten(s, c, now, tr, w);
      if w == CsvFailed then Submission(SaveFailed, s)
      else
        assert added.store == s + [NewEntry(s, c, now, tr)];
        if !added.ok then Submission(SaveFailed, added.store)
        else
          AddedEntryIsLastWithWord(s, c, now, tr, w);
          match ReadBackByWord(added.store, f.word)
          case None => Submission(ReadBackFailed, added.store)
          case Some(saved) => Submission(Saved(saved), added.store)
  }

  /** Any form missing a required field leaves the store as it was, whatever
      else happens. */
  lemma GateBlocksIncomplete(s: seq<Entry>, f: Form, out: Outside, now: int, tr: Translator, w: WriteOutcome)
    requires f.word == "" || f.meaning == "" || f.language == "" || f.kind == ""
    ensures Submit(s, f, out, now, tr, w) == Submission(MissingFields, s)
  {
  }

  /** Without audio and enhancement, the stored row holds the form's text
      fields exactly, with an empty audio path and transcript, and it is the
      row the page shows unless the word reads back as NaN. */
  lemma PlainSubmission(s: seq<Entry>, f: Form, out: Outside, now: int, tr: Translator)
    requires RequiredFilled(f) && f.audio.None? && !f.aiEnhance
    ensures var r := Submit(s, f, out, now, tr, Written);
            |r.store| == |s| + 1 &&
            r.store[|s|].word == f.word && r.store[|s|].language == f.language && r.store[|s|].kind == f.kind &&
            r.store[|s|].meaning == f.meaning && r.store[|s|].example == f.example &&
            r.store[|s|].audioFile == "" && r.store[|s|].transcript == "" &&
            (r.outcome.Saved? <==> !Csv.IsMarker(f.word)) &&
            (r.outcome.Saved? ==> r.outcome.entry == r.store[|s|])
  {
  }

  /** A word such as "NA" is stored, but the page reports an error because
      the read-back cannot find it. */
  lemma MarkerWordReadBackFails(s: seq<Entry>, f: Form, out: Outside, now: int, tr: Translator)
    requires RequiredFilled(f) && f.word == "NA"
    ensures var r := Submit(s, f, out, now, tr, Written);
            r.outcome == ReadBackFailed && |r.store| == |s| + 1 && r.store[|s|].word == "NA"
  {
    Csv.MarkersReadAsNaN();
  }

  /** Submitting again after the page reported the marker failure stores the
      entry a second time, and this time the page shows it unless the word
      reads back as NaN. */
  lemma ResubmitAfterMarkerFailure(s: seq<Entry>, f: Form, out: Outside, now: int, later: int, tr: Translator)
    requires RequiredFilled(f)
    ensures var first := Submit(s, f, out, now, tr, MarkerFailed);
            var second := Submit(first.store, f, out, later, tr, Written);
            first.outcome == SaveFailed && (second.outcome.Saved? <==> !Csv.IsMarker(f.word)) &&
            |second.store| == |s| + 2 && second.store[|s|].word == f.word && second.store[|s| + 1].word == f.word
  {
  }
}

=== FILE: csv.dfy ===
/**
 How a table written with `to_csv` comes back from `pd.read_csv` with its
 default settings: every field that is empty or spells one of pandas'
 missing-value markers becomes NaN, and every other field keeps its text.
 */
module Csv {
  /** How many strings `read_csv` reads back as NaN by default. */
  const MarkerCount: nat := 19

  /** The strings `read_csv` reads back as NaN by default (pandas'
      `STR_NA_VALUES`), numbered from 0, the empty field first. */
  function Marker(i: nat): (m: string)
    requires i < MarkerCount
  {
    match i
    case 0 => ""
    case 1 => "#N/A"
    case 2 => "#N/A N/A"
    case 3 => "#NA"
    case 4 => "-1.#IND"
    case 5 => "-1.#QNAN"
    case 6 => "-NaN"
    case 7 => "-nan"
    case 8 => "1.#IND"
    case 9 => "1.#QNAN"
    case 10 => "<NA>"
    case 11 => "N/A"
    case 12 => "NA"
    case 13 => "NULL"
    case 14 => "NaN"
    case 15 => "None"
    case 16 => "n/a"
    case 17 => "nan"
    case _ => "null"
  }

  /** The field is one of the markers numbered `i` and above. */
  predicate MarkerFrom(field: string, i: nat)
    requires i <= MarkerCount
    decreases MarkerCount - i
  {
    i < MarkerCount && (Marker(i) == field || MarkerFrom(field, i + 1))
  }

  /** The field is read back as NaN. */
  predicate IsMarker(field: string) {
    MarkerFrom(field, 0)
  }

  /** A CSV field as `read_csv` gives it back. */
  datatype Cell = NaN | Field(text: string)

  function ReadCell(field: string): (c: Cell)
    ensures c.NaN? <==> IsMarker(field)
    ensures c.Field? ==> c.text == field && c.text != ""
  {
    if IsMarker(field) then NaN else Field(field)
  }

  /** `cell != ''` on a read-back cell: NaN is unequal to every string. */
  predicate UnequalToEmpty(c: Cell) {
    c.NaN? || c.text != ""
  }

  lemma {:induction false} MarkerFromIsShort(field: string, i: nat)
    requires i <= MarkerCount && MarkerFrom(field, i)
    ensures |field| <= 8
    decreases MarkerCount - i
  {
    if Marker(i) != field {
      MarkerFromIsShort(field, i + 1);
    }
  }

  lemma {:induction false} MarkerFromAt(field: string, i: nat, j: nat)
    requires i <= j < MarkerCount && Marker(j) == field
    ensures MarkerFrom(field, i)
    decreases j - i
  {
    if i < j {
      MarkerFromAt(field, i + 1, j);
    }
  }

  /** No marker is longer than eight characters, so a longer field is read
      back as its text. */
  lemma LongFieldIsText(field: string)
    requires |field| > 8
    ensures ReadCell(field) == Field(field)
  {
    if IsMarker(field) {
      MarkerFromIsShort(field, 0);
    }
  }

  lemma {:induction false} MarkerFromHasNoUnderscore(field: string, i: nat)
    requires i <= MarkerCount && MarkerFrom(field, i)
    ensures '_' !in field
    decreases MarkerCount - i
  {
    if Marker(i) != field {
      MarkerFromHasNoUnderscore(field, i + 1);
    }
  }

  /** No marker holds an underscore, so a field holding one is read back as
      its text. */
  lemma UnderscoreFieldIsText(field: string)
    requires '_' in field
    ensures ReadCell(field) == Field(field)
  {
    if IsMarker(field) {
      MarkerFromHasNoUnderscore(field, 0);
    }
  }

  /** Two fields read back as the same cell exactly when both are markers or
      they are the same text: distinct markers collapse into the one NaN. */
  lemma SameCell(a: string, b: string)
    ensures ReadCell(a) == ReadCell(b) <==> (IsMarker(a) && IsMarker(b)) || (a == b && !IsMarker(a))
  {
  }

  /** Markers that are not empty, such as "NA", "None" and "nan", are read
      back as NaN as well. */
  lemma MarkersReadAsNaN()
    ensures ReadCell("") == NaN && ReadCell("NA") == NaN && ReadCell("None") == NaN && ReadCell("nan") == NaN
  {
    MarkerFromAt("", 0, 0);
    MarkerFromAt("NA", 0, 12);
    MarkerFromAt("None", 0, 15);
    MarkerFromAt("nan", 0, 17);
  }
}

=== FILE: dictionary.dfy ===
/**
 The dictionary browser: the filter options, the empty-result early return,
 the card pagination, what a card shows, and where a card looks for an
 entry's audio file.
 */
module DictionaryPage {
  import opened Optional
  import opened Text
  import opened Collections
  import opened Entries
  import opened Queries
  import opened Search
  import opened Store
  import Contribute

  // ---------------------------------------------------------------------
  // Filters

  /** The language dropdown: "" and then the store's languages. */
  function LanguageOptions(s: seq<Entry>): (r: seq<string>)
    ensures |r| >= 1 && r[0] == ""
    ensures forall l :: l in r[1..] <==> exists i :: 0 <= i < |s| && s[i].language == l
  {
    [""] + GetLanguages(s)
  }

  /** The type dropdown: "" and then the four entry types. */
  function TypeOptions(): (r: seq<string>)
    ensures |r| == 5 && r[0] == "" && Distinct(r)
    ensures r[1..] == GetEntryTypes()
  {
    [""] + GetEntryTypes()
  }

  /** The default options filter nothing, and every other language option
      selects at least one row. */
  lemma OptionsSelect(s: seq<Entry>, query: string, k: nat)
    requires 1 <= k < |LanguageOptions(s)|
    ensures SearchEntries(s, query, LanguageOptions(s)[0], TypeOptions()[0]) ==
            SearchEntries(s, query, "", "")
    ensures SearchEntries(s, "", LanguageOptions(s)[0], TypeOptions()[0]) == s
    ensures SearchEntries(s, "", LanguageOptions(s)[k], "") != []
  {
    var l := LanguageOptions(s)[k];
    assert l in LanguageOptions(s)[1..];
    var i :| 0 <= i < |s| && s[i].language == l;
    assert Selected(s[i], "", l, "");
    assert s[i] in s;
  }

  /** The result of a search as the page sees it. */
  datatype Browse = NoEntries | Found(rows: seq<Entry>)

  /** `show`: an empty result stops the page with a notice; otherwise the
      page goes on with at least one row. */
  function BrowseEntries(s: seq<Entry>, query: string, language: string, kind: string): (r: Browse)
    ensures r.NoEntries? <==> SearchEntries(s, query, language, kind) == []
    ensures r.Found? ==> |r.rows| >= 1 && r.rows == SearchEntries(s, query, language, kind)
  {
    var rows := SearchEntries(s, query, language, kind);
    if rows == [] then NoEntries else Found(rows)
  }

  // ---------------------------------------------------------------------
  // Pagination

  const ItemsPerPage: nat := 20

  /** `(n + 19) // 20`: the number of pages of twenty. */
  function TotalPages(n: nat): (t: nat)
    ensures (t - 1) * ItemsPerPage < n <= t * ItemsPerPage || (n == 0 && t == 0)
  {
    (n + ItemsPerPage - 1) / ItemsPerPage
  }

  /** The page selector: 1, 2, ..., total pages. */
  function PageChoices(n: nat): (r: seq<nat>)
    ensures |r| == TotalPages(n)
    ensures forall i :: 0 <= i < |r| ==> r[i] == i + 1
  {
    seq(TotalPages(n), i requires 0 <= i < TotalPages(n) => i + 1)
  }

  /** The half-open index range of page `p` of `n` rows. */
  datatype Window = Window(start: nat, end: nat)

  function PageWindow(n: nat, p: nat): (w: Window)
    requires 1 <= p <= TotalPages(n)
    ensures w.start < w.end <= n
    ensures w.end - w.start <= ItemsPerPage
    ensures p < TotalPages(n) ==> w.end - w.start == ItemsPerPage
  {
    var start := (p - 1) * ItemsPerPage;
    Window(start, if start + ItemsPerPage <= n then start + ItemsPerPage else n)
  }

  /** Every row index falls on exactly one page: page `i / 20 + 1`. */
  lemma PagesPartition(n: nat, i: nat, p: nat)
    requires i < n
    ensures 1 <= i / ItemsPerPage + 1 <= TotalPages(n)
    ensures var w := PageWindow(n, i / ItemsPerPage + 1); w.start <= i < w.end
    ensures 1 <= p <= TotalPages(n) && PageWindow(n, p).start <= i < PageWindow(n, p).end ==>
              p == i / ItemsPerPage + 1
  {
  }

  /** The cards on page `p`. */
  function PageRows(rows: seq<Entry>, p: nat): (r: seq<Entry>)
    requires 1 <= p <= TotalPages(|rows|)
    ensures 1 <= |r| <= ItemsPerPage
    ensures forall e :: e in r ==> e in rows
  {
    var w := PageWindow(|rows|, p);
    rows[w.start..w.end]
  }

  /** The pages 1 to k shown one after the other. */
  function FirstPages(rows: seq<Entry>, k: nat): seq<Entry>
    requires k <= TotalPages(|rows|)
  {
    if k == 0 then [] else FirstPages(rows, k - 1) + PageRows(rows, k)
  }

  /** The number of rows on the first k pages. */
  function Covered(n: nat, k: nat): nat {
    if k * ItemsPerPage <= n then k * ItemsPerPage else n
  }

  /** Shown one after the other, the pages give back the rows exactly once
      each and in order. */
  lemma {:induction false} PagesConcatenate(rows: seq<Entry>, k: nat)
    requires k <= TotalPages(|rows|)
    ensures FirstPages(rows, k) == rows[..Covered(|rows|, k)]
  {
    if k > 0 {
      PagesConcatenate(rows, k - 1);
      var w := PageWindow(|rows|, k);
      assert w.start == Covered(|rows|, k - 1) && w.end == Covered(|rows|, k);
      assert rows[..w.start] + rows[w.start..w.end] == rows[..w.end];
    }
  }

  lemma AllPages(rows: seq<Entry>)
    ensures FirstPages(rows, TotalPages(|rows|)) == rows
  {
    PagesConcatenate(rows, TotalPages(|rows|));
    assert Covered(|rows|, TotalPages(|rows|)) == |rows|;
  }

  // ---------------------------------------------------------------------
  // Cards

  /** A card's translation block, "English: word - meaning", shown when the
      stored English word is present and non-empty: the test the analytics
      use to count translated rows. */
  function CardTranslation(e: Entry): (r: Option<string>)
    ensures r.Some? <==> Holds(IsTranslated, e)
    ensures r.Some? ==> IsPrefix(e.translatedWord, r.value) && IsSuffix(e.translatedMeaning, r.value)
  {
    if Holds(IsTranslated, e) then
      var text := e.translatedWord + " - " + e.translatedMeaning;
      assert text[..|e.translatedWord|] == e.translatedWord;
      Some(text)
    else None
  }

  /** The cards with a translation block are exactly the rows the analytics
      count as translated. */
  lemma TranslatedCards(rows: seq<Entry>)
    ensures forall i :: 0 <= i < |rows| ==>
              (CardTranslation(rows[i]).Some? <==> rows[i] in Select(rows, IsTranslated))
  {
    forall i | 0 <= i < |rows|
      ensures CardTranslation(rows[i]).Some? <==> rows[i] in Select(rows, IsTranslated)
    {
      assert rows[i] in rows;
    }
  }

  // ---------------------------------------------------------------------
  // Card audio

  /** Where the card and the detail view look for an entry's audio:
      `os.path.join("data", "Audio_Transcripts", audio_file)`. */
  function CardAudioPathAsWritten(e: Entry): (p: string)
    ensures IsSuffix(e.audioFile, p)
    ensures !IsAbsolute(e.audioFile) ==> IsPrefix(Contribute.AudioDir + "/", p)
    ensures IsAbsolute(e.audioFile) ==> p == e.audioFile
  {
    Join(Contribute.AudioDir, e.audioFile)
  }

  /** The contribution page stores the path it wrote, which (for a word that
      is not an absolute path) already starts with the audio directory, so
      the card looks under the directory twice and never at the file that
      was written. */
  lemma CardAudioPathDoubled(s: seq<Entry>, f: Contribute.Form, out: Contribute.Outside, now: int, tr: Translator)
    requires f.audio.Some? && !out.saveRaises && !IsAbsolute(f.word)
    requires Contribute.Submit(s, f, out, now, tr, Written).outcome.Saved?
    ensures var e := Contribute.Submit(s, f, out, now, tr, Written).outcome.entry;
            CardAudioPathAsWritten(e) != e.audioFile &&
            IsPrefix(Contribute.AudioDir + "/" + Contribute.AudioDir + "/", CardAudioPathAsWritten(e))
  {
    CardAudioPathIsWrittenFile(s, f, out, now, tr);
    StoredPathDoubled(Contribute.Submit(s, f, out, now, tr, Written).outcome.entry);
  }

  /** A stored path under the audio directory is looked up under it twice. */
  lemma StoredPathDoubled(e: Entry)
    requires IsPrefix(Contribute.AudioDir + "/", e.audioFile)
    ensures CardAudioPathAsWritten(e) != e.audioFile
    ensures IsPrefix(Contribute.AudioDir + "/" + Contribute.AudioDir + "/", CardAudioPathAsWritten(e))
  {
    var d := Contribute.AudioDir + "/";
    assert e.audioFile[0] == d[0] == 'd';
    assert CardAudioPathAsWritten(e) == d + e.audioFile;
    DoubledPrefix(d, e.audioFile);
  }

  /** Prefixing a path that already starts with a non-empty directory by
      that directory changes it and repeats the directory. */
  lemma DoubledPrefix(d: string, x: string)
    requires d != [] && IsPrefix(d, x)
    ensures d + x != x && IsPrefix(d + d, d + x)
  {
    assert |d + x| > |x|;
    assert (d + x)[..|d + d|] == d + x[..|d|];
  }

  /** The stored audio path, used as it is. */
  function CardAudioPath(e: Entry): (p: string)
    ensures p == "" <==> e.audioFile == ""
  {
    e.audioFile
  }

  /** Using the stored path as it is, the card looks at exactly the file the
      contribution page wrote. */
  lemma CardAudioPathIsWrittenFile(s: seq<Entry>, f: Contribute.Form, out: Contribute.Outside, now: int, tr: Translator)
    requires f.audio.Some? && !out.saveRaises
    requires Contribute.Submit(s, f, out, now, tr, Written).outcome.Saved?
    ensures CardAudioPath(Contribute.Submit(s, f, out, now, tr, Written).outcome.entry) ==
            Contribute.ProcessAudio(f.audio.value, f.word, f.kind, f.language, out).path
    ensures !IsAbsolute(f.word) ==>
              IsPrefix(Contribute.AudioDir + "/", CardAudioPath(Contribute.Submit(s, f, out, now, tr, Written).outcome.entry))
  {
    var e := Contribute.Submit(s, f, out, now, tr, Written).outcome.entry;
    var c := Contribute.Assemble(f, out);
    assert e == NewEntry(s, c, now, tr);
    var written := Contribute.ProcessAudio(f.audio.value, f.word, f.kind, f.language, out).path;
    assert e.audioFile == c.audioFile == written;
    if !IsAbsolute(f.word) {
      PrefixOfPrefix(Contribute.AudioDir + "/", Contribute.Stem(f.word, f.kind), written);
    }
  }
}

=== FILE: entries.dfy ===
/**
 The dictionary's record types: the candidate a page hands to the store, the
 stored row, the seed rows written on first run, the entry types, and the
 store's language-name to language-code table.
 */
module Entries {
  import opened Text
  import opened Collections

  /** The four text fields that have a `translated_*` companion column. */
  datatype Field = Word | Meaning | Example | Transcript

  /** The order in which the store translates the fields. */
  const FillOrder: seq<Field> := [Word, Meaning, Example, Transcript]

  /** A submission as handed to the store, before it is given an id, a
      timestamp and a verified flag. `translations` holds only the
      `translated_*` keys the caller put in the record, so an absent key and
      a key holding "" stay distinguishable. */
  datatype Candidate = Candidate(
    word: string,
    meaning: string,
    example: string,
    language: string,
    kind: string,
    audioFile: string,
    transcript: string,
    contributor: string,
    translations: map<Field, string>)

  /** The source text of a translatable field. */
  function Source(c: Candidate, f: Field): string {
    match f
    case Word => c.word
    case Meaning => c.meaning
    case Example => c.example
    case Transcript => c.transcript
  }

  /** One stored row. `kind` is the `type` column; a column the record did
      not set is stored as "". Timestamps are abstract instants in seconds. */
  datatype Entry = Entry(
    id: int,
    word: string,
    meaning: string,
    translatedWord: string,
    translatedMeaning: string,
    example: string,
    translatedExample: string,
    language: string,
    kind: string,
    audioFile: string,
    transcript: string,
    translatedTranscript: string,
    contributor: string,
    timestamp: int,
    verified: bool)

  /** The stored translation of a field. */
  function Translation(e: Entry, f: Field): string {
    match f
    case Word => e.translatedWord
    case Meaning => e.translatedMeaning
    case Example => e.translatedExample
    case Transcript => e.translatedTranscript
  }

  /** The ids of a store are strictly increasing in row order. */
  predicate IdsIncreasing(s: seq<Entry>) {
    forall i, j :: 0 <= i < j < |s| ==> s[i].id < s[j].id
  }

  /** The ids of a store are exactly 1, 2, ..., |s| in row order. */
  predicate IdsConsecutive(s: seq<Entry>) {
    forall i :: 0 <= i < |s| ==> s[i].id == i + 1
  }

  lemma ConsecutiveIncreasing(s: seq<Entry>)
    requires IdsConsecutive(s)
    ensures IdsIncreasing(s)
  {
  }

  function SeedRow(id: int, word: string, meaning: string, translated: string,
                   example: string, translatedExample: string, kind: string, now: int): Entry
  {
    Entry(id, word, meaning, translated, meaning, example, translatedExample,
          "Hindi", kind, "", "", "", "System", now, true)
  }

  /** The five sample rows written when the dictionary file does not exist:
      verified Hindi rows contributed by "System", ids 1 to 5. */
  function Seed(now: int): (s: seq<Entry>)
    ensures |s| == 5
    ensures IdsConsecutive(s)
    ensures forall i :: 0 <= i < |s| ==>
              s[i].verified && s[i].language == "Hindi" && s[i].contributor == "System" &&
              s[i].audioFile == "" && s[i].timestamp == now
  {
    [ SeedRow(1, "Namaste", "Hello/Greeting", "Hello", "Namaste, kaise ho?", "Hello, how are you?", "Word", now),
      SeedRow(2, "Dhanyavaad", "Thank you", "Thank you", "Dhanyavaad aapka", "Thank you", "Word", now),
      SeedRow(3, "Kya haal hai", "How are you?", "How are you?", "Kya haal hai dost?", "How are you friend?", "Phrase", now),
      SeedRow(4, "Acha", "Good", "Good", "Acha lag raha hai", "It feels good", "Word", now),
      SeedRow(5, "Shukriya", "Thank you", "Thank you", "Shukriya aapka", "Thank you", "Word", now) ]
  }

  /** The fixed list of entry types, in display order. */
  const EntryTypes: seq<string> := ["Word", "Phrase", "Folk Song", "Story"]

  /** `get_entry_types`: four distinct type names, in the order Word, Phrase,
      Folk Song, Story. */
  function GetEntryTypes(): (r: seq<string>)
    ensures |r| == 4 && Distinct(r)
    ensures r[0] == "Word" && r[1] == "Phrase" && r[2] == "Folk Song" && r[3] == "Story"
    ensures "" !in r
  {
    EntryTypes
  }

  /** Every seed row has one of the listed types. */
  lemma SeedKindsAreEntryTypes(now: int)
    ensures forall i :: 0 <= i < |Seed(now)| ==> Seed(now)[i].kind in GetEntryTypes()
  {
    var s, types := Seed(now), GetEntryTypes();
    assert types[0] == "Word" && types[1] == "Phrase";
    assert s[0].kind == "Word" && s[1].kind == "Word" && s[2].kind == "Phrase";
    assert s[3].kind == "Word" && s[4].kind == "Word";
  }

  /** The store's language-name table (13 languages plus "auto"). */
  const StoreCodes: map<string, string> := map[
    "Hindi" := "hi", "Telugu" := "te", "Kannada" := "kn", "Tamil" := "ta",
    "Malayalam" := "ml", "Marathi" := "mr", "Gujarati" := "gu", "Punjabi" := "pa",
    "Bengali" := "bn", "Odia" := "or", "English" := "en", "Chinese" := "zh",
    "Japanese" := "ja", "auto" := "auto"]

  /** `_get_language_code`: the table's code, or the lower-cased name. */
  function LanguageCode(name: string): (code: string)
    ensures name in StoreCodes ==> code == StoreCodes[name]
    ensures name !in StoreCodes ==> code == Lower(name)
    ensures Lower(code) == code
  {
    if name in StoreCodes then StoreCodes[name] else Lower(name)
  }
}

=== FILE: optional.dfy ===
/** The Some/None datatype: a value that may be missing, or a call that may
    have raised instead of returning. */
module Optional {

  datatype Option<+T> = None | Some(value: T) {

    /** The carried value, or `default` when there is none. */
    function GetOr(default: T): T {
      match this
      case Some(v) => v
      case None => default
    }
  }
}

=== FILE: puter.dfy ===
/**
 The AI service stubs: each builds a fixed string or list from its
 arguments, and each has a fallback value for the case where its body
 raises (the only calls that can raise in these bodies are the page
 notifications, so whether they raise is a parameter `failed`).
 */
module Puter {
  import opened Optional
  import opened Text
  import opened Collections
  import opened Entries
  import Store

  /** The stub's own code-to-name table (ten Indian languages). */
  const LanguageNames: map<string, string> := map[
    "hi" := "Hindi", "te" := "Telugu", "kn" := "Kannada", "ta" := "Tamil",
    "ml" := "Malayalam", "mr" := "Marathi", "gu" := "Gujarati",
    "pa" := "Punjabi", "bn" := "Bengali", "or" := "Odia"]

  /** `language_map.get(code, code)`. */
  function LanguageName(code: string): string {
    if code in LanguageNames then LanguageNames[code] else code
  }

  /** The note `translate_text` puts in front of the text. */
  function TranslationNote(target: string): string {
    "[" + LanguageName(target) + " Translation]: "
  }

  /** `translate_text`: the text behind a note naming the target language;
      the text itself when the body raises. The source language only feeds
      a notification. */
  function TranslateText(text: string, source: string, target: string, failed: bool): (r: string)
    ensures IsSuffix(text, r)
    ensures failed ==> r == text
    ensures !failed ==> IsPrefix(TranslationNote(target), r) &&
                        |r| == |TranslationNote(target)| + |text|
    ensures !failed && target in LanguageNames ==> IsPrefix("[" + LanguageNames[target] + " ", r)
    ensures !failed && target !in LanguageNames ==> IsPrefix("[" + target + " ", r)
  {
    if failed then text else TranslationNote(target) + text
  }

  /** Removes a translation note for `target`, if there is one. */
  function StripNote(r: string, target: string): string {
    var note := TranslationNote(target);
    if IsPrefix(note, r) then r[|note|..] else r
  }

  /** The original text is recovered from a stub translation. */
  lemma TranslateRoundTrip(text: string, source: string, target: string)
    ensures StripNote(TranslateText(text, source, target, false), target) == text
  {
    var note := TranslationNote(target);
    assert (note + text)[|note|..] == text;
  }

  /** The stub as the store sees it: it catches its own exceptions, so it
      never raises. */
  function StubTranslator(text: string, source: string, target: string): (r: Option<string>)
    ensures r.Some? && IsSuffix(text, r.value)
  {
    Some(TranslateText(text, source, target, false))
  }

  /** With the stub, every field the store translates gets the text behind
      the note "[en Translation]: " (the stub's table has no entry for "en"),
      and a translation the caller supplied is kept. */
  lemma StubFill(c: Candidate, f: Field)
    ensures var r := Store.AutoTranslate(c, StubTranslator);
            if Store.NeedsTranslation(c, f)
            then f in r.translations && r.translations[f] == "[en Translation]: " + Source(c, f)
            else (f in r.translations <==> f in c.translations) &&
                 (f in c.translations ==> r.translations[f] == c.translations[f])
  {
    var code := LanguageCode(c.language);
    assert !Store.Fails(c, StubTranslator) by {
      forall g ensures Store.Call(c, g, code, StubTranslator).Some? {
      }
    }
    assert TranslationNote(Store.Target) == "[en Translation]: " by {
      assert Store.Target !in LanguageNames;
    }
    var r := Store.AutoTranslate(c, StubTranslator);
    if Store.NeedsTranslation(c, f) {
      assert Store.Call(c, f, code, StubTranslator) == Some(r.translations[f]);
    }
  }

  /** With the stub, the stored English word of a new entry is the note
      followed by the word, unless the caller supplied a translation. */
  lemma StubTranslatedWord(s: seq<Entry>, c: Candidate, now: int)
    requires c.word != "" && Word !in c.translations
    ensures Store.NewEntry(s, c, now, StubTranslator).translatedWord == "[en Translation]: " + c.word
  {
    StubFill(c, Word);
    var r := Store.AutoTranslate(c, StubTranslator);
    assert Translation(Store.Stamp(r, Store.NextId(s), now), Word) == r.translations[Word];
  }

  // ---------------------------------------------------------------------
  // Word lists

  /** `word` followed by each suffix, in order. */
  function WithSuffixes(word: string, suffixes: seq<string>): (r: seq<string>)
    ensures |r| == |suffixes|
    ensures forall i :: 0 <= i < |r| ==> r[i] == word + suffixes[i]
  {
    seq(|suffixes|, i requires 0 <= i < |suffixes| => word + suffixes[i])
  }

  /** Distinct suffixes give distinct words, each starting with `word`. */
  lemma WithSuffixesDistinct(word: string, suffixes: seq<string>)
    requires Distinct(suffixes)
    ensures Distinct(WithSuffixes(word, suffixes))
    ensures forall w :: w in WithSuffixes(word, suffixes) ==> IsPrefix(word, w)
  {
    var r := WithSuffixes(word, suffixes);
    forall i, j | 0 <= i < j < |r| ensures r[i] != r[j] {
      assert r[i][|word|..] == suffixes[i];
      assert r[j][|word|..] == suffixes[j];
    }
  }

  /** What `enhance_meaning` returns. */
  datatype Enhancement = Enhancement(enhancedMeaning: string, relatedWords: seq<string>, culturalContext: string)

  const RelatedSuffixes: seq<string> := ["_related1", "_related2", "_related3"]

  /** `enhance_meaning`: a longer meaning that quotes the given one, three
      related words built from the word, and a context sentence naming the
      language; on failure the meaning itself, no words and no context. */
  function EnhanceMeaning(word: string, meaning: string, language: string, failed: bool): (r: Enhancement)
    ensures Contains(r.enhancedMeaning, meaning)
    ensures failed ==> r == Enhancement(meaning, [], "")
    ensures !failed ==>
              |r.relatedWords| == 3 && Distinct(r.relatedWords) &&
              (forall w :: w in r.relatedWords ==> IsPrefix(word + "_related", w)) &&
              Contains(r.culturalContext, language) &&
              Contains(r.enhancedMeaning, "'" + word + "'") &&
              |r.enhancedMeaning| > |meaning|
  {
    if failed then
      ContainsInfix([], meaning, []);
      assert [] + meaning + [] == meaning;
      Enhancement(meaning, [], "")
    else
      Enhancement(EnhancedText(word, meaning, language), RelatedWords(word), ContextText(language))
  }

  /** The enhanced meaning: the meaning quoted inside a longer sentence. */
  function EnhancedText(word: string, meaning: string, language: string): (r: string)
    ensures Contains(r, meaning) && Contains(r, "'" + word + "'")
    ensures |r| > |meaning|
  {
    var q := "'" + word + "'";
    var middle := " in " + language + ": ";
    Sentence("Enhanced meaning of ", q, middle, meaning, " with cultural significance and traditional usage patterns.")
  }

  /** The context sentence naming the language. */
  function ContextText(language: string): (r: string)
    ensures Contains(r, language)
  {
    var tail := " word has deep cultural significance and is commonly used in traditional contexts.";
    ContainsInfix("This ", language, tail);
    "This " + language + tail
  }

  /** The three related words. */
  function RelatedWords(word: string): (r: seq<string>)
    ensures |r| == 3 && Distinct(r)
    ensures forall w :: w in r ==> IsPrefix(word + "_related", w)
  {
    WithSuffixesDistinct(word, RelatedSuffixes);
    var related := WithSuffixes(word, RelatedSuffixes);
    forall w | w in related ensures IsPrefix(word + "_related", w) {
      var i :| 0 <= i < |related| && related[i] == w;
      assert w == (word + "_related") + [RelatedSuffixes[i][8]];
    }
    related
  }

  /** A sentence holding a quoted word and, further on, a second text (a
      language name or a meaning). */
  function Sentence(before: string, quoted: string, middle: string, named: string, after: string): (r: string)
    ensures Contains(r, quoted) && Contains(r, named)
    ensures IsPrefix(before, r)
  {
    ContainsInfix(before, quoted, middle + named + after);
    ContainsInfix(before + quoted + middle, named, after);
    assert before + quoted + middle + named + after == before + quoted + (middle + named + after);
    before + quoted + middle + named + after
  }

  /** `generate_example_sentences`: three sentences, each quoting the word
      and naming the language; none on failure. */
  function GenerateExampleSentences(word: string, meaning: string, language: string, failed: bool): (r: seq<string>)
    ensures failed ==> r == []
    ensures !failed ==>
              |r| == 3 && Distinct(r) &&
              forall i :: 0 <= i < |r| ==> Contains(r[i], "'" + word + "'") && Contains(r[i], language)
  {
    if failed then []
    else
      var q := "'" + word + "'";
      var s1 := Sentence("Example 1: Using ", q, " in a ", language, " sentence.");
      var s2 := Sentence("Example 2: Another way to use ", q, " in ", language, ".");
      var s3 := Sentence("Example 3: Cultural usage of ", q, " in ", language, " context.");
      assert s1[8] == '1' && s2[8] == '2' && s3[8] == '3';
      [s1, s2, s3]
  }

  /** `transcribe_audio`: a non-empty placeholder naming the language; ""
      on failure. */
  function TranscribeAudio(path: string, language: string, failed: bool): (r: string)
    ensures failed <==> r == ""
    ensures !failed ==> Contains(r, language)
  {
    if failed then ""
    else
      var tail := "]: This is a placeholder transcription of the audio file.";
      ContainsInfix("[Audio transcript in ", language, tail);
      "[Audio transcript in " + language + tail
  }

  /** What `analyze_cultural_significance` returns. */
  datatype CulturalAnalysis = CulturalAnalysis(significance: string, history: string, variations: seq<string>)

  const RegionalSuffixes: seq<string> := ["_regional1", "_regional2"]

  /** `analyze_cultural_significance`: two regional variations built from the
      word and two sentences naming the language; on failure empty strings
      and no variations. */
  function AnalyzeCulturalSignificance(word: string, meaning: string, language: string, failed: bool): (r: CulturalAnalysis)
    ensures failed ==> r == CulturalAnalysis("", "", [])
    ensures !failed ==>
              |r.variations| == 2 && Distinct(r.variations) &&
              (forall w :: w in r.variations ==> IsPrefix(word + "_regional", w)) &&
              Contains(r.significance, language) && Contains(r.significance, "'" + word + "'") &&
              Contains(r.history, language)
  {
    if failed then CulturalAnalysis("", "", [])
    else
      var q := "'" + word + "'";
      var sigTail := " has significant cultural importance and is used in traditional contexts.";
      var significance := "The word " + q + " in " + language + sigTail;
      ContainsInfix("The word ", q, " in " + language + sigTail);
      assert significance == "The word " + q + (" in " + language + sigTail);
      ContainsInfix("The word " + q + " in ", language, sigTail);
      var histTail := " culture and has been used for generations.";
      var history := "This word has historical roots in " + language + histTail;
      ContainsInfix("This word has historical roots in ", language, histTail);
      WithSuffixesDistinct(word, RegionalSuffixes);
      var variations := WithSuffixes(word, RegionalSuffixes);
      forall w | w in variations ensures IsPrefix(word + "_regional", w) {
        var i :| 0 <= i < |variations| && variations[i] == w;
        assert w == (word + "_regional") + [RegionalSuffixes[i][9]];
      }
      CulturalAnalysis(significance, history, variations)
  }

  const SuggestionSuffixes: seq<string> := ["_synonym1", "_synonym2", "_related1", "_related2", "_cultural1"]

  /** `suggest_related_words`: five distinct words, each the given word
      followed by "_" and a tag; none on failure. */
  function SuggestRelatedWords(word: string, language: string, failed: bool): (r: seq<string>)
    ensures failed ==> r == []
    ensures !failed ==>
              |r| == 5 && Distinct(r) &&
              forall w :: w in r ==> IsPrefix(word + "_", w) && |w| > |word| + 1
  {
    if failed then []
    else
      WithSuffixesDistinct(word, SuggestionSuffixes);
      var r := WithSuffixes(word, SuggestionSuffixes);
      forall w | w in r ensures IsPrefix(word + "_", w) && |w| > |word| + 1 {
        var i :| 0 <= i < |r| && r[i] == w;
        assert w == (word + "_") + SuggestionSuffixes[i][1..];
      }
      r
  }
}

=== FILE: queries.dfy ===
/**
 Row selection as pandas does it with a boolean mask: a criterion on one row,
 and the order-preserving selection of the rows that meet it.
 */
module Queries {
  import opened Text
  import opened Collections
  import opened Entries
  import opened Csv

  /** A condition on one row. */
  datatype Criterion =
    | Any
    | MatchesText(query: string)   // case-insensitive substring of word, meaning or example, as read back
    | InLanguage(language: string)
    | OfKind(kind: string)
    | HasAudio
    | IsTranslated                 // translated_word present and non-empty
    | IsVerified
    | Since(instant: int)          // timestamp at or after the instant
    | Both(left: Criterion, right: Criterion)
    | Not(inner: Criterion)

  /** Case-insensitive substring test of `str.contains(q, case=False)`. */
  predicate ContainsIgnoringCase(field: string, q: string) {
    Contains(Lower(field), Lower(q))
  }

  /** `str.contains(q, case=False, na=False)` on a field read back from the
      CSV: a cell read back as NaN never matches. */
  predicate CellMatches(field: string, q: string) {
    match ReadCell(field)
    case NaN => false
    case Field(text) => ContainsIgnoringCase(text, q)
  }

  /** The masks of several columns joined with `|`. */
  predicate AnyCellMatches(fields: seq<string>, q: string)
    decreases |fields|
  {
    fields != [] && (CellMatches(fields[0], q) || AnyCellMatches(fields[1..], q))
  }

  predicate Holds(c: Criterion, e: Entry) {
    match c
    case Any => true
    case MatchesText(q) => AnyCellMatches([e.word, e.meaning, e.example], q)
    case InLanguage(l) => e.language == l
    case OfKind(k) => e.kind == k
    case HasAudio => e.audioFile != ""
    case IsTranslated => e.translatedWord != ""
    case IsVerified => e.verified
    case Since(t) => e.timestamp >= t
    case Both(a, b) => Holds(a, e) && Holds(b, e)
    case Not(a) => !Holds(a, e)
  }

  /** The text query tests the word, meaning and example cells, and a row
      matches when one of the three does. */
  lemma MatchesTextColumns(e: Entry, q: string)
    ensures Holds(MatchesText(q), e) <==>
            CellMatches(e.word, q) || CellMatches(e.meaning, q) || CellMatches(e.example, q)
  {
    var fields := [e.word, e.meaning, e.example];
    assert fields[1..] == [e.meaning, e.example];
    assert [e.meaning, e.example][1..] == [e.example];
    assert [e.example][1..] == [];
    assert AnyCellMatches([e.example], q) <==> CellMatches(e.example, q);
    assert AnyCellMatches([e.meaning, e.example], q) <==>
           CellMatches(e.meaning, q) || CellMatches(e.example, q);
  }

  /** `a` is `b` with some elements left out, the rest in their order. */
  predicate IsSubsequence<T(==)>(a: seq<T>, b: seq<T>)
    decreases |b|
  {
    a == [] ||
    (b != [] && ((a[0] == b[0] && IsSubsequence(a[1..], b[1..])) || IsSubsequence(a, b[1..])))
  }

  lemma {:induction false} SubsequenceTransitive<T>(a: seq<T>, b: seq<T>, c: seq<T>)
    requires IsSubsequence(a, b) && IsSubsequence(b, c)
    ensures IsSubsequence(a, c)
    decreases |c|
  {
    if a != [] {
      if IsSubsequence(b, c[1..]) {
        SubsequenceTransitive(a, b, c[1..]);
      } else if a[0] == b[0] && IsSubsequence(a[1..], b[1..]) {
        SubsequenceTransitive(a[1..], b[1..], c[1..]);
      } else {
        SubsequenceTransitive(a, b[1..], c[1..]);
      }
    }
  }

  lemma {:induction false} SubsequenceRefl<T>(a: seq<T>)
    ensures IsSubsequence(a, a)
    decreases |a|
  {
    if a != [] {
      SubsequenceRefl(a[1..]);
    }
  }

  /** `df[mask]`: the rows that meet `c`, in store order. */
  function Select(s: seq<Entry>, c: Criterion): (r: seq<Entry>)
    ensures |r| <= |s|
    ensures forall e :: e in r ==> e in s && Holds(c, e)
    ensures forall e :: e in s && Holds(c, e) ==> e in r
    ensures IsSubsequence(r, s)
  {
    if s == [] then []
    else
      var rest := Select(s[1..], c);
      assert forall e :: e in s <==> e == s[0] || e in s[1..];
      if Holds(c, s[0]) then
        var r := [s[0]] + rest;
        assert r[1..] == rest;
        r
      else
        rest
  }

  /** Number of rows meeting `c`, i.e. `len(df[mask])`. */
  function Count(s: seq<Entry>, c: Criterion): (n: nat)
    ensures n <= |s|
  {
    |Select(s, c)|
  }

  /** A selection is non-empty exactly when some row meets the criterion. */
  lemma SelectNonEmpty(s: seq<Entry>, c: Criterion)
    ensures Select(s, c) != [] <==> exists e :: e in s && Holds(c, e)
  {
    var r := Select(s, c);
    if r != [] {
      assert r[0] in r;
    }
  }

  /** Every row either meets a criterion or meets its negation. */
  lemma {:induction false} CountComplement(s: seq<Entry>, c: Criterion)
    ensures Count(s, c) + Count(s, Not(c)) == |s|
  {
    if s != [] {
      CountComplement(s[1..], c);
      HoldsNot(c, s[0]);
      if Holds(c, s[0]) {
        assert |Select(s, c)| == 1 + |Select(s[1..], c)|;
      } else {
        assert |Select(s, Not(c))| == 1 + |Select(s[1..], Not(c))|;
      }
    }
  }

  /** A selection that every row passes keeps the whole store. */
  lemma {:induction false} SelectAll(s: seq<Entry>, c: Criterion)
    requires forall i :: 0 <= i < |s| ==> Holds(c, s[i])
    ensures Select(s, c) == s
  {
    if s != [] {
      SelectAll(s[1..], c);
    }
  }

  /** Every row meets a criterion exactly when the selection counts them all. */
  lemma CountAll(s: seq<Entry>, c: Criterion)
    ensures Count(s, c) == |s| <==> forall i :: 0 <= i < |s| ==> Holds(c, s[i])
  {
    CountComplement(s, c);
    SelectNonEmpty(s, Not(c));
    if forall i :: 0 <= i < |s| ==> Holds(c, s[i]) {
      SelectAll(s, c);
    } else {
      var i :| 0 <= i < |s| && !Holds(c, s[i]);
      assert s[i] in s && Holds(Not(c), s[i]);
    }
  }

  /** Filtering by `a` then by `b` is filtering once by both. */
  lemma {:induction false} SelectBoth(s: seq<Entry>, a: Criterion, b: Criterion)
    ensures Select(Select(s, a), b) == Select(s, Both(a, b))
  {
    if s != [] {
      SelectBoth(s[1..], a, b);
      HoldsBoth(a, b, s[0]);
      if Holds(a, s[0]) {
        assert Select(s, a) == [s[0]] + Select(s[1..], a);
        assert Select(s, a)[1..] == Select(s[1..], a);
      } else {
        assert Select(s, a) == Select(s[1..], a);
      }
    }
  }

  lemma HoldsNot(c: Criterion, e: Entry)
    ensures Holds(Not(c), e) <==> !Holds(c, e)
  {
  }

  lemma HoldsBoth(a: Criterion, b: Criterion, e: Entry)
    ensures Holds(Both(a, b), e) <==> Holds(a, e) && Holds(b, e)
  {
  }

  /** Filtering twice by the same criterion is filtering once. */
  lemma SelectIdempotent(s: seq<Entry>, c: Criterion)
    ensures Select(Select(s, c), c) == Select(s, c)
  {
    var r := Select(s, c);
    assert forall i :: 0 <= i < |r| ==> r[i] in r;
    SelectAll(r, c);
  }

  /** Criteria that agree on every row select the same rows. */
  lemma {:induction false} SelectSame(s: seq<Entry>, a: Criterion, b: Criterion)
    requires forall e :: Holds(a, e) <==> Holds(b, e)
    ensures Select(s, a) == Select(s, b)
  {
    if s != [] {
      SelectSame(s[1..], a, b);
    }
  }

  /** The `language` column. */
  function Languages(s: seq<Entry>): (ls: seq<string>)
    ensures |ls| == |s|
    ensures forall i :: 0 <= i < |s| ==> ls[i] == s[i].language
  {
    if s == [] then [] else [s[0].language] + Languages(s[1..])
  }

  /** The `type` column. */
  function Kinds(s: seq<Entry>): (ks: seq<string>)
    ensures |ks| == |s|
    ensures forall i :: 0 <= i < |s| ==> ks[i] == s[i].kind
  {
    if s == [] then [] else [s[0].kind] + Kinds(s[1..])
  }

  /** The `contributor` column. */
  function Contributors(s: seq<Entry>): (cs: seq<string>)
    ensures |cs| == |s|
    ensures forall i :: 0 <= i < |s| ==> cs[i] == s[i].contributor
  {
    if s == [] then [] else [s[0].contributor] + Contributors(s[1..])
  }

  /** The rows of language `l` are as many as the occurrences of `l` in the
      language column: `df[df['language'] == l]` agrees with `value_counts`. */
  lemma {:induction false} CountLanguage(s: seq<Entry>, l: string)
    ensures Count(s, InLanguage(l)) == Occurrences(Languages(s), l)
  {
    if s != [] {
      CountLanguage(s[1..], l);
      assert Languages(s)[1..] == Languages(s[1..]);
    }
  }
}

=== FILE: search.dfy ===
/**
 The store's read side used by the dictionary browser: `search_entries` and
 `get_languages`.
 */
module Search {
  import opened Collections
  import opened Entries
  import opened Queries
  import opened Text
  import opened Csv

  /** The condition a row must meet for a search: the query matches word,
      meaning or example, and the language and type filters match exactly;
      an empty argument imposes no condition. */
  predicate Selected(e: Entry, query: string, language: string, kind: string) {
    (query == "" || Holds(MatchesText(query), e)) &&
    (language == "" || e.language == language) &&
    (kind == "" || e.kind == kind)
  }

  /** `search_entries`: the query mask, then the language mask, then the type
      mask, each applied only when its argument is non-empty. */
  function SearchEntries(s: seq<Entry>, query: string, language: string, kind: string): (r: seq<Entry>)
    ensures IsSubsequence(r, s)
    ensures forall e :: e in r ==> Selected(e, query, language, kind)
    ensures forall e :: e in s && Selected(e, query, language, kind) ==> e in r
    ensures query == "" && language == "" && kind == "" ==> r == s
  {
    var byQuery := if query != "" then Select(s, MatchesText(query)) else s;
    var byLanguage := if language != "" then Select(byQuery, InLanguage(language)) else byQuery;
    var r := if kind != "" then Select(byLanguage, OfKind(kind)) else byLanguage;
    SubsequenceRefl(s);
    SubsequenceRefl(byQuery);
    SubsequenceRefl(byLanguage);
    SubsequenceTransitive(byLanguage, byQuery, s);
    SubsequenceTransitive(r, byLanguage, s);
    r
  }

  /** The single criterion the three masks amount to. */
  function SearchCriterion(query: string, language: string, kind: string): (c: Criterion)
    ensures forall e :: Holds(c, e) <==> Selected(e, query, language, kind)
  {
    var q := if query == "" then Any else MatchesText(query);
    var l := if language == "" then Any else InLanguage(language);
    var k := if kind == "" then Any else OfKind(kind);
    assert forall e :: Holds(Both(q, l), e) <==> Holds(q, e) && Holds(l, e);
    Both(Both(q, l), k)
  }

  /** The three masks in sequence select exactly the rows meeting the search
      condition, in store order. */
  lemma {:induction false} SearchIsOneSelection(s: seq<Entry>, query: string, language: string, kind: string)
    ensures SearchEntries(s, query, language, kind) == Select(s, SearchCriterion(query, language, kind))
  {
    var q := if query == "" then Any else MatchesText(query);
    var l := if language == "" then Any else InLanguage(language);
    var k := if kind == "" then Any else OfKind(kind);
    SelectAll(s, Any);
    var byQuery := Select(s, q);
    SelectAll(byQuery, Any);
    var byLanguage := Select(byQuery, l);
    SelectAll(byLanguage, Any);
    SelectBoth(s, q, l);
    SelectBoth(s, Both(q, l), k);
  }

  /** Searching the result of a search again with the same arguments changes
      nothing. */
  lemma SearchIdempotent(s: seq<Entry>, query: string, language: string, kind: string)
    ensures var r := SearchEntries(s, query, language, kind);
            SearchEntries(r, query, language, kind) == r
  {
    var c := SearchCriterion(query, language, kind);
    SearchIsOneSelection(s, query, language, kind);
    SearchIsOneSelection(Select(s, c), query, language, kind);
    SelectIdempotent(s, c);
  }

  /** A row whose word, meaning and example all read back as NaN is never
      found by a text query. */
  lemma MarkersNeverMatch(s: seq<Entry>, e: Entry, query: string, language: string, kind: string)
    requires query != ""
    requires IsMarker(e.word) && IsMarker(e.meaning) && IsMarker(e.example)
    ensures e !in SearchEntries(s, query, language, kind)
  {
    MatchesTextColumns(e, query);
  }

  /** The meaning "NA" contains "na" as text, yet the query "na" does not
      find its row, because the meaning reads back as NaN. */
  lemma MarkerMeaningNotFound(e: Entry)
    requires e.word == "Dhanyavaad" && e.meaning == "NA" && e.example == ""
    ensures ContainsIgnoringCase(e.meaning, "na")
    ensures SearchEntries([e], "na", "", "") == []
  {
    MarkersReadAsNaN();
    assert Lower("NA") == "na";
    ContainsInfix([], "na", []);
    assert [] + "na" + [] == "na";
    DhanyavaadLacksNa(e.word);
    MatchesTextColumns(e, "na");
    assert Select([e], MatchesText("na")) == [];
  }

  /** The word "Dhanyavaad" reads back as text that does not contain "na". */
  lemma DhanyavaadLacksNa(w: string)
    requires w == "Dhanyavaad"
    ensures !CellMatches(w, "na")
  {
    LongFieldIsText(w);
    assert Lower("na") == "na";
    assert Lower(w) == "dhanyavaad";
    NoAdjacentPair("dhanyavaad", "na");
  }

  /** `get_languages`: the distinct values of the language column, sorted. */
  function GetLanguages(s: seq<Entry>): (r: seq<string>)
    ensures StrictlySorted(r) && Distinct(r)
    ensures forall l :: l in r <==> exists i :: 0 <= i < |s| && s[i].language == l
    ensures |r| == |Unique(Languages(s))|
  {
    var u := Unique(Languages(s));
    SortStringsLength(u);
    var r := SortStrings(u);
    StrictlySortedDistinct(r);
    assert forall l :: l in Languages(s) <==> exists i :: 0 <= i < |s| && s[i].language == l by {
      forall l | l in Languages(s) ensures exists i :: 0 <= i < |s| && s[i].language == l {
        var i :| 0 <= i < |Languages(s)| && Languages(s)[i] == l;
      }
    }
    r
  }
}

=== FILE: stats.dfy ===
/**
 The store's aggregates: `get_basic_stats` and `get_analytics_data`.
 */
module Stats {
  import opened Optional
  import opened Collections
  import opened Entries
  import opened Queries
  import opened Csv

  datatype BasicStats = BasicStats(
    totalWords: nat,
    languages: nat,
    audioFiles: nat,
    contributors: nat,
    verifiedEntries: nat)

  /** `len(df[df['audio_file'] != ''])` on the table read back from the
      CSV: every row counts, because an empty path came back as NaN. */
  function AudioFilesAsRead(s: seq<Entry>): (n: nat)
    ensures n == |s|
  {
    if s == [] then 0
    else (if UnequalToEmpty(ReadCell(s[0].audioFile)) then 1 else 0) + AudioFilesAsRead(s[1..])
  }

  /** The audio count evidently intended: the rows whose audio path is
      present and non-empty, the test the analytics page applies to its own
      audio section. */
  function AudioFiles(s: seq<Entry>): (n: nat)
    ensures n <= |s|
    ensures n == |s| <==> forall i :: 0 <= i < |s| ==> s[i].audioFile != ""
    ensures n > 0 <==> exists e :: e in s && e.audioFile != ""
  {
    CountAll(s, HasAudio);
    SelectNonEmpty(s, HasAudio);
    Count(s, HasAudio)
  }

  /** Some contributor name reads back as NaN. */
  predicate HasNaContributor(s: seq<Entry>) {
    exists e :: e in s && IsMarker(e.contributor)
  }

  /** The contributor column as `unique` and `value_counts` see its text:
      the cells read back as NaN are left out, the rest keep row order. */
  function KnownContributors(s: seq<Entry>): (cs: seq<string>)
    ensures forall c :: c in cs <==> !IsMarker(c) && c in Contributors(s)
    ensures forall c :: !IsMarker(c) ==> Occurrences(cs, c) == Occurrences(Contributors(s), c)
    ensures |cs| + (if HasNaContributor(s) then 1 else 0) <= |s|
    ensures !HasNaContributor(s) ==> cs == Contributors(s)
  {
    if s == [] then []
    else
      var rest := KnownContributors(s[1..]);
      ContributorsCons(s);
      match ReadCell(s[0].contributor)
      case NaN => rest
      case Field(t) =>
        assert ([t] + rest)[1..] == rest;
        [t] + rest
  }

  lemma ContributorsCons(s: seq<Entry>)
    requires s != []
    ensures Contributors(s) == [s[0].contributor] + Contributors(s[1..])
    ensures HasNaContributor(s) <==> IsMarker(s[0].contributor) || HasNaContributor(s[1..])
  {
    assert forall e :: e in s[1..] ==> e in s;
  }

  /** `get_basic_stats`: all zero on an empty store; otherwise the row count,
      the numbers of distinct languages and of distinct contributor cells as
      read back, the number of verified rows, and an audio count that, as
      written, counts every row. */
  function GetBasicStats(s: seq<Entry>): (st: BasicStats)
    ensures s == [] ==> st == BasicStats(0, 0, 0, 0, 0)
    ensures s != [] ==> st.totalWords == |s|
    ensures st.languages == |set e | e in s :: e.language|
    ensures st.contributors == |set e | e in s :: ReadCell(e.contributor)|
    ensures s != [] ==> 1 <= st.languages <= |s| && 1 <= st.contributors <= |s|
    ensures st.audioFiles == |s| && st.verifiedEntries <= |s|
    ensures st.verifiedEntries == Count(s, IsVerified)
  {
    if s == [] then BasicStats(0, 0, 0, 0, 0)
    else
      LanguageSet(s);
      ContributorCellCount(s);
      var known := KnownContributors(s);
      assert !HasNaContributor(s) ==> known != [];
      BasicStats(|s|, |Unique(Languages(s))|, AudioFilesAsRead(s),
                 |Unique(known)| + (if HasNaContributor(s) then 1 else 0), Count(s, IsVerified))
  }

  /** Distinct texts give distinct cells. */
  lemma {:induction false} FieldImage(t: set<string>)
    ensures |set x | x in t :: Field(x)| == |t|
    decreases |t|
  {
    if t != {} {
      var x :| x in t;
      var rest := t - {x};
      FieldImage(rest);
      assert (set y | y in t :: Field(y)) == (set y | y in rest :: Field(y)) + {Field(x)};
    }
  }

  /** The contributor cells are the distinct known names, plus one NaN when
      some name reads back as NaN. */
  lemma ContributorCellCount(s: seq<Entry>)
    ensures |set e | e in s :: ReadCell(e.contributor)| ==
            |Unique(KnownContributors(s))| + (if HasNaContributor(s) then 1 else 0)
  {
    var known := KnownContributors(s);
    var names := set x | x in known;
    var fields := set x | x in names :: Field(x);
    var extra: set<Cell> := if HasNaContributor(s) then {NaN} else {};
    CellsOfContributors(s);
    assert KnownCells(s) == fields + extra;
    assert (set e | e in s :: ReadCell(e.contributor)) == fields + extra;
    FieldImage(names);
    UniqueCardinality(known);
    AddNaN(fields, HasNaContributor(s));
  }

  lemma AddNaN(fields: set<Cell>, b: bool)
    requires forall c :: c in fields ==> c.Field?
    ensures |fields + (if b then {NaN} else {})| == |fields| + (if b then 1 else 0)
  {
    if b {
      assert NaN !in fields;
    } else {
      assert fields + {} == fields;
    }
  }

  /** The distinct contributor cells as read back. */
  ghost function ContributorCells(s: seq<Entry>): set<Cell> {
    set e | e in s :: ReadCell(e.contributor)
  }

  /** The known names as text cells, plus NaN when some name is a marker. */
  ghost function KnownCells(s: seq<Entry>): set<Cell> {
    var names := set x | x in KnownContributors(s);
    (set x | x in names :: Field(x)) + (if HasNaContributor(s) then {NaN} else {})
  }

  lemma CellsOfContributors(s: seq<Entry>)
    ensures ContributorCells(s) == KnownCells(s)
  {
    CellsWithinKnown(s);
    KnownWithinCells(s);
  }

  lemma CellsWithinKnown(s: seq<Entry>)
    ensures ContributorCells(s) <= KnownCells(s)
  {
    forall e | e in s ensures ReadCell(e.contributor) in KnownCells(s) {
      CellOfRow(s, e);
    }
  }

  lemma KnownWithinCells(s: seq<Entry>)
    ensures KnownCells(s) <= ContributorCells(s)
  {
    forall c | c in KnownCells(s) ensures c in ContributorCells(s) {
      if c.Field? {
        assert c.text in KnownContributors(s);
        var e := KnownNameHasRow(s, c.text);
      } else {
        var e :| e in s && IsMarker(e.contributor);
      }
    }
  }

  lemma KnownNameHasRow(s: seq<Entry>, x: string) returns (e: Entry)
    requires x in KnownContributors(s)
    ensures e in s && e.contributor == x && ReadCell(x) == Field(x)
  {
    var cs := Contributors(s);
    assert x in cs;
    var i :| 0 <= i < |cs| && cs[i] == x;
    e := s[i];
  }

  lemma CellOfRow(s: seq<Entry>, e: Entry)
    requires e in s
    ensures IsMarker(e.contributor) ==> HasNaContributor(s)
    ensures !IsMarker(e.contributor) ==> e.contributor in KnownContributors(s)
  {
    var i :| 0 <= i < |s| && s[i] == e;
    assert Contributors(s)[i] == e.contributor;
  }

  /** With no name that reads back as NaN, the contributor count is the
      number of distinct names. */
  lemma ContributorsAsText(s: seq<Entry>)
    requires !HasNaContributor(s)
    ensures GetBasicStats(s).contributors == |set e | e in s :: e.contributor|
  {
    if s != [] {
      ContributorCellCount(s);
      ContributorSet(s);
    }
  }

  /** Two different names that both read back as NaN count as one
      contributor. */
  lemma NaContributorsCollapse(s: seq<Entry>)
    requires |s| == 2 && s[0].contributor == "NA" && s[1].contributor == "None"
    ensures GetBasicStats(s).contributors == 1
    ensures |set e | e in s :: e.contributor| == 2
  {
    NaPairCells(s);
    NaPairNames(s);
  }

  lemma NaPairCells(s: seq<Entry>)
    requires |s| == 2 && s[0].contributor == "NA" && s[1].contributor == "None"
    ensures |set e | e in s :: ReadCell(e.contributor)| == 1
  {
    MarkersReadAsNaN();
    var cells := set e | e in s :: ReadCell(e.contributor);
    assert forall e :: e in s ==> e == s[0] || e == s[1];
    assert ReadCell(s[0].contributor) in cells;
    assert cells == {NaN};
  }

  lemma NaPairNames(s: seq<Entry>)
    requires |s| == 2 && s[0].contributor == "NA" && s[1].contributor == "None"
    ensures |set e | e in s :: e.contributor| == 2
  {
    var names := set e | e in s :: e.contributor;
    assert forall e :: e in s ==> e == s[0] || e == s[1];
    assert s[0].contributor in names && s[1].contributor in names;
    assert names == {"NA", "None"};
    assert "NA"[1] != "None"[1];
  }

  /** On the seeded store, where no row has audio, the overview reports five
      audio files. */
  lemma SeedAudioMiscount(now: int)
    ensures GetBasicStats(Seed(now)).audioFiles == 5
    ensures AudioFiles(Seed(now)) == 0
  {
    var s := Seed(now);
    assert !exists e :: e in s && e.audioFile != "";
  }

  lemma LanguageSet(s: seq<Entry>)
    ensures |Unique(Languages(s))| == |set e | e in s :: e.language|
  {
    UniqueCardinality(Languages(s));
    assert (set x | x in Languages(s)) == (set e | e in s :: e.language) by {
      forall x | x in Languages(s) ensures x in (set e | e in s :: e.language) {
        var i :| 0 <= i < |s| && Languages(s)[i] == x;
        assert s[i] in s;
      }
    }
  }

  lemma ContributorSet(s: seq<Entry>)
    ensures |Unique(Contributors(s))| == |set e | e in s :: e.contributor|
  {
    UniqueCardinality(Contributors(s));
    assert (set x | x in Contributors(s)) == (set e | e in s :: e.contributor) by {
      forall x | x in Contributors(s) ensures x in (set e | e in s :: e.contributor) {
        var i :| 0 <= i < |s| && Contributors(s)[i] == x;
        assert s[i] in s;
      }
    }
  }

  /** Adding a row raises the language count by one exactly when its language
      is new to the store. */
  lemma LanguagesAfterAppend(s: seq<Entry>, e: Entry)
    ensures GetBasicStats(s + [e]).languages ==
            GetBasicStats(s).languages + (if e.language in (set x | x in s :: x.language) then 0 else 1)
  {
    var before := set x | x in s :: x.language;
    var after := set x | x in s + [e] :: x.language;
    assert after == before + {e.language};
  }

  /** Length of the recent-activity window, in seconds. */
  const ThirtyDays: int := 30 * 24 * 60 * 60

  /** How many top contributors are reported. */
  const TopContributors: nat := 5

  datatype Analytics = Analytics(
    languageDistribution: seq<Tally>,
    typeDistribution: seq<Tally>,
    recentActivity: nat,
    topContributors: seq<Tally>)

  /** `value_counts().head(n)`. */
  function Head(ts: seq<Tally>, n: nat): (r: seq<Tally>)
    ensures |r| == if |ts| <= n then |ts| else n
    ensures r == ts[..|r|]
  {
    if |ts| <= n then ts else ts[..n]
  }

  /** The rows reported are the five most frequent contributors (all of
      them when there are fewer), each once, with their true counts. */
  predicate TopContributorsOf(top: seq<Tally>, xs: seq<string>) {
    && |top| == (if |Unique(xs)| < TopContributors then |Unique(xs)| else TopContributors)
    && Distinct(Values(top))
    && (forall i :: 0 <= i < |top| ==> top[i].value in xs)
    && (forall i :: 0 <= i < |top| ==> top[i].count == Occurrences(xs, top[i].value))
    && (forall c :: c in xs && c !in Values(top) ==>
          forall i :: 0 <= i < |top| ==> top[i].count >= Occurrences(xs, c))
  }

  /** What the analytics of a non-empty store promise. */
  ghost predicate AnalyticsOf(a: Analytics, s: seq<Entry>, now: int) {
    && IsValueCount(a.languageDistribution, Languages(s))
    && IsValueCount(a.typeDistribution, Kinds(s))
    && SumBy(a.languageDistribution, CountOf) == |s|
    && SumBy(a.typeDistribution, CountOf) == |s|
    && |a.languageDistribution| == GetBasicStats(s).languages
    && a.recentActivity <= |s|
    && a.recentActivity == Count(s, Since(now - ThirtyDays))
    && TopContributorsOf(a.topContributors, KnownContributors(s))
    && (forall i :: 0 <= i < |a.topContributors| ==>
          !IsMarker(a.topContributors[i].value) &&
          a.topContributors[i].count == Occurrences(Contributors(s), a.topContributors[i].value))
  }

  /** `get_analytics_data` at instant `now`: nothing on an empty store;
      otherwise the language and type distributions, the number of rows
      stamped in the last thirty days and the five most frequent
      contributors among the names that do not read back as NaN (which
      `value_counts` drops). */
  function GetAnalyticsData(s: seq<Entry>, now: int): (r: Option<Analytics>)
    ensures r.None? <==> s == []
    ensures r.Some? ==> AnalyticsOf(r.value, s, now)
  {
    if s == [] then None
    else
      var known := KnownContributors(s);
      var contributors := ValueCounts(known);
      var top := Head(contributors, TopContributors);
      TopAreMostFrequent(known, contributors, top);
      TopAreKnown(s, top);
      var languages := ValueCounts(Languages(s));
      var kinds := ValueCounts(Kinds(s));
      assert |languages| == GetBasicStats(s).languages;
      Some(Analytics(languages, kinds, Count(s, Since(now - ThirtyDays)), top))
  }

  /** The names ranked from the known contributors are never NaN markers,
      and their counts are their numbers of rows. */
  lemma TopAreKnown(s: seq<Entry>, top: seq<Tally>)
    requires TopContributorsOf(top, KnownContributors(s))
    ensures forall i :: 0 <= i < |top| ==>
              !IsMarker(top[i].value) && top[i].count == Occurrences(Contributors(s), top[i].value)
  {
    forall i | 0 <= i < |top|
      ensures !IsMarker(top[i].value) && top[i].count == Occurrences(Contributors(s), top[i].value)
    {
      assert top[i].value in KnownContributors(s);
    }
  }

  /** Each entry of the language distribution counts exactly the rows of its
      language, the rows `df[df['language'] == l]` selects. */
  lemma LanguageDistributionCountsRows(s: seq<Entry>, now: int, i: nat)
    requires s != [] && i < |GetAnalyticsData(s, now).value.languageDistribution|
    ensures var t := GetAnalyticsData(s, now).value.languageDistribution[i];
            t.count == Count(s, InLanguage(t.value)) && t.count >= 1
  {
    var d := GetAnalyticsData(s, now).value.languageDistribution;
    CountLanguage(s, d[i].value);
    assert Values(d)[i] in Values(d);
  }

  /** The first rows of a descending value count are at least as frequent as
      every value left out. */
  lemma TopAreMostFrequent(xs: seq<string>, ts: seq<Tally>, top: seq<Tally>)
    requires SortedDesc(ts, CountOf)
    requires forall v :: v in xs ==> v in Values(ts)
    requires forall v :: v in Values(ts) ==> v in xs
    requires forall i :: 0 <= i < |ts| ==> ts[i].count == Occurrences(xs, ts[i].value)
    requires Distinct(Values(ts)) && |ts| == |Unique(xs)|
    requires |top| == (if |ts| < TopContributors then |ts| else TopContributors) && top == ts[..|top|]
    ensures TopContributorsOf(top, xs)
  {
    PrefixValues(ts, |top|);
    PrefixValuesIn(ts, top);
    HeadDominates(xs, ts, top);
    assert forall i :: 0 <= i < |top| ==> top[i] == ts[i];
  }

  /** Each row of a prefix of a descending count is at least as frequent as
      every value left out of the prefix. */
  lemma HeadDominates(xs: seq<string>, ts: seq<Tally>, top: seq<Tally>)
    requires SortedDesc(ts, CountOf)
    requires forall v :: v in xs ==> v in Values(ts)
    requires forall i :: 0 <= i < |ts| ==> ts[i].count == Occurrences(xs, ts[i].value)
    requires |top| <= |ts| && top == ts[..|top|]
    ensures forall c :: c in xs && c !in Values(top) ==>
              forall i :: 0 <= i < |top| ==> top[i].count >= Occurrences(xs, c)
  {
    forall c, i | c in xs && c !in Values(top) && 0 <= i < |top|
      ensures top[i].count >= Occurrences(xs, c)
    {
      var j :| 0 <= j < |ts| && Values(ts)[j] == c;
      PrefixExcludes(ts, top, c, j);
      assert ts[i] == top[i];
      assert CountOf(ts[i]) >= CountOf(ts[j]);
    }
  }

  /** A prefix of a tally with distinct values has distinct values. */
  lemma PrefixValues(ts: seq<Tally>, n: nat)
    requires Distinct(Values(ts)) && n <= |ts|
    ensures Distinct(Values(ts[..n]))
  {
    ValuesPrefix(ts, n);
    DistinctPrefix(Values(ts), n);
  }

  /** The values of a prefix of a tally are values of the tally. */
  lemma PrefixValuesIn(ts: seq<Tally>, top: seq<Tally>)
    requires |top| <= |ts| && top == ts[..|top|]
    ensures forall i :: 0 <= i < |top| ==> top[i].value in Values(ts)
  {
    forall i | 0 <= i < |top| ensures top[i].value in Values(ts) {
      assert Values(ts)[i] == top[i].value;
    }
  }

  /** A value missing from a prefix of a tally sits after that prefix. */
  lemma PrefixExcludes(ts: seq<Tally>, top: seq<Tally>, c: string, j: nat)
    requires |top| <= |ts| && top == ts[..|top|]
    requires j < |ts| && ts[j].value == c && c !in Values(top)
    ensures |top| <= j
  {
    forall k | 0 <= k < |top| ensures ts[k].value != c {
      assert Values(top)[k] == ts[k].value;
      assert Values(top)[k] in Values(top);
    }
  }
}

=== FILE: store.dfy ===
/**
 The entry store's write path: filling missing translations, assigning the
 next id, stamping and appending a row. Storage is an in-memory sequence of
 rows; rewriting the file is whole-sequence replacement, and the outcome of
 that write is a parameter.
 */
module Store {
  import opened Optional
  import opened Entries
  import Csv

  /** A translation call `(text, sourceCode, targetCode)`; `None` means the
      call raised. */
  type Translator = (string, string, string) -> Option<string>

  /** The language every stored entry is translated into. */
  const Target := "en"

  /** A field is translated only when its source text is non-empty and its
      translation is absent or empty. */
  predicate NeedsTranslation(c: Candidate, f: Field) {
    Source(c, f) != "" && (f !in c.translations || c.translations[f] == "")
  }

  /** The translation call the store makes for field `f` of `c`. */
  function Call(c: Candidate, f: Field, code: string, tr: Translator): Option<string> {
    tr(Source(c, f), code, Target)
  }

  /** The translation of `f` differs between `c` and `r`, or `r` added it. */
  predicate Changed(c: Candidate, r: Candidate, f: Field) {
    f in r.translations && (f !in c.translations || r.translations[f] != c.translations[f])
  }

  lemma AllFieldsInOrder(f: Field)
    ensures f in FillOrder
  {
    match f
    case Word => assert FillOrder[0] == f;
    case Meaning => assert FillOrder[1] == f;
    case Example => assert FillOrder[2] == f;
    case Transcript => assert FillOrder[3] == f;
  }

  /** State of the fill loop: the record so far and whether a call raised. */
  datatype FillRun = FillRun(cand: Candidate, raised: bool)

  /** The body of `_auto_translate_entry`'s try block: translate the fields in
      order, writing each result into the record at once; the first call that
      raises stops the loop, keeping what was already written. */
  function FillFields(c: Candidate, code: string, tr: Translator, fields: seq<Field>): (run: FillRun)
    ensures run.cand == c.(translations := run.cand.translations)
    ensures c.translations.Keys <= run.cand.translations.Keys
    ensures forall f :: Changed(c, run.cand, f) ==>
              f in fields && NeedsTranslation(c, f) &&
              Call(c, f, code, tr) == Some(run.cand.translations[f])
    ensures !run.raised ==>
              forall f :: f in fields && NeedsTranslation(c, f) ==>
                f in run.cand.translations && Call(c, f, code, tr) == Some(run.cand.translations[f])
    ensures run.raised ==>
              exists f :: f in fields && NeedsTranslation(c, f) && Call(c, f, code, tr) == None
    decreases |fields|
  {
    if fields == [] then FillRun(c, false)
    else
      var f := fields[0];
      assert forall g :: g in fields <==> g == f || g in fields[1..];
      if NeedsTranslation(c, f) then
        match Call(c, f, code, tr)
        case None => FillRun(c, true)
        case Some(t) =>
          var c' := c.(translations := c.translations[f := t]);
          var run := FillFields(c', code, tr, fields[1..]);
          assert forall g :: g != f ==> Source(c', g) == Source(c, g) && NeedsTranslation(c', g) == NeedsTranslation(c, g);
          run
      else
        FillFields(c, code, tr, fields[1..])
  }

  /** The except branch: `setdefault` each translation to its source text,
      keeping every key that is already present. */
  function SetDefaults(c: Candidate): (r: Candidate)
    ensures r == c.(translations := r.translations)
    ensures forall f :: f in r.translations
    ensures forall f :: f in c.translations ==> r.translations[f] == c.translations[f]
    ensures forall f :: f !in c.translations ==> r.translations[f] == Source(c, f)
  {
    c.(translations := map f: Field | true :: if f in c.translations then c.translations[f] else Source(c, f))
  }

  /** Some field that needs a translation has a translation call that raises. */
  predicate Fails(c: Candidate, tr: Translator) {
    exists f :: NeedsTranslation(c, f) && Call(c, f, LanguageCode(c.language), tr) == None
  }

  /** `_auto_translate_entry` with `tr` as `translate_text`. */
  function AutoTranslate(c: Candidate, tr: Translator): (r: Candidate)
    // only translations change
    ensures r == c.(translations := r.translations)
    // a caller-supplied non-empty translation is never overwritten
    ensures forall f :: f in c.translations && c.translations[f] != "" ==>
              f in r.translations && r.translations[f] == c.translations[f]
    ensures c.translations.Keys <= r.translations.Keys
    // without a raising call: exactly the fields that need it are translated
    ensures !Fails(c, tr) ==>
              forall f :: if NeedsTranslation(c, f)
                          then f in r.translations &&
                               Call(c, f, LanguageCode(c.language), tr) == Some(r.translations[f])
                          else (f in r.translations <==> f in c.translations) &&
                               (f in c.translations ==> r.translations[f] == c.translations[f])
    // after a raising call: every key is present; an absent one holds either a
    // translation made before the raise or its source text
    ensures Fails(c, tr) ==>
              forall f :: f in r.translations &&
                (f !in c.translations ==>
                   r.translations[f] == Source(c, f) ||
                   Call(c, f, LanguageCode(c.language), tr) == Some(r.translations[f]))
  {
    var run := FillFields(c, LanguageCode(c.language), tr, FillOrder);
    FillRaisesIffFails(c, tr);
    if run.raised then
      RaisedFill(c, tr);
      SetDefaults(run.cand)
    else
      run.cand
  }

  /** The fill loop over all four fields stops early exactly when some call
      it needs raises. */
  lemma FillRaisesIffFails(c: Candidate, tr: Translator)
    ensures FillFields(c, LanguageCode(c.language), tr, FillOrder).raised <==> Fails(c, tr)
    ensures var run := FillFields(c, LanguageCode(c.language), tr, FillOrder);
            !run.raised ==>
              forall f :: NeedsTranslation(c, f) ==>
                f in run.cand.translations &&
                Call(c, f, LanguageCode(c.language), tr) == Some(run.cand.translations[f])
  {
    forall f ensures f in FillOrder {
      AllFieldsInOrder(f);
    }
  }

  /** Records that differ only in their translations have the same source
      texts. */
  lemma SameSource(a: Candidate, b: Candidate, f: Field)
    requires a == b.(translations := a.translations)
    ensures Source(a, f) == Source(b, f)
  {
  }

  /** After a raise, the defaults leave every key present, and a key the
      caller did not supply holds its source text or a translation made
      before the raise. */
  lemma RaisedFill(c: Candidate, tr: Translator)
    ensures var r := SetDefaults(FillFields(c, LanguageCode(c.language), tr, FillOrder).cand);
            forall f :: f in r.translations &&
              (f !in c.translations ==>
                 r.translations[f] == Source(c, f) ||
                 Call(c, f, LanguageCode(c.language), tr) == Some(r.translations[f]))
  {
    var run := FillFields(c, LanguageCode(c.language), tr, FillOrder);
    var r := SetDefaults(run.cand);
    forall f ensures f in r.translations &&
                     (f !in c.translations ==>
                        r.translations[f] == Source(c, f) ||
                        Call(c, f, LanguageCode(c.language), tr) == Some(r.translations[f]))
    {
      SameSource(run.cand, c, f);
      if f !in c.translations && f in run.cand.translations {
        assert Changed(c, run.cand, f);
      }
    }
  }

  /** A field still waiting for a translation after a fill was already
      waiting before it. */
  lemma NeedsAfterFill(c: Candidate, tr: Translator, f: Field)
    ensures NeedsTranslation(AutoTranslate(c, tr), f) ==> NeedsTranslation(c, f)
  {
    SameSource(AutoTranslate(c, tr), c, f);
  }

  /** With a translator that does not raise on this record, filling twice is
      filling once: the second pass only re-translates fields whose first
      translation came back empty, and gets the same result again. */
  lemma AutoTranslateIdempotent(c: Candidate, tr: Translator)
    requires forall f :: NeedsTranslation(c, f) ==> Call(c, f, LanguageCode(c.language), tr).Some?
    ensures AutoTranslate(AutoTranslate(c, tr), tr) == AutoTranslate(c, tr)
  {
    var r := AutoTranslate(c, tr);
    var r2 := AutoTranslate(r, tr);
    assert r2.translations == r.translations by {
      forall f ensures (f in r2.translations <==> f in r.translations) &&
                       (f in r.translations ==> r2.translations[f] == r.translations[f]) {
        SecondFillField(c, tr, f);
      }
    }
  }

  lemma SecondFillField(c: Candidate, tr: Translator, f: Field)
    requires forall f :: NeedsTranslation(c, f) ==> Call(c, f, LanguageCode(c.language), tr).Some?
    ensures var r := AutoTranslate(c, tr);
            var r2 := AutoTranslate(r, tr);
            (f in r2.translations <==> f in r.translations) &&
            (f in r.translations ==> r2.translations[f] == r.translations[f])
  {
    var code := LanguageCode(c.language);
    var r := AutoTranslate(c, tr);
    assert !Fails(c, tr);
    assert !Fails(r, tr) by {
      forall g | NeedsTranslation(r, g) ensures Call(r, g, code, tr).Some? {
        NeedsAfterFill(c, tr, g);
        SameSource(r, c, g);
      }
    }
    SameSource(r, c, f);
    if NeedsTranslation(r, f) {
      NeedsAfterFill(c, tr, f);
    }
  }

  /** A translator that raises on the text "a" and answers "M" otherwise. */
  function RaisesOnA(text: string, src: string, tgt: string): Option<string> {
    if text == "a" then None else Some("M")
  }

  /** A record whose word the translator `RaisesOnA` refuses, and whose
      meaning translation is present but empty. */
  const RaisingExample := Candidate("a", "m", "", "Hindi", "Word", "", "", "", map[Meaning := ""])

  /** The first pass raises at the word, before anything is written, so the
      result is the defaults over the record as it came in. */
  lemma FirstPassStopsAtWord()
    ensures AutoTranslate(RaisingExample, RaisesOnA) == SetDefaults(RaisingExample)
  {
    var c := RaisingExample;
    var code := LanguageCode(c.language);
    assert NeedsTranslation(c, FillOrder[0]) && Call(c, FillOrder[0], code, RaisesOnA) == None;
    assert FillFields(c, code, RaisesOnA, FillOrder) == FillRun(c, true);
  }

  /** In the second pass only the meaning needs a translation, and that call
      does not raise. */
  lemma SecondPassTranslatesMeaning()
    ensures AutoTranslate(SetDefaults(RaisingExample), RaisesOnA).translations[Meaning] == "M"
  {
    var r := SetDefaults(RaisingExample);
    assert r.translations[Word] == "a" && r.translations[Meaning] == "";
    assert !Fails(r, RaisesOnA) by {
      forall f | NeedsTranslation(r, f) ensures Call(r, f, LanguageCode(r.language), RaisesOnA).Some? {
        assert f != Word;
      }
    }
    assert NeedsTranslation(r, Meaning);
  }

  /** When the translator raises for one field but not for another, a second
      fill can change the record: the first pass stops at the word and leaves
      the empty meaning translation in place; the second pass, no longer
      stopped by the word, translates the meaning. */
  lemma AutoTranslateNotIdempotentWhenRaising()
    ensures AutoTranslate(AutoTranslate(RaisingExample, RaisesOnA), RaisesOnA) !=
            AutoTranslate(RaisingExample, RaisesOnA)
  {
    FirstPassStopsAtWord();
    SecondPassTranslatesMeaning();
    assert SetDefaults(RaisingExample).translations[Meaning] == "";
  }

  // ---------------------------------------------------------------------
  // Ids

  function MaxId(s: seq<Entry>): (m: int)
    requires s != []
    ensures forall i :: 0 <= i < |s| ==> s[i].id <= m
    ensures exists i :: 0 <= i < |s| && s[i].id == m
  {
    if |s| == 1 then s[0].id
    else
      var m := MaxId(s[1..]);
      assert forall i :: 1 <= i < |s| ==> s[i] == s[1..][i - 1];
      if s[0].id >= m then s[0].id else m
  }

  /** The id `add_entry` assigns: 1 on an empty store, otherwise the largest
      id plus one. */
  function NextId(s: seq<Entry>): (id: int)
    ensures forall i :: 0 <= i < |s| ==> s[i].id < id
    ensures s == [] ==> id == 1
    ensures s != [] ==> exists i :: 0 <= i < |s| && s[i].id == id - 1
  {
    if s == [] then 1 else MaxId(s) + 1
  }

  /** On a store whose ids are 1..n the next id is n + 1. */
  lemma NextIdConsecutive(s: seq<Entry>)
    requires IdsConsecutive(s)
    ensures NextId(s) == |s| + 1
  {
    if s != [] {
      assert s[|s| - 1].id == |s|;
    }
  }

  /** The first user entry added to the seeded store gets id 6. */
  lemma SeedNextId(now: int)
    ensures NextId(Seed(now)) == 6
  {
    NextIdConsecutive(Seed(now));
  }

  // ---------------------------------------------------------------------
  // Appending

  /** The row built from a filled record: id and timestamp stamped, verified
      forced to false, an absent translation stored as "". */
  function Stamp(c: Candidate, id: int, now: int): (e: Entry)
    ensures e.id == id && e.timestamp == now && !e.verified
    ensures e.word == c.word && e.meaning == c.meaning && e.example == c.example
    ensures e.language == c.language && e.kind == c.kind && e.audioFile == c.audioFile
    ensures e.transcript == c.transcript && e.contributor == c.contributor
    ensures forall f :: Translation(e, f) == if f in c.translations then c.translations[f] else ""
  {
    var t := (f: Field) => if f in c.translations then c.translations[f] else "";
    Entry(id, c.word, c.meaning, t(Word), t(Meaning), c.example, t(Example),
          c.language, c.kind, c.audioFile, c.transcript, t(Transcript),
          c.contributor, now, false)
  }

  /** The row `add_entry` appends for `c`. */
  function NewEntry(s: seq<Entry>, c: Candidate, now: int, tr: Translator): (e: Entry)
    ensures forall i :: 0 <= i < |s| ==> s[i].id < e.id
    ensures e.timestamp == now && !e.verified
    ensures e.word == c.word && e.meaning == c.meaning && e.example == c.example
    ensures e.language == c.language && e.kind == c.kind && e.audioFile == c.audioFile
    ensures e.transcript == c.transcript && e.contributor == c.contributor
  {
    Stamp(AutoTranslate(c, tr), NextId(s), now)
  }

  /** How rewriting the dictionary file went: both writes succeeded, the CSV
      write raised, or the CSV was written and the refresh-marker write raised. */
  datatype WriteOutcome = Written | CsvFailed | MarkerFailed

  datatype AddResult = AddResult(ok: bool, store: seq<Entry>)

  /** `add_entry` as written: `save_data` rewrites the CSV and then the
      refresh marker, and any exception makes `add_entry` return false, even
      when it comes from the marker after the new row was already saved. */
  function AddEntryAsWritten(s: seq<Entry>, c: Candidate, now: int, tr: Translator, w: WriteOutcome): (r: AddResult)
    ensures r.ok <==> w == Written
    ensures w == CsvFailed ==> r.store == s
    ensures w != CsvFailed ==> |r.store| == |s| + 1 && r.store[..|s|] == s && r.store[|s|] == NewEntry(s, c, now, tr)
  {
    var e := NewEntry(s, c, now, tr);
    match w
    case Written => AddResult(true, s + [e])
    case CsvFailed => AddResult(false, s)
    case MarkerFailed => AddResult(false, s + [e])
  }

  /** A failed refresh-marker write makes `add_entry` report failure for a row
      that is stored; retrying then stores the entry twice. */
  lemma MarkerFailureMisreported(s: seq<Entry>, c: Candidate, now: int, tr: Translator)
    ensures var r := AddEntryAsWritten(s, c, now, tr, MarkerFailed);
            !r.ok && |r.store| == |s| + 1 && r.store[|s|].word == c.word
  {
  }

  /** `add_entry` with its result reporting whether the row was stored: the
      result is false exactly when the CSV write raised, and then the store
      is left as it was. On success exactly one row is appended and every
      earlier row keeps its place. */
  function AddEntry(s: seq<Entry>, c: Candidate, now: int, tr: Translator, w: WriteOutcome): (r: AddResult)
    ensures r.ok <==> |r.store| == |s| + 1
    ensures !r.ok ==> r.store == s
    ensures r.ok <==> w != CsvFailed
    ensures r.ok ==> r.store[..|s|] == s && r.store[|s|] == NewEntry(s, c, now, tr)
    ensures IdsIncreasing(s) ==> IdsIncreasing(r.store)
  {
    var e := NewEntry(s, c, now, tr);
    match w
    case CsvFailed => AddResult(false, s)
    case _ =>
      var s' := s + [e];
      assert s'[..|s|] == s;
      AddResult(true, s')
  }

  /** `df[df['word'] == w].iloc[-1]`: the last row holding word `w`. */
  function LastWithWord(s: seq<Entry>, w: string): (r: Option<Entry>)
    ensures r.Some? ==> exists i :: 0 <= i < |s| && s[i] == r.value && s[i].word == w &&
                                    forall j :: i < j < |s| ==> s[j].word != w
    ensures r.None? ==> forall i :: 0 <= i < |s| ==> s[i].word != w
    decreases |s|
  {
    if s == [] then None
    else if s[|s| - 1].word == w then Some(s[|s| - 1])
    else
      var front := s[..|s| - 1];
      var r := LastWithWord(front, w);
      assert forall i :: 0 <= i < |s| - 1 ==> s[i] == front[i];
      r
  }

  /** Appending a row holding `w` makes it the one read back; appending any
      other row leaves the read-back as it was. */
  lemma LastWithWordAppend(s: seq<Entry>, e: Entry, w: string)
    ensures LastWithWord(s + [e], w) == if e.word == w then Some(e) else LastWithWord(s, w)
  {
    assert (s + [e])[..|s|] == s;
  }

  /** `df[df['word'] == w].iloc[-1]` on the table as `load_data` reads it
      back: the last row whose word cell equals `w`, or None when none does
      and `iloc[-1]` raises. A word cell read back as NaN equals no string,
      so a word such as "NA" is never found, even in the row just written. */
  function ReadBackByWord(s: seq<Entry>, w: string): (r: Option<Entry>)
    ensures Csv.IsMarker(w) ==> r.None?
    ensures !Csv.IsMarker(w) ==> r == LastWithWord(s, w)
    decreases |s|
  {
    if s == [] then None
    else if Csv.ReadCell(s[|s| - 1].word) == Csv.Field(w) then Some(s[|s| - 1])
    else ReadBackByWord(s[..|s| - 1], w)
  }

  /** `add_entry` as written and the corrected one leave the same table
      behind; they differ only in what they report. */
  lemma AddEntrySameStore(s: seq<Entry>, c: Candidate, now: int, tr: Translator, w: WriteOutcome)
    ensures AddEntryAsWritten(s, c, now, tr, w).store == AddEntry(s, c, now, tr, w).store
    ensures AddEntryAsWritten(s, c, now, tr, w).ok ==> AddEntry(s, c, now, tr, w).ok
  {
  }

  /** Once the row is written, the last row holding the submitted word is the
      new row, which is how the contribution page reads back the saved entry. */
  lemma AddedEntryIsLastWithWord(s: seq<Entry>, c: Candidate, now: int, tr: Translator, w: WriteOutcome)
    requires w != CsvFailed
    ensures LastWithWord(AddEntryAsWritten(s, c, now, tr, w).store, c.word) == Some(NewEntry(s, c, now, tr))
    ensures LastWithWord(AddEntry(s, c, now, tr, w).store, c.word) == Some(NewEntry(s, c, now, tr))
  {
    LastWithWordAppend(s, NewEntry(s, c, now, tr), c.word);
  }

  /** One call to `add_entry`. */
  datatype AddRequest = AddRequest(cand: Candidate, now: int, write: WriteOutcome)

  /** The store after a sequence of `add_entry` calls. */
  function Replay(s: seq<Entry>, reqs: seq<AddRequest>, tr: Translator): seq<Entry>
    decreases |reqs|
  {
    if reqs == [] then s
    else Replay(AddEntry(s, reqs[0].cand, reqs[0].now, tr, reqs[0].write).store, reqs[1..], tr)
  }

  /** Number of requests whose CSV write succeeded. */
  function Successes(reqs: seq<AddRequest>): nat {
    if reqs == [] then 0
    else (if reqs[0].write != CsvFailed then 1 else 0) + Successes(reqs[1..])
  }

  /** Any sequence of adds only appends: the old rows stay a prefix, one row is
      added per successful write, and ids stay strictly increasing. */
  lemma {:induction false} ReplayAppendOnly(s: seq<Entry>, reqs: seq<AddRequest>, tr: Translator)
    requires IdsIncreasing(s)
    ensures var s' := Replay(s, reqs, tr);
            |s'| == |s| + Successes(reqs) && s'[..|s|] == s && IdsIncreasing(s')
    decreases |reqs|
  {
    if reqs != [] {
      var s1 := AddEntry(s, reqs[0].cand, reqs[0].now, tr, reqs[0].write).store;
      ReplayAppendOnly(s1, reqs[1..], tr);
      var s' := Replay(s1, reqs[1..], tr);
      assert s'[..|s|] == s'[..|s1|][..|s|];
    }
  }

  /** Starting from ids 1..n, ids stay 1..m whatever the adds: an id is never
      skipped or reused. */
  lemma {:induction false} ReplayKeepsIdsConsecutive(s: seq<Entry>, reqs: seq<AddRequest>, tr: Translator)
    requires IdsConsecutive(s)
    ensures IdsConsecutive(Replay(s, reqs, tr))
    decreases |reqs|
  {
    if reqs != [] {
      var r := AddEntry(s, reqs[0].cand, reqs[0].now, tr, reqs[0].write);
      assert IdsConsecutive(r.store) by {
        if r.ok {
          NextIdConsecutive(s);
          AppendConsecutive(s, NewEntry(s, reqs[0].cand, reqs[0].now, tr));
        }
      }
      ReplayKeepsIdsConsecutive(r.store, reqs[1..], tr);
    }
  }

  /** Appending the row with the next number keeps the ids consecutive. */
  lemma AppendConsecutive(s: seq<Entry>, e: Entry)
    requires IdsConsecutive(s) && e.id == |s| + 1
    ensures IdsConsecutive(s + [e])
  {
  }

  /** N successful adds to an empty store give exactly the ids 1..N. */
  lemma ReplayFromEmpty(reqs: seq<AddRequest>, tr: Translator)
    ensures var s' := Replay([], reqs, tr);
            |s'| == Successes(reqs) && forall i :: 0 <= i < |s'| ==> s'[i].id == i + 1
  {
    ReplayAppendOnly([], reqs, tr);
    ReplayKeepsIdsConsecutive([], reqs, tr);
  }
}

=== FILE: text.dfy ===
/**
 String helpers shared by the model: ASCII case folding, substring search,
 whitespace tests, Python-style slicing and the code-point order that Python
 uses to compare strings.
 */
module Text {

  /** True if `p` is a prefix of `s`. */
  predicate IsPrefix(p: string, s: string) {
    |p| <= |s| && s[..|p|] == p
  }

  /** True if `p` is a suffix of `s`. */
  predicate IsSuffix(p: string, s: string) {
    |p| <= |s| && s[|s| - |p|..] == p
  }

  /** A string that starts with `a + b` starts with `a`. */
  lemma PrefixOfPrefix(a: string, b: string, s: string)
    requires IsPrefix(a + b, s)
    ensures IsPrefix(a, s)
  {
    assert s[..|a|] == (a + b)[..|a|];
  }

  /** Substring test, the meaning of Python's `needle in hay`. */
  predicate Contains(hay: string, needle: string)
    decreases |hay|
  {
    IsPrefix(needle, hay) || (|hay| > 0 && Contains(hay[1..], needle))
  }

  /** Whatever stands before and after it, a string contains itself. */
  lemma {:induction false} ContainsInfix(a: string, b: string, c: string)
    ensures Contains(a + b + c, b)
  {
    if a == [] {
      assert a + b + c == b + c;
      assert (b + c)[..|b|] == b;
    } else {
      ContainsInfix(a[1..], b, c);
      assert (a + b + c)[1..] == a[1..] + b + c;
    }
  }

  /** A substring of `hay` is a substring of every extension of `hay`. */
  lemma {:induction false} ContainsExtend(a: string, hay: string, c: string, needle: string)
    requires Contains(hay, needle)
    ensures Contains(a + hay + c, needle)
    decreases |a|, |hay|
  {
    if a != [] {
      ContainsExtend(a[1..], hay, c, needle);
      assert (a + hay + c)[1..] == a[1..] + hay + c;
    } else if IsPrefix(needle, hay) {
      assert a + hay + c == hay + c;
      assert (hay + c)[..|needle|] == hay[..|needle|];
    } else {
      ContainsExtend([], hay[1..], c, needle);
      assert ([] + hay + c)[1..] == [] + hay[1..] + c;
    }
  }

  /** A two-character needle is absent from a string in which its two
      characters never stand side by side. */
  lemma {:induction false} NoAdjacentPair(hay: string, needle: string)
    requires |needle| == 2
    requires forall i :: 0 <= i < |hay| - 1 ==> !(hay[i] == needle[0] && hay[i + 1] == needle[1])
    ensures !Contains(hay, needle)
    decreases |hay|
  {
    if |hay| > 0 {
      var rest := hay[1..];
      NoAdjacentPair(rest, needle);
      if |hay| >= 2 {
        assert hay[..2][0] == hay[0] && hay[..2][1] == hay[1];
      }
    }
  }

  /** Lower-cases one ASCII letter; every other character is kept. */
  function LowerChar(c: char): char {
    if 'A' <= c <= 'Z' then (c as int + 32) as char else c
  }

  /** Python's `str.lower()`, restricted to ASCII letters. */
  function Lower(s: string): (r: string)
    ensures |r| == |s|
    ensures forall i :: 0 <= i < |s| ==> r[i] == LowerChar(s[i])
  {
    seq(|s|, i requires 0 <= i < |s| => LowerChar(s[i]))
  }

  /** Lower-casing twice is lower-casing once. */
  lemma LowerIdempotent(s: string)
    ensures Lower(Lower(s)) == Lower(s)
  {
  }

  /** The characters Python's `str.isspace()` accepts, which `str.strip()`
      removes: the ASCII controls 9-13 and 28-31, the space, and the Unicode
      separators (U+0085, the no-break and ideographic spaces, the
      typographic spaces U+2000-U+200A, and the line and paragraph
      separators). */
  predicate IsSpace(c: char) {
    var n := c as int;
    || n == 0x20 || 0x09 <= n <= 0x0D || 0x1C <= n <= 0x1F
    || n == 0x85 || n == 0xA0 || n == 0x1680
    || 0x2000 <= n <= 0x200A || n == 0x2028 || n == 0x2029
    || n == 0x202F || n == 0x205F || n == 0x3000
  }

  /** True if `s.strip()` is empty, i.e. `s` holds only whitespace. */
  predicate IsBlank(s: string) {
    forall i :: 0 <= i < |s| ==> IsSpace(s[i])
  }

  /** Python's `s[:n]` for a non-negative `n`. */
  function Take(s: string, n: nat): (r: string)
    ensures |r| == if |s| <= n then |s| else n
    ensures IsPrefix(r, s)
  {
    if |s| <= n then s else s[..n]
  }

  /** A POSIX path that starts at the root. */
  predicate IsAbsolute(p: string) {
    |p| > 0 && p[0] == '/'
  }

  /** `os.path.join(a, b)` on POSIX: an absolute `b` discards `a`; otherwise
      `b` follows `a`, with a "/" between them unless `a` is empty or already
      ends in one. */
  function Join(a: string, b: string): (r: string)
    ensures IsAbsolute(b) ==> r == b
    ensures !IsAbsolute(b) ==> IsPrefix(a, r) && IsSuffix(b, r) && |r| <= |a| + 1 + |b|
    ensures !IsAbsolute(b) && a != "" && a[|a| - 1] != '/' ==> r == a + "/" + b
  {
    if IsAbsolute(b) then b
    else if a == "" || a[|a| - 1] == '/' then a + b
    else a + "/" + b
  }

  /** Index of the last dot in `s`, or -1 when it holds none. */
  function LastDot(s: string): (k: int)
    ensures -1 <= k < |s|
    ensures k >= 0 ==> s[k] == '.'
    ensures forall j :: k < j < |s| ==> s[j] != '.'
    decreases |s|
  {
    if s == [] then -1
    else if s[|s| - 1] == '.' then |s| - 1
    else LastDot(s[..|s| - 1])
  }

  /** Python's `s.split('.')[-1]`: the text after the last dot, or all of `s`
      when it holds no dot. */
  function AfterLastDot(s: string): (r: string)
    ensures '.' !in r
    ensures IsSuffix(r, s)
  {
    var k := LastDot(s);
    NoDotAfter(s, k);
    s[k + 1..]
  }

  lemma NoDotAfter(s: string, k: int)
    requires -1 <= k < |s|
    requires forall j :: k < j < |s| ==> s[j] != '.'
    ensures '.' !in s[k + 1..]
  {
    var r := s[k + 1..];
    forall j | 0 <= j < |r| ensures r[j] != '.' {
      assert r[j] == s[k + 1 + j];
    }
  }

  /** A name without a dot is its own extension; otherwise the extension is
      shorter than the name and a dot stands just before it. */
  lemma AfterLastDotCases(s: string)
    ensures '.' !in s ==> AfterLastDot(s) == s
    ensures '.' in s ==> var r := AfterLastDot(s);
                         |r| < |s| && s[|s| - |r| - 1] == '.'
  {
    var k := LastDot(s);
    assert k >= 0 ==> s[k] in s;
  }

  /** A name ending in "." and a dot-free extension gives that extension
      back. */
  lemma AfterLastDotAppend(p: string, e: string)
    requires '.' !in e
    ensures AfterLastDot(p + "." + e) == e
  {
    var s := p + "." + e;
    assert s[|p|] == '.';
    assert forall i :: |p| < i < |s| ==> s[i] == e[i - |p| - 1];
    var k := LastDot(s);
    assert k == |p|;
    assert s[k + 1..] == e;
  }

  /** Python's `<` on strings: lexicographic by code point. */
  predicate Less(a: string, b: string)
    decreases |a|
  {
    if a == [] then b != []
    else if b == [] then false
    else if a[0] < b[0] then true
    else if a[0] == b[0] then Less(a[1..], b[1..])
    else false
  }

  lemma {:induction false} LessIrreflexive(a: string)
    ensures !Less(a, a)
    decreases |a|
  {
    if a != [] {
      LessIrreflexive(a[1..]);
    }
  }

  lemma {:induction false} LessTransitive(a: string, b: string, c: string)
    requires Less(a, b) && Less(b, c)
    ensures Less(a, c)
    decreases |a|
  {
    if a != [] && b != [] && c != [] && a[0] == b[0] && b[0] == c[0] {
      LessTransitive(a[1..], b[1..], c[1..]);
    }
  }

  lemma {:induction false} LessTotal(a: string, b: string)
    requires a != b
    ensures Less(a, b) || Less(b, a)
    decreases |a|
  {
    if a != [] && b != [] && a[0] == b[0] {
      assert a == [a[0]] + a[1..] && b == [b[0]] + b[1..];
      LessTotal(a[1..], b[1..]);
    }
  }
}

=== FILE: translate_page.dfy ===
/**
 The translation page: its own language-name table, the guards in front of
 the translate and enhance buttons, batch translation of an uploaded sheet,
 the record built when a translation is added to the dictionary, and
 whether the add form can be reached under Streamlit's reruns.
 */
module TranslatePage {
  import opened Optional
  import opened Text
  import opened Entries
  import opened Store
  import Puter

  /** The page's language-name table: the store's thirteen names, with
      "Auto-detect" in place of "auto". */
  const PageCodes: map<string, string> := map[
    "Hindi" := "hi", "Telugu" := "te", "Kannada" := "kn", "Tamil" := "ta",
    "Malayalam" := "ml", "Marathi" := "mr", "Gujarati" := "gu", "Punjabi" := "pa",
    "Bengali" := "bn", "Odia" := "or", "English" := "en", "Chinese" := "zh",
    "Japanese" := "ja", "Auto-detect" := "auto"]

  /** `get_language_code`: the table's code, or the lower-cased name. */
  function PageLanguageCode(name: string): (code: string)
    ensures name in PageCodes ==> code == PageCodes[name]
    ensures name !in PageCodes ==> code == Lower(name)
    ensures Lower(code) == code
  {
    if name in PageCodes then PageCodes[name] else Lower(name)
  }

  /** The page and the store resolve every name to the same code except
      "Auto-detect", which the page sends as "auto" and the store as
      "auto-detect". ("auto" itself agrees: the store's table has it and the
      page lower-cases it to itself.) */
  lemma CodesAgreeExceptAutoDetect(name: string)
    ensures PageLanguageCode(name) == LanguageCode(name) <==> name != "Auto-detect"
  {
    if name == "Auto-detect" {
      assert "Auto-detect" !in StoreCodes;
      assert LanguageCode(name)[0] == 'a' && |LanguageCode(name)| == 11;
    } else if name == "auto" {
      assert "auto" !in PageCodes;
      assert Lower("auto") == "auto";
    } else {
      assert name in PageCodes <==> name in StoreCodes;
    }
  }

  // ---------------------------------------------------------------------
  // Guards

  /** The translate button: a warning and no call when the text is blank
      after stripping; otherwise the stub's translation between the two
      resolved codes. */
  function TranslateRequest(text: string, sourceName: string, targetName: string, stubFails: bool): (r: Option<string>)
    ensures r.None? <==> IsBlank(text)
    ensures r.Some? ==> IsSuffix(text, r.value)
    ensures r.Some? && !stubFails ==>
              Puter.StripNote(r.value, PageLanguageCode(targetName)) == text
  {
    if IsBlank(text) then None
    else
      Puter.TranslateRoundTrip(text, PageLanguageCode(sourceName), PageLanguageCode(targetName));
      Some(Puter.TranslateText(text, PageLanguageCode(sourceName), PageLanguageCode(targetName), stubFails))
  }

  /** A text of no-break and ideographic spaces strips to nothing, so the
      button only warns and makes no call. */
  lemma UnicodeSpacesAreBlank(sourceName: string, targetName: string, stubFails: bool)
    ensures TranslateRequest("\U{3000}\U{00A0} ", sourceName, targetName, stubFails).None?
    ensures TranslateRequest("\U{3000}x", sourceName, targetName, stubFails).Some?
  {
    assert !IsSpace('x');
    assert "\U{3000}x"[1] == 'x';
  }

  /** What the enhance button shows. */
  datatype Enhanced = Enhanced(enhancement: Puter.Enhancement, examples: seq<string>)

  /** The enhance button: a warning and no call unless both word and meaning
      are non-empty; otherwise the stub's enhancement and its example
      sentences, two separate calls that fail independently. */
  function EnhanceRequest(word: string, meaning: string, language: string, enhanceFails: bool, examplesFail: bool): (r: Option<Enhanced>)
    ensures r.None? <==> word == "" || meaning == ""
    ensures r.Some? ==> Contains(r.value.enhancement.enhancedMeaning, meaning)
    ensures r.Some? && !enhanceFails ==>
              |r.value.enhancement.relatedWords| == 3 &&
              Contains(r.value.enhancement.enhancedMeaning, "'" + word + "'")
    ensures r.Some? && enhanceFails ==>
              r.value.enhancement.enhancedMeaning == meaning && r.value.enhancement.relatedWords == []
    ensures r.Some? && !examplesFail ==>
              |r.value.examples| == 3 &&
              forall i :: 0 <= i < 3 ==> Contains(r.value.examples[i], "'" + word + "'")
    ensures r.Some? && examplesFail ==> r.value.examples == []
  {
    if word == "" || meaning == "" then None
    else
      Some(Enhanced(Puter.EnhanceMeaning(word, meaning, language, enhanceFails),
                    Puter.GenerateExampleSentences(word, meaning, language, examplesFail)))
  }

  /** The two calls behind the button do not affect each other: the
      enhancement depends only on its own call's failure and the examples
      only on theirs, so either can fall back while the other succeeds. */
  lemma EnhanceIndependent(word: string, meaning: string, language: string, a: bool, b: bool, b2: bool)
    requires word != "" && meaning != ""
    ensures EnhanceRequest(word, meaning, language, a, b).value.enhancement ==
            EnhanceRequest(word, meaning, language, a, b2).value.enhancement
    ensures EnhanceRequest(word, meaning, language, b, a).value.examples ==
            EnhanceRequest(word, meaning, language, b2, a).value.examples
    ensures var r := EnhanceRequest(word, meaning, language, true, false).value;
            r.enhancement.enhancedMeaning == meaning && |r.examples| == 3
  {
  }

  // ---------------------------------------------------------------------
  // Batch translation

  /** One row of the uploaded sheet: its word cell and its language cell,
      `None` when that cell is empty or a missing-value marker
      (`Csv.IsMarker`), which pandas reads as a float NaN. */
  datatype BatchRow = BatchRow(word: string, language: Option<string>)

  /** The uploaded sheet: its column names and its rows. */
  datatype Sheet = Sheet(columns: seq<string>, rows: seq<BatchRow>)

  /** One line of the results table. */
  datatype BatchResult = BatchResult(originalWord: string, originalLanguage: string, translatedMeaning: string)

  /** The target the batch loop passes: the name "English", not a code. */
  const BatchTarget := "English"

  /** The result for a row whose language cell is filled. */
  function ResultOf(row: BatchRow, stubFails: bool): (r: BatchResult)
    requires row.language.Some?
    ensures r.originalWord == row.word && r.originalLanguage == row.language.value
  {
    BatchResult(row.word, row.language.value,
                Puter.TranslateText(row.word, PageLanguageCode(row.language.value), BatchTarget, stubFails))
  }

  /** A batch result holds the row's word behind the note for the name
      "English", which the stub does not know and so repeats as it is. */
  lemma BatchResultNote(row: BatchRow, stubFails: bool)
    requires row.language.Some?
    ensures IsSuffix(row.word, ResultOf(row, stubFails).translatedMeaning)
    ensures !stubFails ==> IsPrefix("[English Translation]: ", ResultOf(row, stubFails).translatedMeaning)
    ensures stubFails ==> ResultOf(row, stubFails).translatedMeaning == row.word
  {
    assert BatchTarget !in Puter.LanguageNames;
    assert Puter.TranslationNote(BatchTarget) == "[English Translation]: ";
  }

  /** The number of rows whose language cell is filled. */
  function Filled(rows: seq<BatchRow>): (n: nat)
    ensures n <= |rows|
  {
    if rows == [] then 0 else (if rows[0].language.Some? then 1 else 0) + Filled(rows[1..])
  }

  /** The loop over the rows. Resolving the code of a language cell read
      as NaN (empty or a missing-value marker) raises, because a float has
      no `lower`, so that row is reported and skipped;
      every other row gives one result, in row order. */
  function TranslateRows(rows: seq<BatchRow>, stubFails: bool): (r: seq<BatchResult>)
    ensures |r| == Filled(rows)
  {
    if rows == [] then []
    else
      var rest := TranslateRows(rows[1..], stubFails);
      if rows[0].language.Some? then [ResultOf(rows[0], stubFails)] + rest else rest
  }

  /** Every row with a language cell has its result among the results. */
  lemma {:induction false} TranslateRowsComplete(rows: seq<BatchRow>, stubFails: bool, i: nat)
    requires i < |rows| && rows[i].language.Some?
    ensures ResultOf(rows[i], stubFails) in TranslateRows(rows, stubFails)
  {
    if i > 0 {
      assert rows[i] == rows[1..][i - 1];
      TranslateRowsComplete(rows[1..], stubFails, i - 1);
    }
  }

  /** Every result is the result of some row with a language cell. */
  lemma {:induction false} TranslateRowsSound(rows: seq<BatchRow>, stubFails: bool, j: nat)
    requires j < |TranslateRows(rows, stubFails)|
    ensures exists i :: 0 <= i < |rows| && rows[i].language.Some? &&
                        TranslateRows(rows, stubFails)[j] == ResultOf(rows[i], stubFails)
  {
    var r := TranslateRows(rows, stubFails);
    if rows[0].language.Some? && j == 0 {
      assert r[0] == ResultOf(rows[0], stubFails);
    } else {
      var j' := if rows[0].language.Some? then j - 1 else j;
      assert r[j] == TranslateRows(rows[1..], stubFails)[j'];
      TranslateRowsSound(rows[1..], stubFails, j');
      var i' :| 0 <= i' < |rows[1..]| && rows[1..][i'].language.Some? &&
                TranslateRows(rows[1..], stubFails)[j'] == ResultOf(rows[1..][i'], stubFails);
      assert rows[1..][i'] == rows[i' + 1];
    }
  }

  /** Appending a row to the sheet appends its result, if any, to the
      results: the results keep row order. */
  lemma {:induction false} TranslateRowsAppend(rows: seq<BatchRow>, row: BatchRow, stubFails: bool)
    ensures TranslateRows(rows + [row], stubFails) ==
            TranslateRows(rows, stubFails) + (if row.language.Some? then [ResultOf(row, stubFails)] else [])
  {
    if rows != [] {
      assert (rows + [row])[1..] == rows[1..] + [row];
      TranslateRowsAppend(rows[1..], row, stubFails);
    } else {
      assert [row][1..] == [];
    }
  }

  /** With every language cell filled, the results are the rows' results one
      for one. */
  lemma {:induction false} TranslateRowsAllFilled(rows: seq<BatchRow>, stubFails: bool)
    requires forall i :: 0 <= i < |rows| ==> rows[i].language.Some?
    ensures var r := TranslateRows(rows, stubFails);
            |r| == |rows| && forall i :: 0 <= i < |rows| ==> r[i] == ResultOf(rows[i], stubFails)
  {
    if rows != [] {
      TranslateRowsAllFilled(rows[1..], stubFails);
      var r := TranslateRows(rows, stubFails);
      forall i | 1 <= i < |rows| ensures r[i] == ResultOf(rows[i], stubFails) {
        assert rows[i] == rows[1..][i - 1];
      }
    }
  }

  /** "Translate All": an error unless the sheet has both a `word` and a
      `language` column; otherwise the results of the row loop. */
  function BatchTranslate(sheet: Sheet, stubFails: bool): (r: Option<seq<BatchResult>>)
    ensures r.None? <==> "word" !in sheet.columns || "language" !in sheet.columns
    ensures r.Some? ==> r.value == TranslateRows(sheet.rows, stubFails) && |r.value| <= |sheet.rows|
  {
    if "word" in sheet.columns && "language" in sheet.columns then Some(TranslateRows(sheet.rows, stubFails))
    else None
  }

  // ---------------------------------------------------------------------
  // Adding a translation to the dictionary

  /** The translation kept in the page state for the add form. */
  datatype Pending = Pending(word: string, meaning: string, sourceLanguage: string, targetLanguage: string)

  /** The record the add form hands to the store: always a "Word" with no
      audio and no transcript, in the source language, the contributor's
      name or "Anonymous". */
  function DictionaryCandidate(p: Pending, contributor: string, example: string): (c: Candidate)
    ensures c.word == p.word && c.meaning == p.meaning && c.language == p.sourceLanguage
    ensures c.kind == "Word" && c.audioFile == "" && c.transcript == ""
    ensures c.example == example
    ensures c.contributor == (if contributor == "" then "Anonymous" else contributor) && c.contributor != ""
    ensures c.translations == map[]
  {
    Candidate(p.word, p.meaning, example, p.sourceLanguage, "Word", "", "",
              if contributor == "" then "Anonymous" else contributor, map[])
  }

  /** The page after the add form is submitted: the pending translation is
      dropped exactly when `add_entry` reports success. */
  datatype AddOutcome = AddOutcome(ok: bool, store: seq<Entry>, pending: Option<Pending>)

  /** The add form's submit, on `add_entry` as written: when only the
      refresh marker fails, the page shows the error and keeps the pending
      translation although the row is stored. */
  function AddToDictionary(s: seq<Entry>, p: Pending, contributor: string, example: string,
                           now: int, tr: Translator, w: WriteOutcome): (r: AddOutcome)
    ensures r.ok <==> r.pending.None?
    ensures r.ok <==> w == Written
    ensures !r.ok ==> r.pending == Some(p)
    ensures w == CsvFailed ==> r.store == s
    ensures w != CsvFailed ==>
              |r.store| == |s| + 1 && r.store[..|s|] == s &&
              r.store[|s|].word == p.word && r.store[|s|].kind == "Word" &&
              r.store[|s|].audioFile == "" && r.store[|s|].language == p.sourceLanguage &&
              !r.store[|s|].verified
  {
    var added := AddEntryAsWritten(s, DictionaryCandidate(p, contributor, example), now, tr, w);
    AddOutcome(added.ok, added.store, if added.ok then None else Some(p))
  }

  /** After a marker failure the translation is still pending, and adding it
      again stores the word a second time. */
  lemma AddAgainAfterMarkerFailure(s: seq<Entry>, p: Pending, contributor: string, example: string,
                                   now: int, later: int, tr: Translator)
    ensures var first := AddToDictionary(s, p, contributor, example, now, tr, MarkerFailed);
            first.pending == Some(p) && !first.ok &&
            var second := AddToDictionary(first.store, p, contributor, example, later, tr, Written);
            second.ok && |second.store| == |s| + 2 &&
            second.store[|s|].word == p.word && second.store[|s| + 1].word == p.word
  {
    var first := AddToDictionary(s, p, contributor, example, now, tr, MarkerFailed);
    var second := AddToDictionary(first.store, p, contributor, example, later, tr, Written);
    assert second.store[..|first.store|] == first.store;
    assert second.store[|s|] == first.store[|s|];
  }

  /** A translation made from "Auto-detect" is stored under the language
      "Auto-detect", which the store resolves to the code "auto-detect". */
  lemma AutoDetectStoredCode(p: Pending, contributor: string, example: string)
    requires p.sourceLanguage == "Auto-detect"
    ensures LanguageCode(DictionaryCandidate(p, contributor, example).language) == "auto-detect"
    ensures PageLanguageCode(p.sourceLanguage) == "auto"
  {
    assert "Auto-detect" !in StoreCodes;
  }

  // ---------------------------------------------------------------------
  // Reaching the add form

  /** The button that triggered a rerun of the page script. Under
      Streamlit's rerun model `st.button` returns True on that one rerun,
      and only for the button clicked; every other button returns False. */
  datatype Click = NoClick | TranslateClick | AddClick

  /** One run of the translate section: the translation shown, if any, and
      the pending translation the add form reads. */
  datatype Run = Run(shown: Option<string>, pending: Option<Pending>)

  /** One run as written: the "Add to JanaBhasha Dictionary" button is
      created inside the translate button's branch, and only its own click
      would set the pending translation. The click that makes it return
      True reruns the script with the translate button False, so that
      branch is never entered on the same run. */
  function RunAsWritten(pending: Option<Pending>, click: Click, text: string,
                        source: string, target: string, stubFails: bool): (r: Run)
    ensures r.shown.Some? <==> click == TranslateClick && !IsBlank(text)
    ensures r.pending == pending
  {
    var translatePressed := click == TranslateClick;
    var addPressed := click == AddClick;
    if translatePressed then
      match TranslateRequest(text, source, target, stubFails)
      case None => Run(None, pending)
      case Some(t) =>
        if addPressed then Run(Some(t), Some(Pending(text, t, source, target)))
        else Run(Some(t), pending)
    else Run(None, pending)
  }

  /** The pending translation after a sequence of reruns as written, with
      the same form inputs throughout. */
  function PendingAsWritten(pending: Option<Pending>, clicks: seq<Click>, text: string,
                            source: string, target: string, stubFails: bool): Option<Pending>
    decreases |clicks|
  {
    if clicks == [] then pending
    else
      var r := RunAsWritten(pending, clicks[0], text, source, target, stubFails);
      PendingAsWritten(r.pending, clicks[1..], text, source, target, stubFails)
  }

  /** As written, no sequence of clicks ever sets the pending translation,
      so the add form is never shown. */
  lemma {:induction false} AddFormUnreachable(clicks: seq<Click>, text: string,
                                              source: string, target: string, stubFails: bool)
    ensures PendingAsWritten(None, clicks, text, source, target, stubFails).None?
    decreases |clicks|
  {
    if clicks != [] {
      AddFormUnreachable(clicks[1..], text, source, target, stubFails);
    }
  }

  /** The page state of the corrected section: the last translation shown
      is kept between reruns, and the add button sits outside the translate
      button's branch. */
  datatype Session = Session(lastTranslation: Option<Pending>, pending: Option<Pending>)

  /** One run of the corrected section: a translate click records the
      translation; an add click turns the recorded translation into the
      pending one. */
  function RunCorrected(s: Session, click: Click, text: string,
                        source: string, target: string, stubFails: bool): (r: Session)
    ensures click == NoClick ==> r == s
    ensures click == TranslateClick ==> r.pending == s.pending
    ensures click == TranslateClick && !IsBlank(text) ==>
              r.lastTranslation.Some? && r.lastTranslation.value.word == text &&
              r.lastTranslation.value.sourceLanguage == source &&
              r.lastTranslation.value.targetLanguage == target &&
              IsSuffix(text, r.lastTranslation.value.meaning)
    ensures click == AddClick ==>
              r.lastTranslation == s.lastTranslation &&
              r.pending == (if s.lastTranslation.Some? then s.lastTranslation else s.pending)
  {
    match click
    case NoClick => s
    case TranslateClick =>
      (match TranslateRequest(text, source, target, stubFails)
       case None => s
       case Some(t) => Session(Some(Pending(text, t, source, target)), s.pending))
    case AddClick =>
      if s.lastTranslation.Some? then Session(s.lastTranslation, s.lastTranslation) else s
  }

  /** Corrected, a translate click followed by an add click opens the add
      form on the translation just shown. */
  lemma TranslateThenAddOpensForm(text: string, source: string, target: string, stubFails: bool)
    requires !IsBlank(text)
    ensures var first := RunCorrected(Session(None, None), TranslateClick, text, source, target, stubFails);
            var second := RunCorrected(first, AddClick, text, source, target, stubFails);
            second.pending.Some? && second.pending == first.lastTranslation &&
            second.pending.value.word == text &&
            second.pending.value.meaning == TranslateRequest(text, source, target, stubFails).value
  {
  }
}
